=== FILE: README.md ===
# github-fetch collection engine, modelled in Dafny

`github-fetch` is a Rust library that collects issues, pull requests,
comments, reviews and discussions from GitHub and normalizes them into
its own records. This project models the library's collection engine and
proves properties of that model:

- **the issue filter** (`src/filters.rs`). `IssueFilters::matches` is a
  chain of eleven early-return checks. The filter also has two presets and
  three text scanners: error-code detection, error-code extraction and
  code-block detection.
- **the REST client's normalizers and paged walks** (`src/client.rs`).
  - The normalizers are `convert_state`, `convert_issue`, the field
    mappings of `fetch_issue`, `fetch_pr`, `fetch_pr_reviews` and
    `fetch_comments`, and the JSON extractor `parse_review_comment`.
  - The walks are the loops of `fetch_issues`, `fetch_comments` and
    `fetch_pr_review_comments`. They are methods proved against
    specification functions.
  - `describe_filters` builds the filter trace.
- **the GraphQL discussion client** (`src/discussion.rs`). This covers
  the token and header checks and the status handling of
  `fetch_discussion`, the lookup by URL, the query text, the
  normalization of the reply and the discussion URL parser.
- **repository references and configuration** (`src/types.rs`,
  `src/config.rs`). These are `Repository::new`, `from_url`,
  `from_full_name`, the configuration defaults and `delay_duration`.
- **the front door** (`src/lib.rs`). This is `GitHubFetcher` with its
  delegations and its cap plumbing, plus `GitHubFetcherBuilder`. The
  builder is a class whose setter methods update its configuration in
  place.

## How the world enters the model

- **Page responses.** Every request the walks make is an input.
  - A listing is a `seq<PageFetch<T>>`. Page `n`, numbered from 1, is
    element `n - 1`.
  - Every page past the end is empty, which is how the server answers a
    request past the last page.
  - A page is either `Page(items)` or `Failed(reason)`.
- **Single lookups** (one issue, one pull request, the reviews) are a
  `Result` holding the wire record or the failure's message.
- **The pull-request merge time.** `convert_issue` fetches it for each
  pull request. Here it is the `prMergedAt` field of the raw issue.
- **Timestamps.** Parsing is the parameter
  `parseTs: string -> Option<Time>`, and rendering is `formatTs`. The
  reading of the clock is the parameter `now`.
- **The process environment** is a `map<string, string>`.
- **The GraphQL endpoint** is a function from the query text it is sent
  to its reply: a transport failure, or a status, a text and the body
  parsed as JSON.
- **JSON** is a tree: `Null | Bool | Num | Str | Arr | Obj`. It carries
  `serde_json`'s accessors (`get`, `as_u64`, `as_str`, `as_array`).
  - `get` on a non-object is absent.
  - `as_u64` accepts only non-negative integers below 2^64.

## Behaviour of the code that a reader might not expect

- **`from_full_name`** accepts empty segments: `"/"`, `"a/"` and `"/b"`
  all parse.
- **A cap of `Some(0)`** still admits the first accepted issue. The cap is
  compared only after an issue is pushed, so `fetch_issues_with_limit(0)`
  can return one issue.
- **A present but `null` discussion** is not `NotFound`.
  `parse_discussion_response` returns the all-defaults discussion with
  the requested number.
- **A comment node's `author.id`** must be a decimal string. GitHub's
  GraphQL API sends node ids such as `"MDQ6VXNlcjE="`, and every such
  node is dropped silently. The model reproduces this on purpose, as the
  code behaves; `Discussions.NonDecimalAuthorIdDropsNode` states it. It is
  not listed under Findings because whether the server's ids are decimal
  lies outside the code.
- **The error-code check** cannot pass as written (see Findings). The
  issue walk filters with `matches` as written, so `fetch_issues` with
  `rust_errors_only` set collects no issue. The corrected filter and its
  properties are proved beside it.

## Model

| member | source | states |
|---|---|---|
| Common.FilterMapAppend | src/client.rs:403-407 | Keeping the present results of a parser over `a + b` is keeping them over `a` and then over `b`, so per-page keeping composes over a whole walk. |
| Common.FilterMapSpec | src/client.rs:403-407 | Every kept result is the parse of some item, and every item that parses contributes its result. |
| JsonTree.Get | src/client.rs:415-465 | `get(key)` is present exactly when the value is an object with that key, so every non-object yields absent. |
| Text.LowerHasNoUpper | src/filters.rs:143-144 | Lowercased content holds no upper-case ASCII letter, and in particular no `E`. |
| Text.ContainsIff | src/filters.rs:146-162 | The substring search behind the keyword checks succeeds exactly when the keyword occurs at some index. |
| Text.NotContainedWithoutFirstChar | src/filters.rs:156-162 | A non-empty keyword whose first character never occurs in the content is not found. |
| Text.Split | src/types.rs:81 | `split('/')` yields one more piece than there are slashes, and no piece holds a slash. |
| Text.SplitJoin | src/types.rs:81 | Splitting loses nothing: rejoining the pieces with the separator gives the string back. |
| Text.SplitAround | src/types.rs:81 | Splitting `a + "/" + b` gives the pieces of `a` followed by the pieces of `b`. |
| Text.SplitWithoutSep | src/types.rs:81 | A string without a slash splits into itself alone. |
| Text.TrimEnd | src/types.rs:68 | `trim_end_matches('/')` gives a prefix that does not end with a slash, and only slashes are removed. |
| Text.Lines | src/filters.rs:190 | No line that `lines()` yields holds a line feed. |
| Text.SingleLine | src/filters.rs:190 | A non-empty text without a line feed is one line. |
| Text.FirstLine | src/filters.rs:190 | The first line ends at the first line feed, less a carriage return just before it. |
| Text.LinesJoin | src/filters.rs:190 | Lines lose only their line feeds: a text without carriage returns or a final line feed is its lines joined by line feeds. |
| Text.ByteLen | src/filters.rs:118-122 | The byte length the body check compares lies between the number of characters and four times that number. |
| Text.NatToString | src/discussion.rs:108-147 | The decimal rendering of a number is a non-empty string of ASCII digits. |
| Text.DecimalRoundTrip | src/discussion.rs:95-98 | Reading back the digits of a number's decimal rendering gives the number. |
| Text.ParseU64RoundTrip | src/discussion.rs:95-98 | Every `u64` survives rendering in decimal followed by `parse::<u64>()`. |
| Text.ParseU64SignedRoundTrip | src/discussion.rs:95-98 | A leading `+` is accepted: every `u64` also reads back from `+` followed by its decimal digits. |
| Text.ParseU64 | src/discussion.rs:95-98 | `parse::<u64>()`, whose behaviour `Text.ParseU64RoundTrip`, `Text.ParseU64SignedRoundTrip`, `Discussions.TooLargeNumberRejected` and `Discussions.NonDecimalAuthorIdDropsNode` state. |
| Types.NewRepository | src/types.rs:56-65 | `Repository::new` keeps the owner and the name as given, and its full name is `owner + "/" + name`. |
| Types.FromFullNameAcceptsOneSlash | src/types.rs:80-89 | `from_full_name` succeeds exactly when the string holds one slash, and empty segments are accepted. |
| Types.FromFullNameRoundTrip | src/types.rs:80-89 | A parsed full name is well formed and renders back to the string it came from. |
| Types.FromFullNameOfParts | src/types.rs:80-89 | `from_full_name(o + "/" + n)` recovers owner `o` and name `n` when neither holds a slash. |
| Types.FromUrlFailsIff | src/types.rs:67-78 | `from_url` fails exactly when no slash is left once trailing slashes are trimmed. |
| Types.FromUrlIgnoresTrailingSlash | src/types.rs:67-78 | Appending a slash changes neither the verdict of `from_url` nor the reference it builds. |
| Types.FromUrlTakesLastSegments | src/types.rs:67-78 | Owner and name hold no slash, and the full name is the tail of the trimmed URL right after a slash, or all of it. |
| Types.FromUrlOfRepositoryUrl | src/types.rs:67-78 | A URL `prefix/owner/name` yields exactly that owner and name. |
| Types.FromUrl | src/types.rs:67-78 | `Repository::from_url`, whose verdict and result `Types.FromUrlFailsIff`, `Types.FromUrlIgnoresTrailingSlash`, `Types.FromUrlTakesLastSegments` and `Types.FromUrlOfRepositoryUrl` state. |
| Types.FromFullName | src/types.rs:80-89 | `Repository::from_full_name`, whose verdict and result `Types.FromFullNameAcceptsOneSlash`, `Types.FromFullNameRoundTrip` and `Types.FromFullNameOfParts` state. |
| Config.DelayDuration | src/config.rs:58-60 | The duration is normalized and lasts exactly the configured number of milliseconds. |
| Config.DefaultValues | src/config.rs:10-55 | The default configuration pairs the two component defaults. It has token variable `GITHUB_TOKEN`, the public API URL, user agent `github-fetch/0.1.0`, timeout 30, rate 60, delay 1000 ms, forge limits respected and 3 retries. |
| Filters.SearchCodeIff | src/filters.rs:180-183 | The left-to-right search for `E0\d{3,4}` from a position succeeds exactly when the pattern matches at or after it. |
| Filters.HasRustErrorCodesIff | src/filters.rs:180-183 | `has_rust_error_codes` holds exactly when `E0` and three digits occur somewhere. |
| Filters.CodesFromSpec | src/filters.rs:194-202 | The codes found by resuming the search after each match are exactly the texts the greedy pattern matches at some position from the start. |
| Filters.ExtractErrorCodesSpec | src/filters.rs:194-202 | `extract_error_codes` yields exactly the distinct matched texts, and it is non-empty exactly when `has_rust_error_codes` holds. |
| Filters.HasRustErrorCodes | src/filters.rs:180-183 | `has_rust_error_codes`, which `Filters.HasRustErrorCodesIff`, `Filters.CodeDetected`, `Filters.NoCodeWithoutE` and `Filters.NoCodeInLowercase` characterize. |
| Filters.ExtractErrorCodes | src/filters.rs:194-202 | `extract_error_codes`, which `Filters.ExtractErrorCodesSpec` characterizes and `Filters.ExtractionExample` instantiates. |
| Filters.NoCodeInLowercase | src/filters.rs:164-168 | No lowercased text holds an error code. |
| Filters.CodeDetected | src/filters.rs:180-183 | A text the pattern matches somewhere is detected. |
| Filters.NoCodeWithoutE | src/filters.rs:180-183 | A text without an upper-case `E` is not detected. |
| Filters.RustErrorDetectionExamples | src/filters.rs:209-212 | The filter's own detection tests: two error reports are detected and plain text is not. |
| Filters.CodeThenCodeless | src/filters.rs:194-202 | A code followed by a stretch without `E` contributes that code, and the search resumes after the stretch. |
| Filters.TwoCodesExtracted | src/filters.rs:194-202 | Two five-character codes separated and followed by text without `E` or a leading digit are exactly the codes extracted. |
| Filters.ExtractionExample | src/filters.rs:214-217 | The filter's own extraction test: `"E0382 and E0502 errors occurred"` yields exactly `{E0382, E0502}`. |
| Filters.FencedExample | src/filters.rs:222 | A fenced block is a code block. |
| Filters.IndentedLineExample | src/filters.rs:191 | A line with four leading spaces and code on it is a line of indented code. |
| Filters.IndentedExample | src/filters.rs:223 | Indented code lines are a code block. |
| Filters.FirstLineOf | src/filters.rs:190 | The first line of a text is what precedes its first line feed. |
| Filters.PlainLineHasNoCode | src/filters.rs:185-192 | One line without a backquote that does not start with a space is no code block. |
| Filters.ProseExample | src/filters.rs:224 | The filter's own negative test: plain prose is no code block. |
| Filters.HasCodeBlocks | src/filters.rs:185-192 | `has_code_blocks`, which `Filters.FencedExample`, `Filters.IndentedExample`, `Filters.PlainLineHasNoCode` and `Filters.ProseExample` decide on the source's own cases, over the line split of `Text.Lines` and `Text.LinesJoin`. |
| Filters.ListedIgnoringCaseIff | src/filters.rs:99-116 | The `any` over a label list finds an entry exactly when some entry equals the label after lowercasing. |
| Filters.AnyLabelListedIff | src/filters.rs:99-116 | The double `any` over labels and list entries holds exactly when some label equals some entry, ignoring case. |
| Filters.AnyKeywordInIff | src/filters.rs:146-162 | The `any` over keywords holds exactly when some lowercased keyword occurs in the content. |
| Filters.ChecksAsExistentials | src/filters.rs:99-168 | Each scanning check of `matches` holds exactly when its witness exists: a code position, a matching label pair or a keyword hit. |
| Filters.NoRejectionIffAllPass | src/filters.rs:80-177 | The chain of early returns accepts exactly when every one of the eleven checks passes. |
| Filters.RejectionIsFirstFailure | src/filters.rs:80-177 | When the chain rejects, the check it stops at fails and every check before it in the fixed order passes. |
| Filters.FirstRejectionIsFirstFailure | src/filters.rs:80-177 | Both directions together: accept iff all checks pass, and a rejection names the first failing check in the order state, pull request, include labels, exclude labels, body length, comments, dates, required keywords, excluded keywords, error codes, code blocks. |
| Filters.MatchesIffAllPass | src/filters.rs:80-177 | The corrected `matches` holds exactly when every check passes, with the error codes sought in the issue's own text. |
| Filters.MatchesAsWrittenIffAllPass | src/filters.rs:80-177 | `matches` as written holds exactly when every check passes, the error codes being sought in the lowercased content. |
| Filters.MatchesAsWritten | src/filters.rs:80-177 | `matches` as written, the predicate the issue walk uses. `Filters.MatchesAsWrittenIffAllPass` and `Filters.RustErrorsOnlyRejectsAll` state what it accepts. |
| Filters.Matches | src/filters.rs:80-177 | `matches` with the error codes sought in the title and body as written, the corrected half of the finding. `Filters.MatchesIffAllPass` and `Filters.AsWrittenAgreesWithoutErrorCheck` state what it accepts. |
| Filters.RustErrorsOnlyRejectsAll | src/filters.rs:143-168 | As written, a filter with `rust_errors_only` set, including the `rust_error_focused` preset, rejects every issue. |
| Filters.AsWrittenAgreesWithoutErrorCheck | src/filters.rs:143-168 | Without `rust_errors_only` the code as written and the corrected filter agree on every issue. |
| Filters.BorrowckLabelAccepted | src/filters.rs:63-78 | The label `A-borrowck` is one the preset asks for and none it refuses. |
| Filters.ExcludedKeywordsAbsent | src/filters.rs:63-78 | Content without the letters d, r and t holds none of the preset's excluded keywords. |
| Filters.ErrorReportMatches | src/filters.rs:63-78 | A borrow-checker report with a code in its title, a fence and a 100-byte body passes the corrected preset. |
| Filters.RustErrorFocusedAcceptsErrorReport | src/filters.rs:63-78 | That report passes the corrected preset but not the preset as written. |
| Filters.DefaultFiltersAccept | src/filters.rs:35-60 | The default filters accept exactly the issues that are not pull requests, carry none of `duplicate`, `invalid`, `wontfix`, `question` in any case, have a body of at least 50 bytes and mention none of `discussion`, `rfc`, `tracking`. Both versions of `matches` agree on them. |
| Filters.DefaultFilters | src/filters.rs:35-60 | `IssueFilters::default`, whose acceptance `Filters.DefaultFiltersAccept` states. |
| Filters.RustErrorFocused | src/filters.rs:63-78 | `rust_error_focused`, whose behaviour `Filters.RustErrorsOnlyRejectsAll`, `Filters.BorrowckLabelAccepted`, `Filters.ErrorReportMatches` and `Filters.RustErrorFocusedAcceptsErrorReport` state. |
| Pages.PageAt | src/client.rs:78-111 | Page `n` of the listing is its `n`-th response, and every page past the end is empty. |
| Pages.RunEnd | src/client.rs:254-289 | The page that ends a walk from `n` is the first empty or failed page at or after `n`, and it lies at most one past the listing. |
| Pages.RunsThroughIff | src/client.rs:107-140 | The page-by-page statement that the walk went on past every page before `m` holds exactly when no page from 1 up to `m` failed or came back empty. |
| Pages.ItemsBetweenFirst | src/client.rs:254-289 | The items of a run of pages are those of its first page followed by the rest, in page order. |
| Pages.WalkItems | src/client.rs:254-289 | A walk that keeps items page by page returns the kept items of every page before the first empty one, in order, or the reason of a failed page met first. |
| Client.ConvertState | src/client.rs:57-63 | The listing asks the server for a state exactly when the filter's state is not `All`. |
| Client.ServerStateAgreesWithFilter | src/client.rs:57-63 | An issue in the state the listing requested always passes the filter's state check. |
| Client.ConvertIssue | src/client.rs:494-541 | Only a pull request carries a merge time, and the state keeps its variant name. Every other field is copied from the raw issue: id, number, title, body, labels, author, assignees, the three timestamps, URL and comment count, so the filters judge the raw issue's own creation time and comment count. |
| Client.PullRequestCheckOfConverted | src/client.rs:494-541 | A normalized issue passes the pull-request check exactly when pull requests are wanted or it is not one. |
| Client.FetchIssue | src/client.rs:158-171 | A found issue is its normalization, which keeps the fetched issue's own number. A failed lookup is `NotFound`. |
| Client.PullToIssue | src/client.rs:185-238 | A pull request maps to an issue flagged as one, keeping its id, number and body. The closing time falls back to the merge time and the author to the placeholder user. The state defaults to `"open"`, title and URL to empty, labels and assignees to none, and both the creation and the update time to `now`. A comment count that fits in 32 bits is kept, and a missing one is 0. |
| Client.FetchPr | src/client.rs:173-239 | A found pull request is its mapping. A failed lookup is `NotFound`. |
| Client.ConvertReview | src/client.rs:342-364 | A review without an author gets the placeholder user, and one without a state gets `"UNKNOWN"`. Its id, body, submission time, URL and commit id are kept. |
| Client.UnknownIsNoReviewState | src/client.rs:358-361 | The placeholder state `"UNKNOWN"` is the name of no real review state. |
| Client.FetchPrReviews | src/client.rs:319-367 | Every review is kept and mapped, in order. A failed listing is an `ApiError` carrying its message. |
| Client.ConvertComment | src/client.rs:272-286 | A missing body reads as empty and a missing update time as the creation time. The other fields are kept. |
| Client.ConvertCommentRoundTrip | src/client.rs:272-286 | Normalization loses nothing of a comment whose optional fields are present. |
| Client.ConvertComments | src/client.rs:272-286 | Each comment of a page is normalized, one for one and in order. |
| Client.MapTruncate | src/client.rs:415-465 | The `as u32` cast keeps presence, and it keeps the value whenever the value fits in 32 bits. |
| Client.ParseReviewComment | src/client.rs:415-465 | A comment is produced exactly when every required field is present and well typed. Each required field is its member's value, `diff_hunk` defaults to empty, and line, original line, position (cast to 32 bits), side, commit id, review id and parent id are taken when well typed and are absent otherwise. |
| Client.AuthorRoundTrip | src/client.rs:416-424 | The author of a comment's wire form reads back as the comment's own author. |
| Client.RequiredMembersRoundTrip | src/client.rs:415-465 | The required scalar members of the wire form read back as the comment's own values. |
| Client.TimesRoundTrip | src/client.rs:446-457 | Both timestamps read back when parsing undoes rendering. |
| Client.PositionMembersRoundTrip | src/client.rs:415-465 | Line, original line, side and position read back as the comment's own. |
| Client.ThreadMembersRoundTrip | src/client.rs:415-465 | The review id, the commit id and the parent comment read back as the comment's own. |
| Client.ReviewCommentRoundTrip | src/client.rs:415-465 | Every review comment survives a trip through its wire form when timestamps do. |
| Client.ReviewCommentNeedsPath | src/client.rs:415-465 | A comment without a string `path` is dropped, whatever else it carries. |
| Trace.EscapeChar | src/client.rs:577-580 | Inside a `{:?}` string literal, a character is written as itself exactly when it needs no escape. |
| Trace.EscapeVerbatim | src/client.rs:577-580 | A label with no character to escape is written unchanged. |
| Trace.KeyOfLine | src/client.rs:573-599 | The setting name of a trace line is read back from it. |
| Trace.TraceKeysDistinct | src/client.rs:573-599 | The seven setting names the trace can hold are pairwise distinct. |
| Trace.TraceLines | src/client.rs:573-599 | There is one candidate line per setting. |
| Trace.TraceGuards | src/client.rs:573-599 | There is one guard per setting. |
| Trace.SelectUpTo | src/client.rs:573-599 | A selection among the first `n` elements has at most `n` elements. |
| Trace.SelectPicks | src/client.rs:573-599 | A selection keeps exactly the flagged elements, in their original order. |
| Trace.TraceLineKeys | src/client.rs:573-599 | Each candidate line names its own setting. |
| Trace.TraceOrigins | src/client.rs:573-599 | Each trace line is the candidate line of a setting whose guard holds, in increasing order, and every such setting contributes. |
| Trace.FilterTraceMentions | src/client.rs:573-599 | The trace names each of the seven settings exactly when its guard holds. |
| Trace.FilterTraceOnlyKnown | src/client.rs:573-599 | The trace names nothing else: never the state, the date range or the keyword lists. |
| Trace.FilterTraceOrdered | src/client.rs:573-599 | An earlier trace line names an earlier setting in the fixed order include_labels, exclude_labels, rust_errors_only, code_blocks_only, min_body_length, exclude_pull_requests, min_comments. |
| Trace.TraceKeysOther | src/client.rs:573-599 | The settings the trace never reports are not among its names. |
| Trace.DescribeFilters | src/client.rs:573-599 | The pushes of `describe_filters` build exactly the filter trace, whose guards, order and names the lemmas above fix. |
| Trace.FilterTrace | src/client.rs:573-599 | The filter trace, whose contents, order and names `Trace.FilterTraceMentions`, `Trace.FilterTraceOnlyKnown` and `Trace.FilterTraceOrdered` state. |
| Collection.CollectPage | src/client.rs:113-126 | The inner loop appends the accepted issues of a page in order and leaves once the cap is reached. |
| Collection.WalkIssues | src/client.rs:78-141 | The page loop returns the collection walk's result, which filters with `matches` as written. Between 1 and 100 pages are requested. Every page before the last requested one is non-empty and did not fail. The loop fails exactly when the last requested page failed. |
| Collection.FetchIssues | src/client.rs:65-156 | `fetch_issues` returns the specified collection report, filtered with `matches` as written, and its page bounds and failure condition are those of the loop. |
| Collection.MatchingOfAppend | src/client.rs:113-118 | Filtering the issues of two pages is filtering each in turn. |
| Collection.MatchingOfSpec | src/client.rs:113-118 | Every kept issue is accepted by `matches` as written, and every issue it accepts is kept. |
| Collection.TakeMatchingUncapped | src/client.rs:113-126 | Without a cap, a page contributes all the issues `matches` as written accepts. |
| Collection.TakeMatchingCapped | src/client.rs:116-126 | Under a cap `m`, a page contributes a prefix of the issues `matches` as written accepts. It stops only on reaching `max(m, 1)` issues, since a cap of 0 still admits the first accepted issue. |
| Collection.TakeMatchingExtends | src/client.rs:113-126 | A page only appends issues accepted by `matches` as written to what was collected before. |
| Collection.CollectFromExtends | src/client.rs:78-141 | The walk only appends issues accepted by `matches` as written to what was collected before. |
| Collection.CollectedIssuesMatch | src/client.rs:113-155 | Every collected issue is accepted by `matches` as written. `total_collected` is the number of issues. The report carries the repository, the time and the filter trace. |
| Collection.ErrorsOnlyCollectsNothing | src/client.rs:113-155 | With `rust_errors_only` set, a successful `fetch_issues` returns no issue and a total of 0. |
| Collection.CollectFrom | src/client.rs:78-141 | The issue walk from a page onwards, whose behaviour `Collection.CollectFromExtends`, `Collection.CollectFromCapped` and `Collection.UncappedWalk` state. |
| Collection.Collected | src/client.rs:65-156 | The collection report, whose contents `Collection.CollectedIssuesMatch`, `Collection.CapBound` and `Collection.UncappedWalk` state. |
| Collection.CollectFromCapped | src/client.rs:116-133 | The capped walk never holds more than `max(m, 1)` issues. |
| Collection.CapBound | src/client.rs:116-133 | `fetch_issues` with cap `Some(m)` returns at most `m` issues, and at most one when `m` is 0. |
| Collection.WalkEnd | src/client.rs:107-140 | The issue walk ends at the first empty or failed page, or after page 100. |
| Collection.WalkItemsStep | src/client.rs:107-140 | The items the issue walk sees are those of its first page followed by those of the pages after it. |
| Collection.UncappedWalk | src/client.rs:103-140 | Without a cap, the result is the issues `matches` as written accepts from every page before the first empty one (at most 100 pages), in page order. A failed request met first aborts the call with its `ApiError`. |
| Collection.CappedIsPrefix | src/client.rs:116-140 | For a cap `m` of at least 1, the capped walk returns the first `m` issues of the uncapped walk. |
| Collection.FetchComments | src/client.rs:241-292 | `fetch_comments` returns the comment walk's result and requests exactly the pages up to the first empty or failed one. |
| Collection.ConvertCommentsAppend | src/client.rs:272-286 | Normalizing two pages of comments is normalizing each in turn. |
| Collection.CommentWalk | src/client.rs:254-291 | The comments are the normalized items of every page before the first empty one, in order, unless a request before it fails with an `ApiError`. |
| Collection.KeepParsedAppend | src/client.rs:403-407 | Keeping the parsable review comments of two pages is keeping those of each in turn. |
| Collection.KeepParsedSpec | src/client.rs:403-407 | Every kept review comment is the parse of an item, and every item with the required fields is kept. |
| Collection.KeepPage | src/client.rs:403-407 | The inner loop appends the parsable comments of a page, in order. |
| Collection.FetchPrReviewComments | src/client.rs:370-413 | `fetch_pr_review_comments` returns the review-comment walk's result and requests exactly the pages up to the first empty or failed one, with no page ceiling. |
| Collection.ReviewCommentWalk | src/client.rs:383-412 | The review comments are the parsable items of every page before the first empty one, in order, unless a request before it fails with an `ApiError`. |
| Discussions.ParseCommentNode | src/discussion.rs:172-198 | A node yields a comment exactly when it has string `id` and `body`, a decimal `author.id`, string `login` and `avatarUrl`, and two parsable timestamps. |
| Discussions.NonDecimalAuthorIdDropsNode | src/discussion.rs:178 | A node whose author id is not a decimal number is dropped. |
| Discussions.KeepNodesSpec | src/discussion.rs:166-200 | Every kept comment is the parse of a node, and every complete node is kept. |
| Discussions.KeepNodesAppend | src/discussion.rs:166-200 | Keeping distributes over concatenation, so kept comments stay in the order of their nodes. |
| Discussions.CommentNodeRoundTrip | src/discussion.rs:172-198 | A comment sent as a node with a decimal user id comes back unchanged. |
| Discussions.Nodes | src/discussion.rs:166-200 | A list of comments is sent as one node per comment. |
| Discussions.KeepNodesRoundTrip | src/discussion.rs:166-200 | A list of comments sent as nodes comes back unchanged and in order. |
| Discussions.AuthorOf | src/discussion.rs:207-232 | An absent author is the placeholder user. A present author's id is its `id` string read as a decimal `u64`, or 0 when that fails; its login defaults to `"unknown"` and its avatar to empty, each on its own. |
| Discussions.ParseDiscussionResponse | src/discussion.rs:149-264 | `NotFound` is returned exactly when the lookup `data.repository.discussion` is absent. Otherwise the number falls back to the requested one, the title to `"Unknown Discussion"`, body and URL to empty, both timestamps to `now`, and the comments are the complete nodes. |
| Discussions.NullDiscussionIsDefault | src/discussion.rs:155-164 | A present but `null` discussion yields the all-defaults discussion with the requested number, not an error. |
| Discussions.NullRepositoryIsNotFound | src/discussion.rs:155-164 | A `null` repository gives `NotFound`. |
| Discussions.DiscussionScalarsRoundTrip | src/discussion.rs:234-263 | Number, title, body, URL and both timestamps of a discussion's wire form read back as its own. |
| Discussions.DiscussionAuthorRoundTrip | src/discussion.rs:207-232 | The author of a discussion's wire form reads back as its own. |
| Discussions.DiscussionCommentsRoundTrip | src/discussion.rs:166-200 | The comments of a discussion's wire form read back as its own. |
| Discussions.DiscussionRoundTrip | src/discussion.rs:149-264 | A discussion sent in a reply, its author's id in decimal, is read back unchanged. |
| Discussions.SegmentEnd | src/discussion.rs:88-106 | `[^/]+` extends greedily to the next slash or the end. |
| Discussions.DigitsEnd | src/discussion.rs:88-106 | `\d+` extends greedily to the first non-digit or the end. |
| Discussions.MatchAt | src/discussion.rs:88-106 | A match of the URL pattern captures a non-empty owner and repository without slashes and a non-empty run of digits. |
| Discussions.FirstMatch | src/discussion.rs:88-106 | The leftmost match has the same shape. |
| Discussions.FirstMatchIsMatch | src/discussion.rs:88-106 | The match the search finds is a match at some position. |
| Discussions.ParseDiscussionUrl | src/discussion.rs:88-106 | A parsed URL yields an owner and a repository that are non-empty and slash-free. A string the pattern does not match is `InvalidRepository` quoting the URL. |
| Discussions.LaidOutMatches | src/discussion.rs:88-106 | A URL laid out as prefix, owner, slash, repository, `/discussions/` and digits matches at its start with those captures. |
| Discussions.UrlOfMatches | src/discussion.rs:88-106 | A URL built from its parts matches at its start, capturing those parts. |
| Discussions.DiscussionUrlRoundTrip | src/discussion.rs:88-106 | `parse_discussion_url` of the canonical URL of owner `o`, repository `r` and number `n` is `(o, r, n)`. |
| Discussions.TooLargeNumberRejected | src/discussion.rs:95-98 | A well-formed URL whose number overflows 64 bits is `InvalidRepository` for the number. |
| Discussions.NoPrefixNoMatch | src/discussion.rs:99-104 | A string without the site prefix is `InvalidRepository` quoting it. |
| Discussions.NoMatchFrom | src/discussion.rs:88-106 | Without the site prefix, the search finds no match from any position. |
| Discussions.TextEmbedsOwner | src/discussion.rs:108-147 | The query text carries the owner right after its head. |
| Discussions.TextEmbedsName | src/discussion.rs:108-147 | The query text carries the repository name after the owner. |
| Discussions.TextEmbedsDigits | src/discussion.rs:108-147 | The query text carries the number's decimal digits after the name. |
| Discussions.TextAsksHundredComments | src/discussion.rs:108-147 | The query asks for the first 100 comments. |
| Discussions.TextOwnerRoundTrip | src/discussion.rs:108-147 | An owner without a quote is read back from the query text unchanged. |
| Discussions.QueryOwnerRoundTrip | src/discussion.rs:108-147 | An owner without a quote is read back from the query unchanged. |
| DiscussionFetch.FetchDiscussion | src/discussion.rs:22-80 | The call fails with `AuthError` exactly when the token variable is unset. A `ConfigError` means an invalid token or user-agent header. Success means a 2xx JSON reply holding the discussion. |
| DiscussionFetch.FetchDiscussionRoundTrip | src/discussion.rs:22-80 | A discussion the endpoint returns in a successful reply to the query for it is returned unchanged. |
| DiscussionFetch.FailedStatusIsApiError | src/discussion.rs:69-75 | A reply outside 2xx is an `ApiError` carrying the reply's text, whatever its body. |
| DiscussionFetch.TokenWithNewlineRejected | src/discussion.rs:41-46 | A token with a line feed cannot go into the authorization header and gives a `ConfigError`. |
| DiscussionFetch.FetchDiscussionByUrl | src/discussion.rs:82-86 | The URL is parsed first: a malformed one is rejected before the token is looked up, and a parsed one fetches that repository and number. |
| DiscussionFetch.ByUrlIsByNumber | src/discussion.rs:82-86 | Looking a discussion up by its canonical URL is looking it up by repository and number. |
| Fetcher.RateLimitDelay | src/lib.rs:176-177 | The delay is the floor of 60000 over the rate, a rate of 0 counting as 1: `d * max(rpm,1) <= 60000 < (d+1) * max(rpm,1)`. |
| Fetcher.RateLimitDelayExamples | src/lib.rs:176-177 | A rate of 30 gives 2000 ms, and rates of 0 and 1 give 60000 ms. The default rate of 60 gives the default delay of 1000 ms. |
| Fetcher.RateLimitDelayAntitone | src/lib.rs:176-177 | A faster rate never gives a longer pause. |
| Fetcher.WithConfig | src/lib.rs:37-45 | Building succeeds exactly when the token variable is set, and then it keeps the configuration and has its discussion client. Otherwise it fails with the unset-variable `AuthError`. |
| Fetcher.NewFetcher | src/lib.rs:26-35 | A given token is stored in `GITHUB_TOKEN` and building then succeeds. Without one, building succeeds exactly when `GITHUB_TOKEN` is set. The configuration is the default one. |
| Fetcher.FetchIssues | src/lib.rs:47-54 | Uncapped collection returns only the issues, each accepted by `matches` as written. |
| Fetcher.FetchIssuesWithLimit | src/lib.rs:56-65 | Capped collection returns the whole report. It holds at most `max(n, 1)` issues, each accepted by `matches` as written, and counts them exactly. |
| Fetcher.LimitIsPrefix | src/lib.rs:47-65 | With a limit `n` of at least 1, the limited fetch returns the first `n` issues of the unlimited fetch over the same pages. |
| Fetcher.FetchDiscussionOf | src/lib.rs:105-117 | The call fails with "not initialized" exactly when the discussion client is missing, and otherwise delegates to it. |
| Fetcher.FetchDiscussionByUrlOf | src/lib.rs:119-127 | The same holds for the lookup by URL. |
| Fetcher.BuiltFetcherHasDiscussions | src/lib.rs:37-45 | A built fetcher never reports a missing discussion client and fetches discussions with its own endpoint settings. |
| Fetcher.FetcherBuilder.constructor | src/lib.rs:143-147 | A new builder holds the default configuration. |
| Fetcher.FetcherBuilder.Token | src/lib.rs:149-152 | The token goes into the variable the configuration names at that moment, and the configuration itself is unchanged. |
| Fetcher.FetcherBuilder.TokenEnvVar | src/lib.rs:154-157 | Only the token variable's name changes. |
| Fetcher.FetcherBuilder.ApiBaseUrl | src/lib.rs:159-162 | Only the base URL changes. |
| Fetcher.FetcherBuilder.UserAgent | src/lib.rs:164-167 | Only the user agent changes. |
| Fetcher.FetcherBuilder.Timeout | src/lib.rs:169-172 | Only the timeout changes. |
| Fetcher.FetcherBuilder.RateLimit | src/lib.rs:174-179 | The rate is stored as given, 0 included, together with the floor-division delay. Nothing else changes. |
| Fetcher.FetcherBuilder.MaxRetries | src/lib.rs:181-184 | Only the retry count changes. |
| Fetcher.FetcherBuilder.Build | src/lib.rs:186-188 | Building gives the fetcher for the configuration assembled so far. |
| Fetcher.TokenBeforeRenameIsLost | src/lib.rs:149-157 | Setting the token and then renaming the variable to an unset one makes `build` fail. |
| Fetcher.RenameBeforeTokenBuilds | src/lib.rs:149-157 | Renaming the variable and then setting the token lets `build` succeed. |

## Left out

- HTTP transport is not modelled. This covers octocrab and reqwest, the parse of the base URI in `GitHubClient::with_config`, the fixed `Accept` header and the JSON request envelope. Every response is an input.
- The per-request pauses (`tokio::time::sleep`) are real waits and are not modelled. The pause length is modelled by `Fetcher.RateLimitDelay` and `Config.DelayDuration`.
- Logging (`info!`, `debug!`, `warn!`) is left out.
- `test_connection`, `get_rate_limit` and `fetch_pr_files` are not part of this model. They only forward foreign calls and format their output.
- The fetcher's one-line delegations `fetch_issue`, `fetch_pr`, `fetch_comments`, `fetch_pr_reviews` and `fetch_pr_review_comments` are the members `Client.FetchIssue`, `Client.FetchPr`, `Collection.FetchComments`, `Client.FetchPrReviews` and `Collection.FetchPrReviewComments` themselves, so they have no members of their own.
- The server-side request parameters of the issue listing are not modelled. These are the state, the include labels, the `since` date, sorting and page size. The pages are whatever the server returns for them. `Client.ServerStateAgreesWithFilter` relates the requested state to the state check.
- The network half of `get_pr_merged_at` is not modelled. Its answer is the `prMergedAt` field of the raw issue, so a failed lookup there is `None`.
- Chrono is not modelled. Timestamp parsing and rendering are the parameters `parseTs` and `formatTs`, and the clock is the parameter `now`. `fetch_pr` reads the clock twice and the model reads it once.
- Discussions.ParseDiscussionResponse: `parse_discussion_response` reads the clock twice (src/discussion.rs:256 and src/discussion.rs:261), once per missing timestamp. The model reads it once, so `Discussions.NullDiscussionIsDefault` states equal creation and update times where the source can give two readings a moment apart.
- Lowercasing and `\d` are ASCII-only in the model, while the source uses Unicode case mapping and Unicode digits. The finding does not depend on this, because the pattern starts with an upper-case ASCII `E`.
- JSON numbers are integers. Floats never pass `as_u64` and no field the model reads needs them.
- Filters.ExtractErrorCodes: the source returns a vector in the order of a hash set. The model returns a `set<string>`, which loses that unspecified order.
- Trace.EscapeChar: `{:?}` escapes some non-ASCII characters (grapheme extenders and unprintable ones). The model writes every character from U+0080 upwards as itself.
- Collection.CollectPage: the counter `collected_count` always equals the length of `all_issues`, so the model uses that length.
- DiscussionFetch.FetchDiscussion: the reply's text is an input. A failure to read the body, which the source reports as an empty text, is not modelled separately.
- DiscussionFetch.FetchDiscussion: the header check accepts a tab or any character from space upwards except DEL. This is the rule of `HeaderValue::from_str` on characters, not on bytes.
- `GitHubClient::with_config` and `DiscussionClient::new` are modelled only through `Fetcher.WithConfig`. The REST client needs the token variable and the discussion client always builds.
- Fetcher.NewFetcher: `std::env::set_var` panics on an empty name, a name holding `=` or NUL, or a value holding NUL (src/lib.rs:28). The model stores every token and does not capture the panic.
- Fetcher.FetcherBuilder.Token: `std::env::set_var` panics in the same cases (src/lib.rs:150), for the configured variable name or the token. The model stores every token and does not capture the panic.
- The error enum keeps the variants that carry a message. The variants that wrap an error of a foreign library (HTTP client, forge client, JSON decoder, I/O) are tags without their payload.

## Findings

| source | as written | input that shows it | evidently intended | confidence | as-written member | corrected member |
|---|---|---|---|---|---|---|
| src/filters.rs:143-168 | With `rust_errors_only` set, `has_rust_error_codes` runs on `content`, the lowercased title and body. The pattern `E0\d{3,4}` needs an upper-case `E`, so the check rejects every issue, also under the `rust_error_focused` preset. | An issue titled `E0382`, labelled `A-borrowck`, whose body is a code fence (three backquotes) followed by 97 letters x, under `IssueFilters::rust_error_focused()` | Seek the codes in the title and body as written (`format!("{} {}", title, body)` before lowercasing) | not executed | Filters.RustErrorsOnlyRejectsAll | Filters.RustErrorFocusedAcceptsErrorReport |

=== FILE: client.dfy ===
/**
 * The forge client's single-request operations: normalization of the wire
 * records (issues, pull requests, reviews, comments) into the canonical
 * records, and the review-comment extractor over a JSON tree. Every
 * network response is an input.
 */
module Client {
  import opened Common
  import opened Text
  import opened JsonTree
  import opened Errors
  import opened Types
  import opened Filters
  import opened Pages

  // ---------------------------------------------------------------------
  // Issue state

  /** The forge's issue state on the wire; the canonical record keeps its variant name. */
  datatype WireState = WireOpen | WireClosed

  function StateName(s: WireState): string {
    match s
    case WireOpen => "Open"
    case WireClosed => "Closed"
  }

  /** `convert_state`: the state the listing request asks the server for; none for `All`. */
  function ConvertState(s: IssueState): (r: Option<WireState>)
    ensures r.None? <==> s == All
  {
    match s
    case Open => Some(WireOpen)
    case Closed => Some(WireClosed)
    case All => None
  }

  // ---------------------------------------------------------------------
  // Issues

  /**
   * An issue as the listing returns it. `prMergedAt` is what the
   * pull-request lookup reports for it (none when that lookup fails).
   */
  datatype RawIssue = RawIssue(
    id: u64,
    number: u64,
    title: string,
    body: Option<string>,
    state: WireState,
    labels: seq<GitHubLabel>,
    user: GitHubUser,
    assignees: seq<GitHubUser>,
    createdAt: Time,
    updatedAt: Time,
    closedAt: Option<Time>,
    htmlUrl: string,
    pullRequest: bool,
    comments: u32,
    prMergedAt: Option<Time>)

  /** `convert_issue`: only a pull request carries a merge time. */
  function ConvertIssue(raw: RawIssue): (r: GitHubIssue)
    ensures r.isPullRequest == raw.pullRequest
    ensures r.mergedAt == (if raw.pullRequest then raw.prMergedAt else None)
    ensures r.state == StateName(raw.state)
    ensures r.title == raw.title && r.body == raw.body && r.labels == raw.labels
    ensures r.id == raw.id && r.number == raw.number && r.user == raw.user && r.assignees == raw.assignees
    ensures r.createdAt == raw.createdAt && r.updatedAt == raw.updatedAt && r.closedAt == raw.closedAt
    ensures r.htmlUrl == raw.htmlUrl && r.comments == raw.comments
  {
    var mergedAt := if raw.pullRequest then raw.prMergedAt else None;
    GitHubIssue(
      raw.id, raw.number, raw.title, raw.body, StateName(raw.state), raw.labels, raw.user,
      raw.assignees, raw.createdAt, raw.updatedAt, raw.closedAt, mergedAt, raw.htmlUrl,
      raw.pullRequest, raw.comments)
  }

  /**
   * The state the listing asks the server for agrees with the state check:
   * an issue in the requested state always passes it.
   */
  lemma ServerStateAgreesWithFilter(f: IssueFilters, raw: RawIssue, errorText: string)
    requires ConvertState(f.state).Some? ==> raw.state == ConvertState(f.state).value
    ensures Passes(f, ConvertIssue(raw), errorText, StateCheck)
  {
  }

  /** A normalized issue passes the pull-request check exactly when pull requests are wanted or it is none. */
  lemma PullRequestCheckOfConverted(f: IssueFilters, raw: RawIssue, errorText: string)
    ensures Passes(f, ConvertIssue(raw), errorText, PullRequestCheck) <==> f.includePullRequests || !raw.pullRequest
  {
  }

  /** `fetch_issue`: a failed lookup becomes `NotFound` naming the number. */
  function FetchIssue(number: u64, response: Result<RawIssue, string>): (r: Result<GitHubIssue, FetchError>)
    ensures r.Ok? <==> response.Ok?
    ensures r.Ok? ==> r.value == ConvertIssue(response.value) && r.value.number == response.value.number
    ensures r.Err? ==> r.error.NotFound?
  {
    if response.Err? then Err(NotFound("Issue #" + NatToString(number) + " not found: " + response.error))
    else Ok(ConvertIssue(response.value))
  }

  // ---------------------------------------------------------------------
  // Pull requests

  /** A pull request as the lookup returns it: most fields are optional on the wire. */
  datatype RawPull = RawPull(
    id: u64,
    number: u64,
    title: Option<string>,
    body: Option<string>,
    state: Option<WireState>,
    labels: Option<seq<GitHubLabel>>,
    user: Option<GitHubUser>,
    assignees: Option<seq<GitHubUser>>,
    createdAt: Option<Time>,
    updatedAt: Option<Time>,
    closedAt: Option<Time>,
    mergedAt: Option<Time>,
    htmlUrl: Option<string>,
    comments: Option<u64>)

  /** The field mapping of `fetch_pr`, with its defaults; `now` is the clock's reading. */
  function PullToIssue(pr: RawPull, now: Time): (r: GitHubIssue)
    ensures r.isPullRequest && r.number == pr.number && r.body == pr.body
    ensures r.mergedAt == pr.mergedAt
    ensures r.closedAt == (if pr.closedAt.Some? then pr.closedAt else pr.mergedAt)
    ensures r.mergedAt.Some? ==> r.closedAt.Some?
    ensures r.user == (if pr.user.Some? then pr.user.value else SentinelUser())
    ensures r.state == (if pr.state.Some? then StateName(pr.state.value) else "open")
    ensures r.id == pr.id && r.title == pr.title.UnwrapOr("") && r.labels == pr.labels.UnwrapOr([])
    ensures r.assignees == pr.assignees.UnwrapOr([]) && r.htmlUrl == pr.htmlUrl.UnwrapOr("")
    ensures r.createdAt == pr.createdAt.UnwrapOr(now) && r.updatedAt == pr.updatedAt.UnwrapOr(now)
    ensures pr.comments.None? ==> r.comments == 0
    ensures pr.comments.Some? && pr.comments.value < U32Limit ==> r.comments == pr.comments.value
  {
    var user := if pr.user.Some? then pr.user.value else GitHubUser(0, "unknown", "");
    var state := if pr.state.Some? then StateName(pr.state.value) else "open";
    GitHubIssue(
      pr.id, pr.number, pr.title.UnwrapOr(""), pr.body, state, pr.labels.UnwrapOr([]), user,
      pr.assignees.UnwrapOr([]), pr.createdAt.UnwrapOr(now), pr.updatedAt.UnwrapOr(now),
      pr.closedAt.Or(pr.mergedAt), pr.mergedAt, pr.htmlUrl.UnwrapOr(""), true,
      TruncateU32(pr.comments.UnwrapOr(0)))
  }

  /** `fetch_pr`: a failed lookup becomes `NotFound` naming the number. */
  function FetchPr(number: u64, response: Result<RawPull, string>, now: Time): (r: Result<GitHubIssue, FetchError>)
    ensures r.Ok? <==> response.Ok?
    ensures r.Ok? ==> r.value == PullToIssue(response.value, now)
    ensures r.Err? ==> r.error.NotFound?
  {
    if response.Err? then Err(NotFound("PR #" + NatToString(number) + " not found: " + response.error))
    else Ok(PullToIssue(response.value, now))
  }

  // ---------------------------------------------------------------------
  // Reviews

  datatype ReviewState = Approved | Pending | ChangesRequested | Commented | Dismissed

  /** The variant name the canonical review keeps. */
  function ReviewStateName(s: ReviewState): string {
    match s
    case Approved => "Approved"
    case Pending => "Pending"
    case ChangesRequested => "ChangesRequested"
    case Commented => "Commented"
    case Dismissed => "Dismissed"
  }

  datatype RawReview = RawReview(
    id: u64,
    user: Option<GitHubUser>,
    body: Option<string>,
    state: Option<ReviewState>,
    submittedAt: Option<Time>,
    htmlUrl: string,
    commitId: Option<string>)

  /**
   * The review mapping of `fetch_pr_reviews`. The author's fields default
   * one by one, which amounts to the placeholder author when there is none.
   */
  function ConvertReview(rv: RawReview): (r: PrReview)
    ensures r.user == (if rv.user.Some? then rv.user.value else SentinelUser())
    ensures r.state == (if rv.state.Some? then ReviewStateName(rv.state.value) else "UNKNOWN")
    ensures r.id == rv.id && r.body == rv.body && r.submittedAt == rv.submittedAt && r.commitId == rv.commitId
    ensures r.htmlUrl == rv.htmlUrl
  {
    var user := GitHubUser(
      if rv.user.Some? then rv.user.value.id else 0,
      if rv.user.Some? then rv.user.value.login else "unknown",
      if rv.user.Some? then rv.user.value.avatarUrl else "");
    var state := if rv.state.Some? then ReviewStateName(rv.state.value) else "UNKNOWN";
    PrReview(rv.id, user, rv.body, state, rv.submittedAt, rv.htmlUrl, rv.commitId)
  }

  /** The placeholder state cannot be mistaken for a real one. */
  lemma UnknownIsNoReviewState(s: ReviewState)
    ensures ReviewStateName(s) != "UNKNOWN"
  {
  }

  /** `fetch_pr_reviews`: every review is kept, in order; a failed listing is an `ApiError`. */
  function FetchPrReviews(response: Result<seq<RawReview>, string>): (r: Result<seq<PrReview>, FetchError>)
    ensures r.Ok? <==> response.Ok?
    ensures r.Ok? ==> |r.value| == |response.value|
    ensures r.Ok? ==> forall i :: 0 <= i < |r.value| ==> r.value[i] == ConvertReview(response.value[i])
    ensures r.Err? ==> r.error == ApiError("Failed to fetch PR reviews: " + response.error)
  {
    if response.Err? then Err(ApiError("Failed to fetch PR reviews: " + response.error))
    else Ok(seq(|response.value|, i requires 0 <= i < |response.value| => ConvertReview(response.value[i])))
  }

  // ---------------------------------------------------------------------
  // Issue comments

  datatype RawComment = RawComment(
    id: u64,
    user: GitHubUser,
    body: Option<string>,
    createdAt: Time,
    updatedAt: Option<Time>,
    htmlUrl: string)

  /** The comment mapping of `fetch_comments`: no body reads as empty, no update time as the creation time. */
  function ConvertComment(raw: RawComment): (r: GitHubComment)
    ensures r.body == raw.body.UnwrapOr("")
    ensures r.updatedAt == raw.updatedAt.UnwrapOr(raw.createdAt)
    ensures r.id == raw.id && r.user == raw.user && r.createdAt == raw.createdAt && r.htmlUrl == raw.htmlUrl
  {
    GitHubComment(raw.id, raw.user, raw.body.UnwrapOr(""), raw.createdAt, raw.updatedAt.UnwrapOr(raw.createdAt), raw.htmlUrl)
  }

  /** The wire form of a canonical comment, with every optional field present. */
  function CommentToRaw(c: GitHubComment): RawComment {
    RawComment(c.id, c.user, Some(c.body), c.createdAt, Some(c.updatedAt), c.htmlUrl)
  }

  /** Normalization loses nothing of a comment whose optional fields are present. */
  lemma ConvertCommentRoundTrip(c: GitHubComment)
    ensures ConvertComment(CommentToRaw(c)) == c
  {
  }

  /** The comments of a page, each normalized, one for one and in order. */
  function ConvertComments(items: seq<RawComment>): (r: seq<GitHubComment>)
    ensures |r| == |items|
    ensures forall i :: 0 <= i < |items| ==> r[i] == ConvertComment(items[i])
  {
    seq(|items|, i requires 0 <= i < |items| => ConvertComment(items[i]))
  }

  // ---------------------------------------------------------------------
  // Review comments, extracted from a JSON tree

  /** `v.get(key)?.as_str()?.parse().ok()?`: a timestamp field; `parseTs` is the timestamp parser. */
  function GetTime(j: Json, key: string, parseTs: string -> Option<Time>): Option<Time> {
    var s := GetStr(j, key);
    if s.Some? then parseTs(s.value) else None
  }

  /** `.map(|v| v as u32)`: keep the low 32 bits. */
  function MapTruncate(o: Option<u64>): (r: Option<u32>)
    ensures r.Some? <==> o.Some?
    ensures o.Some? && o.value < U32Limit ==> r == Some(o.value)
  {
    if o.Some? then Some(TruncateU32(o.value)) else None
  }

  /** The fields a review comment cannot do without, each present with the right type. */
  predicate HasRequiredFields(j: Json, parseTs: string -> Option<Time>) {
    Get(j, "user").Some?
    && GetU64(j, "id").Some?
    && GetU64(Get(j, "user").value, "id").Some?
    && GetStr(Get(j, "user").value, "login").Some?
    && GetStr(Get(j, "user").value, "avatar_url").Some?
    && GetStr(j, "body").Some?
    && GetStr(j, "path").Some?
    && GetTime(j, "created_at", parseTs).Some?
    && GetTime(j, "updated_at", parseTs).Some?
    && GetStr(j, "html_url").Some?
  }

  /**
   * `parse_review_comment`: absent when a required field is missing or of
   * the wrong type; otherwise every field is read from its member, an
   * optional one being absent when its member is missing or ill typed.
   */
  function ParseReviewComment(j: Json, parseTs: string -> Option<Time>): (r: Option<PrReviewComment>)
    ensures r.Some? <==> HasRequiredFields(j, parseTs)
    ensures r.Some? ==> r.value.diffHunk == GetStr(j, "diff_hunk").UnwrapOr("")
    ensures r.Some? ==> r.value.line == MapTruncate(GetU64(j, "line")) && r.value.side == GetStr(j, "side")
    ensures r.Some? ==> r.value.originalLine == MapTruncate(GetU64(j, "original_line"))
    ensures r.Some? ==> r.value.position == MapTruncate(GetU64(j, "position"))
    ensures r.Some? ==> r.value.commitId == GetStr(j, "commit_id")
    ensures r.Some? ==> r.value.reviewId == GetU64(j, "pull_request_review_id")
    ensures r.Some? ==> r.value.inReplyToId == GetU64(j, "in_reply_to_id")
    ensures r.Some? ==> var user := Get(j, "user").value;
      r.value.user == GitHubUser(GetU64(user, "id").value, GetStr(user, "login").value, GetStr(user, "avatar_url").value)
    ensures r.Some? ==> r.value.id == GetU64(j, "id").value && r.value.body == GetStr(j, "body").value
    ensures r.Some? ==> r.value.path == GetStr(j, "path").value && r.value.htmlUrl == GetStr(j, "html_url").value
    ensures r.Some? ==> r.value.createdAt == GetTime(j, "created_at", parseTs).value
    ensures r.Some? ==> r.value.updatedAt == GetTime(j, "updated_at", parseTs).value
  {
    var user := Get(j, "user");
    if user.None? then None
    else
      var id := GetU64(j, "id");
      if id.None? then None
      else
        var userId := GetU64(user.value, "id");
        if userId.None? then None
        else
          var login := GetStr(user.value, "login");
          if login.None? then None
          else
            var avatar := GetStr(user.value, "avatar_url");
            if avatar.None? then None
            else
              var body := GetStr(j, "body");
              if body.None? then None
              else
                var path := GetStr(j, "path");
                if path.None? then None
                else
                  var createdAt := GetTime(j, "created_at", parseTs);
                  if createdAt.None? then None
                  else
                    var updatedAt := GetTime(j, "updated_at", parseTs);
                    if updatedAt.None? then None
                    else
                      var htmlUrl := GetStr(j, "html_url");
                      if htmlUrl.None? then None
                      else
                        Some(PrReviewComment(
                          id.value,
                          GetU64(j, "pull_request_review_id"),
                          GitHubUser(userId.value, login.value, avatar.value),
                          body.value,
                          path.value,
                          MapTruncate(GetU64(j, "line")),
                          MapTruncate(GetU64(j, "original_line")),
                          GetStr(j, "diff_hunk").UnwrapOr(""),
                          GetStr(j, "side"),
                          GetStr(j, "commit_id"),
                          createdAt.value,
                          updatedAt.value,
                          htmlUrl.value,
                          MapTruncate(GetU64(j, "position")),
                          GetU64(j, "in_reply_to_id")))
  }

  /** An optional number on the wire: `null` when there is none. */
  function NumOrNull(o: Option<nat>): Json {
    if o.Some? then Num(o.value) else Null
  }

  /** An optional string on the wire: `null` when there is none. */
  function StrOrNull(o: Option<string>): Json {
    if o.Some? then Str(o.value) else Null
  }

  function OptU64(o: Option<u64>): Option<nat> {
    if o.Some? then Some(o.value) else None
  }

  function OptU32(o: Option<u32>): Option<nat> {
    if o.Some? then Some(o.value) else None
  }

  /**
   * The wire form of a review comment as the forge sends it, every field
   * present and `null` where there is no value; `formatTs` renders a
   * timestamp.
   */
  function ReviewCommentToJson(c: PrReviewComment, formatTs: Time -> string): Json {
    Obj(map[
      "id" := Num(c.id),
      "pull_request_review_id" := NumOrNull(OptU64(c.reviewId)),
      "user" := Obj(map["id" := Num(c.user.id), "login" := Str(c.user.login), "avatar_url" := Str(c.user.avatarUrl)]),
      "body" := Str(c.body),
      "path" := Str(c.path),
      "line" := NumOrNull(OptU32(c.line)),
      "original_line" := NumOrNull(OptU32(c.originalLine)),
      "diff_hunk" := Str(c.diffHunk),
      "side" := StrOrNull(c.side),
      "commit_id" := StrOrNull(c.commitId),
      "created_at" := Str(formatTs(c.createdAt)),
      "updated_at" := Str(formatTs(c.updatedAt)),
      "html_url" := Str(c.htmlUrl),
      "position" := NumOrNull(OptU32(c.position)),
      "in_reply_to_id" := NumOrNull(OptU64(c.inReplyToId))])
  }

  /** The author reads back as the comment's own author. */
  lemma AuthorRoundTrip(c: PrReviewComment, formatTs: Time -> string)
    ensures var j := ReviewCommentToJson(c, formatTs);
      Get(j, "user").Some?
      && GetU64(Get(j, "user").value, "id") == Some(c.user.id)
      && GetStr(Get(j, "user").value, "login") == Some(c.user.login)
      && GetStr(Get(j, "user").value, "avatar_url") == Some(c.user.avatarUrl)
  {
    var u := Obj(map["id" := Num(c.user.id), "login" := Str(c.user.login), "avatar_url" := Str(c.user.avatarUrl)]);
    assert Get(ReviewCommentToJson(c, formatTs), "user") == Some(u);
  }

  /** The required scalar members read back as the comment's own values. */
  lemma RequiredMembersRoundTrip(c: PrReviewComment, formatTs: Time -> string)
    ensures var j := ReviewCommentToJson(c, formatTs);
      GetU64(j, "id") == Some(c.id)
      && GetStr(j, "body") == Some(c.body)
      && GetStr(j, "path") == Some(c.path)
      && GetStr(j, "diff_hunk") == Some(c.diffHunk)
      && GetStr(j, "html_url") == Some(c.htmlUrl)
  {
  }

  /** Both timestamps read back when parsing undoes rendering. */
  lemma TimesRoundTrip(c: PrReviewComment, formatTs: Time -> string, parseTs: string -> Option<Time>)
    requires forall t :: parseTs(formatTs(t)) == Some(t)
    ensures var j := ReviewCommentToJson(c, formatTs);
      GetTime(j, "created_at", parseTs) == Some(c.createdAt)
      && GetTime(j, "updated_at", parseTs) == Some(c.updatedAt)
  {
    var j := ReviewCommentToJson(c, formatTs);
    assert GetStr(j, "created_at") == Some(formatTs(c.createdAt));
    assert GetStr(j, "updated_at") == Some(formatTs(c.updatedAt));
  }

  /** Where the comment sits in the diff reads back as the comment's own position. */
  lemma PositionMembersRoundTrip(c: PrReviewComment, formatTs: Time -> string)
    ensures var j := ReviewCommentToJson(c, formatTs);
      MapTruncate(GetU64(j, "line")) == c.line
      && MapTruncate(GetU64(j, "original_line")) == c.originalLine
      && GetStr(j, "side") == c.side
      && MapTruncate(GetU64(j, "position")) == c.position
  {
  }

  /** The review, the parent comment and the commit read back as the comment's own. */
  lemma ThreadMembersRoundTrip(c: PrReviewComment, formatTs: Time -> string)
    ensures var j := ReviewCommentToJson(c, formatTs);
      GetU64(j, "pull_request_review_id") == c.reviewId
      && GetStr(j, "commit_id") == c.commitId
      && GetU64(j, "in_reply_to_id") == c.inReplyToId
  {
  }

  /** Every review comment survives a trip through its wire form when timestamps do. */
  lemma ReviewCommentRoundTrip(c: PrReviewComment, formatTs: Time -> string, parseTs: string -> Option<Time>)
    requires forall t :: parseTs(formatTs(t)) == Some(t)
    ensures ParseReviewComment(ReviewCommentToJson(c, formatTs), parseTs) == Some(c)
  {
    AuthorRoundTrip(c, formatTs);
    RequiredMembersRoundTrip(c, formatTs);
    TimesRoundTrip(c, formatTs, parseTs);
    PositionMembersRoundTrip(c, formatTs);
    ThreadMembersRoundTrip(c, formatTs);
  }

  /** A comment without a path is dropped, whatever else it holds. */
  lemma ReviewCommentNeedsPath(j: Json, parseTs: string -> Option<Time>)
    requires GetStr(j, "path").None?
    ensures ParseReviewComment(j, parseTs).None?
  {
  }
}

=== FILE: collection.dfy ===
/**
 * The three paged walks of the client: the filtered issue collection, the
 * comments of an issue, and the review comments of a pull request. Each
 * walk requests pages 1, 2, ... until a page comes back empty; a failed
 * request ends the walk with an error. The issue walk also stops at the
 * caller's cap and after page 100. The issue walk filters with
 * `IssueFilters::matches` as the library writes it (`MatchesAsWritten`).
 */
module Collection {
  import opened Common
  import opened Text
  import opened JsonTree
  import opened Errors
  import opened Types
  import opened Filters
  import opened Pages
  import opened Client
  import opened Trace

  // ---------------------------------------------------------------------
  // Issues

  /** The last page the issue walk requests. */
  const MaxPages: nat := 100

  /** The walk has collected as many issues as the caller asked for. */
  predicate CapReached(cap: Option<nat>, count: nat) {
    cap.Some? && count >= cap.value
  }

  /**
   * One page of the inner loop: the converted issues the filters accept
   * are appended to `acc`; the first one that reaches the cap ends the page.
   */
  function TakeMatching(f: IssueFilters, cap: Option<nat>, items: seq<RawIssue>, acc: seq<GitHubIssue>): seq<GitHubIssue>
    decreases |items|
  {
    if items == [] then acc
    else
      var issue := ConvertIssue(items[0]);
      if !MatchesAsWritten(f, issue) then TakeMatching(f, cap, items[1..], acc)
      else if CapReached(cap, |acc| + 1) then acc + [issue]
      else TakeMatching(f, cap, items[1..], acc + [issue])
  }

  /** The issue walk from page `page` on, having collected `acc`. */
  function CollectFrom(f: IssueFilters, cap: Option<nat>, pages: seq<PageFetch<RawIssue>>, page: nat, acc: seq<GitHubIssue>)
    : Result<seq<GitHubIssue>, FetchError>
    requires 1 <= page <= MaxPages
    decreases MaxPages - page
  {
    match PageAt(pages, page)
    case Failed(reason) => Err(ApiError("Failed to fetch issues: " + reason))
    case Page(items) =>
      if items == [] then Ok(acc)
      else
        var next := TakeMatching(f, cap, items, acc);
        if CapReached(cap, |next|) || page == MaxPages then Ok(next)
        else CollectFrom(f, cap, pages, page + 1, next)
  }

  /** The outcome of `fetch_issues`: the collected issues, their count, the time and the filter trace. */
  function Collected(repo: Repository, f: IssueFilters, cap: Option<nat>, pages: seq<PageFetch<RawIssue>>, now: Time)
    : Result<CollectionResult, FetchError>
  {
    match CollectFrom(f, cap, pages, 1, [])
    case Ok(issues) => Ok(CollectionResult(repo, issues, |issues|, now, FilterTrace(f)))
    case Err(e) => Err(e)
  }

  /** A failed page ends the walk with its reason, an empty one with what was collected. */
  lemma CollectFromStops(f: IssueFilters, cap: Option<nat>, pages: seq<PageFetch<RawIssue>>, page: nat, acc: seq<GitHubIssue>)
    requires 1 <= page <= MaxPages
    ensures PageAt(pages, page).Failed? ==>
      CollectFrom(f, cap, pages, page, acc) == Err(ApiError("Failed to fetch issues: " + PageAt(pages, page).reason))
    ensures PageAt(pages, page) == Page([]) ==> CollectFrom(f, cap, pages, page, acc) == Ok(acc)
  {
  }

  /** One page of the walk: a non-empty page either ends the walk with what it adds, or the walk goes on after it. */
  lemma CollectFromStep(f: IssueFilters, cap: Option<nat>, pages: seq<PageFetch<RawIssue>>, page: nat, acc: seq<GitHubIssue>, next: seq<GitHubIssue>)
    requires 1 <= page <= MaxPages
    requires PageAt(pages, page).Page? && PageAt(pages, page).items != []
    requires next == TakeMatching(f, cap, PageAt(pages, page).items, acc)
    ensures CapReached(cap, |next|) || page == MaxPages ==> CollectFrom(f, cap, pages, page, acc) == Ok(next)
    ensures !CapReached(cap, |next|) && page < MaxPages ==>
      CollectFrom(f, cap, pages, page, acc) == CollectFrom(f, cap, pages, page + 1, next)
  {
  }

  /**
   * The inner loop of `fetch_issues` over one page: pushes each converted
   * issue the filters accept and leaves the page once the cap is reached.
   */
  method CollectPage(filters: IssueFilters, maxIssues: Option<nat>, items: seq<RawIssue>, collected: seq<GitHubIssue>)
    returns (allIssues: seq<GitHubIssue>)
    ensures allIssues == TakeMatching(filters, maxIssues, items, collected)
  {
    allIssues := collected;
    var i := 0;
    while i < |items|
      invariant 0 <= i <= |items|
      invariant TakeMatching(filters, maxIssues, items, collected) == TakeMatching(filters, maxIssues, items[i..], allIssues)
    {
      var issue := ConvertIssue(items[i]);
      assert items[i..][0] == items[i] && items[i..][1..] == items[i + 1..];
      if MatchesAsWritten(filters, issue) {
        allIssues := allIssues + [issue];
        if maxIssues.Some? && |allIssues| >= maxIssues.value {
          return;
        }
      }
      i := i + 1;
    }
  }

  /**
   * The page loop of `fetch_issues`: walks the listing page by page (page
   * `n` of the listing is `PageAt(pages, n)`), keeps the issues the filters
   * accept and stops at an empty page, at the cap or after page 100.
   * `requests` is the number of pages requested.
   */
  method WalkIssues(filters: IssueFilters, maxIssues: Option<nat>, pages: seq<PageFetch<RawIssue>>)
    returns (r: Result<seq<GitHubIssue>, FetchError>, requests: nat)
    ensures r == CollectFrom(filters, maxIssues, pages, 1, [])
    ensures 1 <= requests <= MaxPages
    ensures RunsThrough(pages, requests)
    ensures r.Err? <==> PageAt(pages, requests).Failed?
  {
    var allIssues: seq<GitHubIssue> := [];
    var page: nat := 1;
    var collectedCount: nat := 0;
    while true
      invariant 1 <= page <= MaxPages
      invariant collectedCount == |allIssues|
      invariant CollectFrom(filters, maxIssues, pages, page, allIssues) == CollectFrom(filters, maxIssues, pages, 1, [])
      invariant RunsThrough(pages, page)
      decreases MaxPages - page
    {
      requests := page;
      var response := PageAt(pages, page);
      CollectFromStops(filters, maxIssues, pages, page, allIssues);
      if response.Failed? {
        r := Err(ApiError("Failed to fetch issues: " + response.reason));
        return;
      }
      var items := response.items;
      if items == [] {
        break;
      }
      ghost var before := allIssues;
      allIssues := CollectPage(filters, maxIssues, items, allIssues);
      CollectFromStep(filters, maxIssues, pages, page, before, allIssues);
      collectedCount := |allIssues|;
      if CapReached(maxIssues, collectedCount) {
        break;
      }
      page := page + 1;
      if page > MaxPages {
        break;
      }
    }
    r := Ok(allIssues);
  }

  /**
   * `fetch_issues`: the page loop, then the report of what was collected:
   * the repository, the issues and their count, the time and the trace of
   * the filters.
   */
  method FetchIssues(repo: Repository, filters: IssueFilters, maxIssues: Option<nat>, pages: seq<PageFetch<RawIssue>>, now: Time)
    returns (r: Result<CollectionResult, FetchError>, requests: nat)
    ensures r == Collected(repo, filters, maxIssues, pages, now)
    ensures 1 <= requests <= MaxPages
    ensures forall n :: 1 <= n < requests ==> !Stops(PageAt(pages, n))
    ensures r.Err? <==> PageAt(pages, requests).Failed?
  {
    var walk;
    walk, requests := WalkIssues(filters, maxIssues, pages);
    RunsThroughIff(pages, requests);
    if walk.Err? {
      r := Err(walk.error);
      return;
    }
    var trace := DescribeFilters(filters);
    r := Ok(CollectionResult(repo, walk.value, |walk.value|, now, trace));
  }

  /** The converted issues of `items` that the filters accept, in order. */
  function MatchingOf(f: IssueFilters, items: seq<RawIssue>): seq<GitHubIssue> {
    if items == [] then []
    else
      var issue := ConvertIssue(items[0]);
      (if MatchesAsWritten(f, issue) then [issue] else []) + MatchingOf(f, items[1..])
  }

  /** Filtering distributes over concatenation. */
  lemma {:induction false} MatchingOfAppend(f: IssueFilters, a: seq<RawIssue>, b: seq<RawIssue>)
    ensures MatchingOf(f, a + b) == MatchingOf(f, a) + MatchingOf(f, b)
  {
    if a == [] {
      assert a + b == b;
    } else {
      assert (a + b)[0] == a[0] && (a + b)[1..] == a[1..] + b;
      MatchingOfAppend(f, a[1..], b);
    }
  }

  /** Exactly the accepted issues are kept: each kept one is accepted, each accepted one is kept. */
  lemma {:induction false} MatchingOfSpec(f: IssueFilters, items: seq<RawIssue>)
    ensures forall k :: 0 <= k < |MatchingOf(f, items)| ==> MatchesAsWritten(f, MatchingOf(f, items)[k])
    ensures forall j :: 0 <= j < |items| && MatchesAsWritten(f, ConvertIssue(items[j])) ==> ConvertIssue(items[j]) in MatchingOf(f, items)
  {
    if items != [] {
      MatchingOfSpec(f, items[1..]);
      var head := if MatchesAsWritten(f, ConvertIssue(items[0])) then [ConvertIssue(items[0])] else [];
      assert MatchingOf(f, items) == head + MatchingOf(f, items[1..]);
      forall j | 0 <= j < |items| && MatchesAsWritten(f, ConvertIssue(items[j]))
        ensures ConvertIssue(items[j]) in MatchingOf(f, items)
      {
        if j > 0 {
          assert items[1..][j - 1] == items[j];
        }
      }
    }
  }

  /** Without a cap a page contributes all its accepted issues. */
  lemma {:induction false} TakeMatchingUncapped(f: IssueFilters, items: seq<RawIssue>, acc: seq<GitHubIssue>)
    ensures TakeMatching(f, None, items, acc) == acc + MatchingOf(f, items)
    decreases |items|
  {
    if items != [] {
      var issue := ConvertIssue(items[0]);
      if MatchesAsWritten(f, issue) {
        TakeMatchingUncapped(f, items[1..], acc + [issue]);
      } else {
        TakeMatchingUncapped(f, items[1..], acc);
      }
    }
  }

  /**
   * With a cap of `m` a page contributes a prefix of its accepted issues:
   * all of them unless the count reaches `Max(m, 1)`, where it stops (a
   * cap of 0 still lets the first accepted issue in, since the cap is only
   * compared after an issue is pushed).
   */
  lemma {:induction false} TakeMatchingCapped(f: IssueFilters, m: nat, items: seq<RawIssue>, acc: seq<GitHubIssue>)
    requires |acc| < Max(m, 1)
    ensures var r := TakeMatching(f, Some(m), items, acc);
      var full := acc + MatchingOf(f, items);
      |r| <= Max(m, 1) && |r| <= |full| && r == full[..|r|] && (|r| < Max(m, 1) ==> r == full)
    decreases |items|
  {
    if items != [] {
      var issue := ConvertIssue(items[0]);
      var full := acc + MatchingOf(f, items);
      if MatchesAsWritten(f, issue) {
        assert full == (acc + [issue]) + MatchingOf(f, items[1..]);
        if !CapReached(Some(m), |acc| + 1) {
          TakeMatchingCapped(f, m, items[1..], acc + [issue]);
        } else {
          assert full[..|acc| + 1] == acc + [issue];
        }
      } else {
        assert MatchingOf(f, items) == MatchingOf(f, items[1..]);
        TakeMatchingCapped(f, m, items[1..], acc);
      }
    }
  }

  /** A page only appends accepted issues to what was collected before. */
  lemma {:induction false} TakeMatchingExtends(f: IssueFilters, cap: Option<nat>, items: seq<RawIssue>, acc: seq<GitHubIssue>)
    ensures var r := TakeMatching(f, cap, items, acc);
      acc <= r && forall k :: |acc| <= k < |r| ==> MatchesAsWritten(f, r[k])
    decreases |items|
  {
    if items != [] {
      var issue := ConvertIssue(items[0]);
      if MatchesAsWritten(f, issue) && !CapReached(cap, |acc| + 1) {
        TakeMatchingExtends(f, cap, items[1..], acc + [issue]);
      } else if !MatchesAsWritten(f, issue) {
        TakeMatchingExtends(f, cap, items[1..], acc);
      }
    }
  }

  /** The walk only appends accepted issues to what was collected before. */
  lemma {:induction false} CollectFromExtends(f: IssueFilters, cap: Option<nat>, pages: seq<PageFetch<RawIssue>>, page: nat, acc: seq<GitHubIssue>)
    requires 1 <= page <= MaxPages
    ensures var r := CollectFrom(f, cap, pages, page, acc);
      r.Ok? ==> acc <= r.value && forall k :: |acc| <= k < |r.value| ==> MatchesAsWritten(f, r.value[k])
    decreases MaxPages - page
  {
    var p := PageAt(pages, page);
    if p.Page? && p.items != [] {
      var next := TakeMatching(f, cap, p.items, acc);
      TakeMatchingExtends(f, cap, p.items, acc);
      if !(CapReached(cap, |next|) || page == MaxPages) {
        CollectFromExtends(f, cap, pages, page + 1, next);
      }
    }
  }

  /**
   * Every issue `fetch_issues` returns is accepted by the filters, and the
   * result reports the repository, the count of the issues and the trace
   * of the filters.
   */
  lemma CollectedIssuesMatch(repo: Repository, f: IssueFilters, cap: Option<nat>, pages: seq<PageFetch<RawIssue>>, now: Time)
    ensures var r := Collected(repo, f, cap, pages, now);
      r.Ok? ==>
        (forall k :: 0 <= k < |r.value.issues| ==> MatchesAsWritten(f, r.value.issues[k]))
        && r.value.totalCollected == |r.value.issues|
        && r.value.repository == repo && r.value.collectionTime == now
        && r.value.filtersApplied == FilterTrace(f)
  {
    CollectFromExtends(f, cap, pages, 1, []);
  }

  /**
   * With `rust_errors_only` set the collection is empty whatever the pages
   * hold, since the filter as written rejects every issue.
   */
  lemma ErrorsOnlyCollectsNothing(repo: Repository, f: IssueFilters, cap: Option<nat>, pages: seq<PageFetch<RawIssue>>, now: Time)
    requires f.rustErrorsOnly
    ensures var r := Collected(repo, f, cap, pages, now);
      r.Ok? ==> r.value.issues == [] && r.value.totalCollected == 0
  {
    CollectedIssuesMatch(repo, f, cap, pages, now);
    var r := Collected(repo, f, cap, pages, now);
    if r.Ok? && r.value.issues != [] {
      RustErrorsOnlyRejectsAll(f, r.value.issues[0]);
    }
  }

  /** The walk never collects more than `Max(m, 1)` issues under a cap of `m`. */
  lemma {:induction false} CollectFromCapped(f: IssueFilters, m: nat, pages: seq<PageFetch<RawIssue>>, page: nat, acc: seq<GitHubIssue>)
    requires 1 <= page <= MaxPages
    requires |acc| < Max(m, 1)
    ensures var r := CollectFrom(f, Some(m), pages, page, acc);
      r.Ok? ==> |r.value| <= Max(m, 1)
    decreases MaxPages - page
  {
    var p := PageAt(pages, page);
    if p.Page? && p.items != [] {
      var next := TakeMatching(f, Some(m), p.items, acc);
      TakeMatchingCapped(f, m, p.items, acc);
      if !(CapReached(Some(m), |next|) || page == MaxPages) {
        CollectFromCapped(f, m, pages, page + 1, next);
      }
    }
  }

  /** `fetch_issues` with `max_issues = Some(m)` returns at most `m` issues, and at most one when `m` is 0. */
  lemma CapBound(repo: Repository, f: IssueFilters, m: nat, pages: seq<PageFetch<RawIssue>>, now: Time)
    ensures var r := Collected(repo, f, Some(m), pages, now);
      r.Ok? ==> |r.value.issues| <= Max(m, 1)
  {
    CollectFromCapped(f, m, pages, 1, []);
  }

  /** The page the issue walk from `page` ends at: the first empty or failed page, or the page after the last allowed one. */
  function WalkEnd(pages: seq<PageFetch<RawIssue>>, page: nat): (e: nat)
    requires 1 <= page <= MaxPages
    ensures page <= e <= MaxPages + 1
  {
    var e := RunEnd(pages, page);
    if e <= MaxPages then e else MaxPages + 1
  }

  /** The items the issue walk sees from page `page` on: those of the first page, then those after it. */
  lemma WalkItemsStep(f: IssueFilters, pages: seq<PageFetch<RawIssue>>, page: nat, acc: seq<GitHubIssue>)
    requires 1 <= page <= MaxPages && !Stops(PageAt(pages, page))
    ensures page < MaxPages ==> WalkEnd(pages, page + 1) == WalkEnd(pages, page)
    ensures var e := WalkEnd(pages, page);
      acc + MatchingOf(f, ItemsBetween(pages, page, e))
        == (acc + MatchingOf(f, PageAt(pages, page).items)) + MatchingOf(f, ItemsBetween(pages, page + 1, e))
  {
    var e := WalkEnd(pages, page);
    assert RunEnd(pages, page) == RunEnd(pages, page + 1);
    ItemsBetweenFirst(pages, page, e);
    MatchingOfAppend(f, PageAt(pages, page).items, ItemsBetween(pages, page + 1, e));
  }

  /**
   * Without a cap, the walk collects the accepted issues of every page up
   * to the first empty one (at most 100 pages), unless one of those
   * requests fails.
   */
  lemma {:induction false} UncappedWalk(f: IssueFilters, pages: seq<PageFetch<RawIssue>>, page: nat, acc: seq<GitHubIssue>)
    requires 1 <= page <= MaxPages
    ensures var e := WalkEnd(pages, page);
      CollectFrom(f, None, pages, page, acc) ==
        if e <= MaxPages && PageAt(pages, e).Failed? then Err(ApiError("Failed to fetch issues: " + PageAt(pages, e).reason))
        else Ok(acc + MatchingOf(f, ItemsBetween(pages, page, e)))
    decreases MaxPages - page
  {
    var p := PageAt(pages, page);
    var e := WalkEnd(pages, page);
    if Stops(p) {
      assert e == page;
      assert ItemsBetween(pages, page, e) == [];
      assert acc + MatchingOf(f, []) == acc;
    } else {
      var next := acc + MatchingOf(f, p.items);
      TakeMatchingUncapped(f, p.items, acc);
      WalkItemsStep(f, pages, page, acc);
      if page < MaxPages {
        UncappedWalk(f, pages, page + 1, next);
      } else {
        assert ItemsBetween(pages, page + 1, e) == [];
        assert next + MatchingOf(f, []) == next;
      }
    }
  }

  /**
   * For a cap `m` of at least 1, the capped walk returns the first `m` of
   * the issues the uncapped walk returns (it may also succeed where the
   * uncapped one fails, having stopped before the failing page).
   */
  lemma {:induction false} CappedIsPrefix(f: IssueFilters, m: nat, pages: seq<PageFetch<RawIssue>>, page: nat, acc: seq<GitHubIssue>)
    requires 1 <= page <= MaxPages
    requires 1 <= m && |acc| < m
    ensures var u := CollectFrom(f, None, pages, page, acc);
      u.Ok? ==> CollectFrom(f, Some(m), pages, page, acc) == Ok(u.value[..if |u.value| < m then |u.value| else m])
    decreases MaxPages - page
  {
    var p := PageAt(pages, page);
    var u := CollectFrom(f, None, pages, page, acc);
    if u.Ok? && p.Page? {
      if p.items == [] {
        assert u.value == acc && acc[..|acc|] == acc;
      } else {
        var full := acc + MatchingOf(f, p.items);
        var next := TakeMatching(f, Some(m), p.items, acc);
        TakeMatchingUncapped(f, p.items, acc);
        TakeMatchingCapped(f, m, p.items, acc);
        assert Max(m, 1) == m;
        if page == MaxPages {
          assert u.value == full;
          if |next| == m {
            assert next == full[..m];
          } else {
            assert next == full && full[..|full|] == full;
          }
        } else {
          assert u == CollectFrom(f, None, pages, page + 1, full);
          CollectFromExtends(f, None, pages, page + 1, full);
          if CapReached(Some(m), |next|) {
            assert next == full[..m] == u.value[..m];
          } else {
            assert next == full;
            CappedIsPrefix(f, m, pages, page + 1, next);
          }
        }
      }
    }
  }

  // ---------------------------------------------------------------------
  // Issue comments

  /** A failed walk's reason, as the error of the operation it belongs to. */
  function WithContext<U>(prefix: string, r: Result<seq<U>, string>): Result<seq<U>, FetchError> {
    match r
    case Ok(v) => Ok(v)
    case Err(reason) => Err(ApiError(prefix + reason))
  }

  /** The comment walk from page `page` on, having collected `acc`. */
  function CommentsFrom(pages: seq<PageFetch<RawComment>>, page: nat, acc: seq<GitHubComment>)
    : Result<seq<GitHubComment>, FetchError>
    requires 1 <= page
  {
    WithContext("Failed to fetch comments: ", WalkFrom(pages, ConvertComments, page, acc))
  }

  /**
   * `fetch_comments`: requests pages until one comes back empty,
   * normalizing every comment of every page; `requests` is the number of
   * pages requested.
   */
  method FetchComments(pages: seq<PageFetch<RawComment>>) returns (r: Result<seq<GitHubComment>, FetchError>, requests: nat)
    ensures r == CommentsFrom(pages, 1, [])
    ensures requests == RunEnd(pages, 1)
  {
    var comments: seq<GitHubComment> := [];
    var page: nat := 1;
    while true
      invariant 1 <= page <= RunEnd(pages, 1)
      invariant RunEnd(pages, page) == RunEnd(pages, 1)
      invariant CommentsFrom(pages, page, comments) == CommentsFrom(pages, 1, [])
      decreases |pages| + 1 - page
    {
      var response := PageAt(pages, page);
      requests := page;
      if response.Failed? {
        r := Err(ApiError("Failed to fetch comments: " + response.reason));
        return;
      }
      var items := response.items;
      if items == [] {
        break;
      }
      ghost var before := comments;
      for i := 0 to |items|
        invariant comments == before + ConvertComments(items[..i])
      {
        assert ConvertComments(items[..i + 1]) == ConvertComments(items[..i]) + [ConvertComment(items[i])];
        comments := comments + [ConvertComment(items[i])];
      }
      assert items[..|items|] == items;
      page := page + 1;
    }
    r := Ok(comments);
  }

  /** Normalization distributes over concatenation. */
  lemma ConvertCommentsAppend(a: seq<RawComment>, b: seq<RawComment>)
    ensures ConvertComments(a + b) == ConvertComments(a) + ConvertComments(b)
  {
    assert forall i :: 0 <= i < |a| ==> (a + b)[i] == a[i];
    assert forall i :: |a| <= i < |a| + |b| ==> (a + b)[i] == b[i - |a|];
  }

  /**
   * The comments of an issue are the normalized items of every page before
   * the first empty one, in order, unless a request before it fails.
   */
  lemma CommentWalk(pages: seq<PageFetch<RawComment>>, page: nat, acc: seq<GitHubComment>)
    requires 1 <= page
    ensures var e := RunEnd(pages, page);
      CommentsFrom(pages, page, acc) ==
        if PageAt(pages, e).Failed? then Err(ApiError("Failed to fetch comments: " + PageAt(pages, e).reason))
        else Ok(acc + ConvertComments(ItemsBetween(pages, page, e)))
  {
    forall a: seq<RawComment>, b: seq<RawComment>
      ensures ConvertComments(a + b) == ConvertComments(a) + ConvertComments(b)
    {
      ConvertCommentsAppend(a, b);
    }
    WalkItems(pages, ConvertComments, page, acc);
  }

  // ---------------------------------------------------------------------
  // Review comments

  /** `ParseReviewComment` as a function of the item alone. */
  function ParserOf(parseTs: string -> Option<Time>): Json -> Option<PrReviewComment> {
    j => ParseReviewComment(j, parseTs)
  }

  /** The review comments of one page that parse, in order; the others are skipped. */
  function KeepParsed(items: seq<Json>, parseTs: string -> Option<Time>): seq<PrReviewComment> {
    FilterMap(items, ParserOf(parseTs))
  }

  /** Skipping distributes over concatenation. */
  lemma KeepParsedAppend(a: seq<Json>, b: seq<Json>, parseTs: string -> Option<Time>)
    ensures KeepParsed(a + b, parseTs) == KeepParsed(a, parseTs) + KeepParsed(b, parseTs)
  {
    FilterMapAppend(a, b, ParserOf(parseTs));
  }

  /**
   * Every kept comment is the parse of an item, and every item that has
   * the required fields is kept.
   */
  lemma KeepParsedSpec(items: seq<Json>, parseTs: string -> Option<Time>)
    ensures forall c :: c in KeepParsed(items, parseTs) ==>
      exists j :: 0 <= j < |items| && ParseReviewComment(items[j], parseTs) == Some(c)
    ensures forall j :: 0 <= j < |items| && HasRequiredFields(items[j], parseTs) ==>
      ParseReviewComment(items[j], parseTs).value in KeepParsed(items, parseTs)
  {
    var f := ParserOf(parseTs);
    FilterMapSpec(items, f);
    assert forall j :: 0 <= j < |items| ==> f(items[j]) == ParseReviewComment(items[j], parseTs);
  }

  /** `KeepParsed` as a function of the items alone. */
  function KeepParsedBy(parseTs: string -> Option<Time>): seq<Json> -> seq<PrReviewComment> {
    items => KeepParsed(items, parseTs)
  }

  /** The review-comment walk from page `page` on, having collected `acc`. */
  function ReviewCommentsFrom(pages: seq<PageFetch<Json>>, parseTs: string -> Option<Time>, page: nat, acc: seq<PrReviewComment>)
    : Result<seq<PrReviewComment>, FetchError>
    requires 1 <= page
  {
    WithContext("Failed to fetch review comments: ", WalkFrom(pages, KeepParsedBy(parseTs), page, acc))
  }

  /** The inner loop of `fetch_pr_review_comments` over one page: pushes each item that parses. */
  method KeepPage(items: seq<Json>, parseTs: string -> Option<Time>, collected: seq<PrReviewComment>)
    returns (comments: seq<PrReviewComment>)
    ensures comments == collected + KeepParsed(items, parseTs)
  {
    comments := collected;
    for i := 0 to |items|
      invariant collected + KeepParsed(items, parseTs) == comments + KeepParsed(items[i..], parseTs)
    {
      assert items[i..][0] == items[i] && items[i..][1..] == items[i + 1..];
      var parsed := ParseReviewComment(items[i], parseTs);
      if parsed.Some? {
        comments := comments + [parsed.value];
      }
    }
    assert items[|items|..] == [];
  }

  /**
   * `fetch_pr_review_comments`: requests pages of raw JSON until one comes
   * back empty, keeping the comments that parse; `requests` is the number
   * of pages requested.
   */
  method FetchPrReviewComments(pages: seq<PageFetch<Json>>, parseTs: string -> Option<Time>)
    returns (r: Result<seq<PrReviewComment>, FetchError>, requests: nat)
    ensures r == ReviewCommentsFrom(pages, parseTs, 1, [])
    ensures requests == RunEnd(pages, 1)
  {
    var comments: seq<PrReviewComment> := [];
    var page: nat := 1;
    while true
      invariant 1 <= page <= RunEnd(pages, 1)
      invariant RunEnd(pages, page) == RunEnd(pages, 1)
      invariant ReviewCommentsFrom(pages, parseTs, page, comments) == ReviewCommentsFrom(pages, parseTs, 1, [])
      decreases |pages| + 1 - page
    {
      var response := PageAt(pages, page);
      requests := page;
      if response.Failed? {
        r := Err(ApiError("Failed to fetch review comments: " + response.reason));
        return;
      }
      var items := response.items;
      if items == [] {
        break;
      }
      comments := KeepPage(items, parseTs, comments);
      page := page + 1;
    }
    r := Ok(comments);
  }

  /**
   * The review comments of a pull request are the parsable items of every
   * page before the first empty one, in order, unless a request before it
   * fails.
   */
  lemma ReviewCommentWalk(pages: seq<PageFetch<Json>>, parseTs: string -> Option<Time>, page: nat, acc: seq<PrReviewComment>)
    requires 1 <= page
    ensures var e := RunEnd(pages, page);
      ReviewCommentsFrom(pages, parseTs, page, acc) ==
        if PageAt(pages, e).Failed? then Err(ApiError("Failed to fetch review comments: " + PageAt(pages, e).reason))
        else Ok(acc + KeepParsed(ItemsBetween(pages, page, e), parseTs))
  {
    var keep := KeepParsedBy(parseTs);
    forall a: seq<Json>, b: seq<Json>
      ensures keep(a + b) == keep(a) + keep(b)
    {
      KeepParsedAppend(a, b, parseTs);
    }
    WalkItems(pages, keep, page, acc);
  }
}

=== FILE: common.dfy ===
/**
 * Failure-compatible wrappers and the fixed-width integer types of the
 * source language, shared by every other module.
 */
module Common {

  /** An optional value (Rust `Option`). */
  datatype Option<+T> = None | Some(value: T) {
    /** `Option::unwrap_or`. */
    function UnwrapOr(default: T): T {
      if Some? then value else default
    }

    /** `Option::or`: this value when present, otherwise `other`. */
    function Or(other: Option<T>): Option<T> {
      if Some? then this else other
    }
  }

  /** A success value or an error (Rust `Result`). */
  datatype Result<+T, +E> = Ok(value: T) | Err(error: E)

  const U32Limit: nat := 0x1_0000_0000
  const U64Limit: nat := 0x1_0000_0000_0000_0000

  /** Rust `u32`. */
  type u32 = x: nat | x < U32Limit

  /** Rust `u64`. */
  type u64 = x: nat | x < U64Limit

  /** The truncating cast `v as u32` from a `u64`. */
  function TruncateU32(v: u64): u32 {
    v % U32Limit
  }

  function Max(a: int, b: int): int {
    if a < b then b else a
  }

  /** The present results of `f` over `xs`, in order (`Iterator::filter_map`). */
  function FilterMap<T, V>(xs: seq<T>, f: T -> Option<V>): seq<V> {
    if xs == [] then []
    else (if f(xs[0]).Some? then [f(xs[0]).value] else []) + FilterMap(xs[1..], f)
  }

  /** Filter-mapping distributes over concatenation. */
  lemma {:induction false} FilterMapAppend<T, V>(a: seq<T>, b: seq<T>, f: T -> Option<V>)
    ensures FilterMap(a + b, f) == FilterMap(a, f) + FilterMap(b, f)
  {
    if a == [] {
      assert a + b == b;
    } else {
      assert (a + b)[0] == a[0] && (a + b)[1..] == a[1..] + b;
      FilterMapAppend(a[1..], b, f);
      var head := if f(a[0]).Some? then [f(a[0]).value] else [];
      var x, y := FilterMap(a[1..], f), FilterMap(b, f);
      assert FilterMap(a + b, f) == head + (x + y);
      assert FilterMap(a, f) == head + x;
      assert head + (x + y) == (head + x) + y;
    }
  }

  /**
   * Every result is the image of an element, and every element with an
   * image contributes it.
   */
  lemma {:induction false} FilterMapSpec<T, V>(xs: seq<T>, f: T -> Option<V>)
    ensures forall v :: v in FilterMap(xs, f) ==> exists j :: 0 <= j < |xs| && f(xs[j]) == Some(v)
    ensures forall j :: 0 <= j < |xs| && f(xs[j]).Some? ==> f(xs[j]).value in FilterMap(xs, f)
  {
    if xs != [] {
      FilterMapSpec(xs[1..], f);
      var rest := FilterMap(xs[1..], f);
      forall v | v in FilterMap(xs, f)
        ensures exists j :: 0 <= j < |xs| && f(xs[j]) == Some(v)
      {
        if v in rest {
          var j :| 0 <= j < |xs[1..]| && f(xs[1..][j]) == Some(v);
          assert xs[1..][j] == xs[j + 1];
        } else {
          assert f(xs[0]) == Some(v);
        }
      }
      forall j | 0 <= j < |xs| && f(xs[j]).Some?
        ensures f(xs[j]).value in FilterMap(xs, f)
      {
        if j > 0 {
          assert xs[1..][j - 1] == xs[j];
        }
      }
    }
  }
}

=== FILE: config.dfy ===
/**
 * Client configuration: the forge endpoint settings, the pacing settings
 * and their defaults.
 */
module Config {
  import opened Common

  datatype GitHubConfig = GitHubConfig(
    tokenEnvVar: string,
    apiBaseUrl: string,
    userAgent: string,
    timeoutSeconds: u64)

  datatype RateLimitConfig = RateLimitConfig(
    requestsPerMinute: u32,
    delayBetweenRequestsMs: u64,
    respectGithubRateLimits: bool,
    maxRetries: u32)

  datatype FetchConfig = FetchConfig(github: GitHubConfig, rateLimiting: RateLimitConfig)

  /** `std::time::Duration`: whole seconds and the nanoseconds below a second. */
  datatype Duration = Duration(secs: nat, nanos: nat)

  function AsMillis(d: Duration): nat {
    d.secs * 1000 + d.nanos / 1_000_000
  }

  function DefaultGitHubConfig(): GitHubConfig {
    GitHubConfig("GITHUB_TOKEN", "https://api.github.com", "github-fetch/0.1.0", 30)
  }

  function DefaultRateLimitConfig(): RateLimitConfig {
    RateLimitConfig(60, 1000, true, 3)
  }

  function DefaultFetchConfig(): FetchConfig {
    FetchConfig(DefaultGitHubConfig(), DefaultRateLimitConfig())
  }

  /**
   * `RateLimitConfig::delay_duration`, i.e. `Duration::from_millis`: a
   * normalized duration of exactly the configured number of milliseconds.
   */
  function DelayDuration(c: RateLimitConfig): (d: Duration)
    ensures d.nanos < 1_000_000_000 && d.nanos % 1_000_000 == 0
    ensures AsMillis(d) == c.delayBetweenRequestsMs
  {
    var ms := c.delayBetweenRequestsMs;
    var d := Duration(ms / 1000, (ms % 1000) * 1_000_000);
    assert d.nanos / 1_000_000 == ms % 1000;
    d
  }

  /** The default configuration is the pair of the two component defaults, with these values. */
  lemma DefaultValues()
    ensures DefaultFetchConfig().github == DefaultGitHubConfig()
    ensures DefaultFetchConfig().rateLimiting == DefaultRateLimitConfig()
    ensures DefaultGitHubConfig().tokenEnvVar == "GITHUB_TOKEN"
    ensures DefaultGitHubConfig().apiBaseUrl == "https://api.github.com"
    ensures DefaultGitHubConfig().userAgent == "github-fetch/0.1.0"
    ensures DefaultGitHubConfig().timeoutSeconds == 30
    ensures DefaultRateLimitConfig().requestsPerMinute == 60
    ensures DefaultRateLimitConfig().delayBetweenRequestsMs == 1000
    ensures DefaultRateLimitConfig().respectGithubRateLimits
    ensures DefaultRateLimitConfig().maxRetries == 3
    ensures AsMillis(DelayDuration(DefaultRateLimitConfig())) == 1000
  {
  }
}

=== FILE: discussion_fetch.dfy ===
/**
 * The discussion client's request path around its transport: the token
 * lookup in the process environment, the two request headers, the
 * endpoint's reply and its status, and the lookup by URL. The environment
 * is a map, and the GraphQL endpoint a function from the query text it is
 * sent to its reply.
 */
module DiscussionFetch {
  import opened Common
  import opened Text
  import opened JsonTree
  import opened Errors
  import opened Types
  import opened Config
  import opened Discussions

  /** The process environment: variable names and their values. */
  type Env = map<string, string>

  /** What one POST to the GraphQL endpoint yields. */
  datatype Reply =
    | Unsent                                                  // the request failed in transport
    | Answered(status: nat, text: string, json: Option<Json>) // `json` is None when the body is not JSON

  /** An HTTP status in the 2xx range. */
  predicate IsSuccess(status: nat) {
    200 <= status <= 299
  }

  /**
   * A character `HeaderValue::from_str` accepts: a tab, or any character
   * whose UTF-8 bytes are neither control characters nor DEL (every
   * non-ASCII character qualifies).
   */
  predicate HeaderChar(c: char) {
    c == '\t' || (c as int >= 0x20 && c as int != 0x7f)
  }

  predicate ValidHeader(s: string) {
    forall i :: 0 <= i < |s| ==> HeaderChar(s[i])
  }

  /** The message of a rejected header value. */
  const InvalidHeaderValue: string := "failed to parse header value"

  /** The message when the token variable is unset. */
  function TokenUnset(tokenEnvVar: string): FetchError {
    AuthError(tokenEnvVar + " environment variable not set")
  }

  /**
   * `fetch_discussion`: the token, then the headers, then the POST of the
   * query; a reply outside 2xx becomes an `ApiError` carrying its text, a
   * body that is not JSON a network error, and a JSON reply is normalized.
   */
  function FetchDiscussion(config: GitHubConfig, env: Env, endpoint: string -> Reply, repo: Repository, number: u64,
                           parseTs: string -> Option<Time>, now: Time): (r: Result<Discussion, FetchError>)
    ensures (r.Err? && r.error.AuthError?) <==> config.tokenEnvVar !in env
    ensures r.Err? && r.error.ConfigError? ==>
      !ValidHeader("Bearer " + env[config.tokenEnvVar]) || !ValidHeader(config.userAgent)
    ensures r.Ok? ==> var reply := endpoint(BuildDiscussionQuery(repo.owner, repo.name, number));
      reply.Answered? && IsSuccess(reply.status) && reply.json.Some?
      && DiscussionMember(reply.json.value).Some?
  {
    if config.tokenEnvVar !in env then Err(TokenUnset(config.tokenEnvVar))
    else if !ValidHeader("Bearer " + env[config.tokenEnvVar]) then Err(ConfigError("Invalid token: " + InvalidHeaderValue))
    else if !ValidHeader(config.userAgent) then Err(ConfigError("Invalid user agent: " + InvalidHeaderValue))
    else
      match endpoint(BuildDiscussionQuery(repo.owner, repo.name, number))
      case Unsent => Err(NetworkError)
      case Answered(status, text, json) =>
        if !IsSuccess(status) then Err(ApiError("GitHub GraphQL API request failed: " + text))
        else if json.None? then Err(NetworkError)
        else ParseDiscussionResponse(json.value, repo, number, parseTs, now)
  }

  /** The request can go out: the token is set and both headers are valid. */
  predicate CanSend(config: GitHubConfig, env: Env) {
    config.tokenEnvVar in env && ValidHeader("Bearer " + env[config.tokenEnvVar]) && ValidHeader(config.userAgent)
  }

  /**
   * A discussion the endpoint sends back in a successful reply to the
   * query for it is returned unchanged.
   */
  lemma FetchDiscussionRoundTrip(config: GitHubConfig, env: Env, endpoint: string -> Reply, repo: Repository, number: u64,
                                 d: Discussion, formatTs: Time -> string, parseTs: string -> Option<Time>, now: Time, status: nat, text: string)
    requires CanSend(config, env) && IsSuccess(status)
    requires endpoint(BuildDiscussionQuery(repo.owner, repo.name, number)) == Answered(status, text, Some(ReplyJson(d, formatTs)))
    requires forall t :: parseTs(formatTs(t)) == Some(t)
    ensures FetchDiscussion(config, env, endpoint, repo, number, parseTs, now) == Ok(d)
  {
    DiscussionRoundTrip(d, repo, number, formatTs, parseTs, now);
  }

  /** A reply outside 2xx is an `ApiError` carrying the reply's text, whatever its body. */
  lemma FailedStatusIsApiError(config: GitHubConfig, env: Env, endpoint: string -> Reply, repo: Repository, number: u64,
                               parseTs: string -> Option<Time>, now: Time)
    requires CanSend(config, env)
    requires var reply := endpoint(BuildDiscussionQuery(repo.owner, repo.name, number));
      reply.Answered? && !IsSuccess(reply.status)
    ensures var reply := endpoint(BuildDiscussionQuery(repo.owner, repo.name, number));
      FetchDiscussion(config, env, endpoint, repo, number, parseTs, now)
        == Err(ApiError("GitHub GraphQL API request failed: " + reply.text))
  {
  }

  /** A token with a line break cannot go into the authorization header. */
  lemma TokenWithNewlineRejected(config: GitHubConfig, env: Env, endpoint: string -> Reply, repo: Repository, number: u64,
                                 parseTs: string -> Option<Time>, now: Time, i: nat)
    requires config.tokenEnvVar in env && i < |env[config.tokenEnvVar]| && env[config.tokenEnvVar][i] == '\n'
    ensures FetchDiscussion(config, env, endpoint, repo, number, parseTs, now)
      == Err(ConfigError("Invalid token: " + InvalidHeaderValue))
  {
    var header := "Bearer " + env[config.tokenEnvVar];
    assert header[|"Bearer "| + i] == '\n';
  }

  /**
   * `fetch_discussion_by_url`: the URL is parsed first, so a malformed one
   * is rejected before the token is looked up.
   */
  function FetchDiscussionByUrl(config: GitHubConfig, env: Env, endpoint: string -> Reply, url: string,
                                parseTs: string -> Option<Time>, now: Time): (r: Result<Discussion, FetchError>)
    ensures ParseDiscussionUrl(url).Err? ==> r == Err(ParseDiscussionUrl(url).error)
    ensures ParseDiscussionUrl(url).Ok? ==> var (owner, repo, n) := ParseDiscussionUrl(url).value;
      r == FetchDiscussion(config, env, endpoint, NewRepository(owner, repo), n, parseTs, now)
  {
    match ParseDiscussionUrl(url)
    case Err(e) => Err(e)
    case Ok((owner, repo, n)) => FetchDiscussion(config, env, endpoint, NewRepository(owner, repo), n, parseTs, now)
  }

  /** Looking a discussion up by its canonical URL is looking it up by repository and number. */
  lemma ByUrlIsByNumber(config: GitHubConfig, env: Env, endpoint: string -> Reply, owner: string, repo: string, n: u64,
                        parseTs: string -> Option<Time>, now: Time)
    requires owner != [] && '/' !in owner && repo != [] && '/' !in repo
    ensures FetchDiscussionByUrl(config, env, endpoint, DiscussionUrl(owner, repo, n), parseTs, now)
      == FetchDiscussion(config, env, endpoint, NewRepository(owner, repo), n, parseTs, now)
  {
    DiscussionUrlRoundTrip(owner, repo, n);
  }
}

=== FILE: discussions.dfy ===
/**
 * The GraphQL discussion client without its transport: the query it sends,
 * the normalization of the reply into a `Discussion`, and the parser of
 * discussion URLs. Timestamps are parsed by the `parseTs` parameter, and
 * `now` is the clock reading used for a missing timestamp.
 */
module Discussions {
  import opened Common
  import opened Text
  import opened JsonTree
  import opened Errors
  import opened Types

  // ---------------------------------------------------------------------
  // Comment nodes

  /** `get(key)?.as_str()?.parse::<DateTime<Utc>>().ok()`: a timestamp member. */
  function TimeOf(j: Json, key: string, parseTs: string -> Option<Time>): Option<Time> {
    var s := GetStr(j, key);
    if s.Some? then parseTs(s.value) else None
  }

  /** `author.get("id")?.as_str()?.parse::<u64>().ok()`: a user id sent as a decimal string. */
  function UserIdOf(author: Json): Option<u64> {
    var s := GetStr(author, "id");
    if s.Some? then ParseU64(s.value) else None
  }

  /** A comment node carries every member its record needs, each of the right type. */
  predicate CompleteNode(node: Json, parseTs: string -> Option<Time>) {
    GetStr(node, "id").Some?
    && GetStr(node, "body").Some?
    && Get(node, "author").Some?
    && UserIdOf(Get(node, "author").value).Some?
    && GetStr(Get(node, "author").value, "login").Some?
    && GetStr(Get(node, "author").value, "avatarUrl").Some?
    && TimeOf(node, "createdAt", parseTs).Some?
    && TimeOf(node, "updatedAt", parseTs).Some?
  }

  /** The `filter_map` closure over comment nodes: a comment only when the node is complete. */
  function ParseCommentNode(node: Json, parseTs: string -> Option<Time>): (r: Option<DiscussionComment>)
    ensures r.Some? <==> CompleteNode(node, parseTs)
  {
    var id := GetStr(node, "id");
    var body := GetStr(node, "body");
    var author := Get(node, "author");
    if id.None? || body.None? || author.None? then None
    else
      var userId := UserIdOf(author.value);
      var login := GetStr(author.value, "login");
      var avatar := GetStr(author.value, "avatarUrl");
      var created := TimeOf(node, "createdAt", parseTs);
      var updated := TimeOf(node, "updatedAt", parseTs);
      if userId.None? || login.None? || avatar.None? || created.None? || updated.None? then None
      else Some(DiscussionComment(id.value, body.value, GitHubUser(userId.value, login.value, avatar.value), created.value, updated.value))
  }

  /**
   * A node whose author id is not a decimal number (a GraphQL node id such
   * as "MDQ6VXNlcjE=") is dropped, whatever else it carries.
   */
  lemma NonDecimalAuthorIdDropsNode(node: Json, parseTs: string -> Option<Time>)
    requires Get(node, "author").Some?
    requires GetStr(Get(node, "author").value, "id").Some?
    requires var s := GetStr(Get(node, "author").value, "id").value;
      s != [] && s[0] != '+' && !IsAsciiDigit(s[0])
    ensures ParseCommentNode(node, parseTs).None?
  {
  }

  /** The comment nodes that are complete, as comments, in order. */
  function KeepNodes(nodes: seq<Json>, parseTs: string -> Option<Time>): seq<DiscussionComment> {
    if nodes == [] then []
    else
      var c := ParseCommentNode(nodes[0], parseTs);
      (if c.Some? then [c.value] else []) + KeepNodes(nodes[1..], parseTs)
  }

  /** Every kept comment is the parse of a node, and every complete node is kept. */
  lemma {:induction false} KeepNodesSpec(nodes: seq<Json>, parseTs: string -> Option<Time>)
    ensures forall c :: c in KeepNodes(nodes, parseTs) ==>
      exists j :: 0 <= j < |nodes| && ParseCommentNode(nodes[j], parseTs) == Some(c)
    ensures forall j :: 0 <= j < |nodes| && CompleteNode(nodes[j], parseTs) ==>
      ParseCommentNode(nodes[j], parseTs).value in KeepNodes(nodes, parseTs)
  {
    if nodes != [] {
      KeepNodesSpec(nodes[1..], parseTs);
      var c0 := ParseCommentNode(nodes[0], parseTs);
      var rest := KeepNodes(nodes[1..], parseTs);
      assert KeepNodes(nodes, parseTs) == (if c0.Some? then [c0.value] else []) + rest;
      forall c | c in KeepNodes(nodes, parseTs)
        ensures exists j :: 0 <= j < |nodes| && ParseCommentNode(nodes[j], parseTs) == Some(c)
      {
        if c in rest {
          var j :| 0 <= j < |nodes[1..]| && ParseCommentNode(nodes[1..][j], parseTs) == Some(c);
          assert nodes[1..][j] == nodes[j + 1];
        } else {
          assert ParseCommentNode(nodes[0], parseTs) == Some(c);
        }
      }
      forall j | 0 <= j < |nodes| && CompleteNode(nodes[j], parseTs)
        ensures ParseCommentNode(nodes[j], parseTs).value in KeepNodes(nodes, parseTs)
      {
        if j > 0 {
          assert nodes[1..][j - 1] == nodes[j];
        }
      }
    }
  }

  /** Keeping distributes over concatenation: kept comments stay in the order of their nodes. */
  lemma {:induction false} KeepNodesAppend(a: seq<Json>, b: seq<Json>, parseTs: string -> Option<Time>)
    ensures KeepNodes(a + b, parseTs) == KeepNodes(a, parseTs) + KeepNodes(b, parseTs)
  {
    if a != [] {
      KeepNodesAppend(a[1..], b, parseTs);
      assert (a + b)[0] == a[0] && (a + b)[1..] == a[1..] + b;
    } else {
      assert a + b == b;
    }
  }

  /** The node a comment is sent as, with `formatTs` rendering timestamps and the user id in decimal. */
  function CommentNode(c: DiscussionComment, formatTs: Time -> string): Json {
    Obj(map[
      "id" := Str(c.id),
      "body" := Str(c.body),
      "author" := Obj(map[
        "id" := Str(NatToString(c.author.id)),
        "login" := Str(c.author.login),
        "avatarUrl" := Str(c.author.avatarUrl)]),
      "createdAt" := Str(formatTs(c.createdAt)),
      "updatedAt" := Str(formatTs(c.updatedAt))])
  }

  /** A comment sent with a decimal user id comes back unchanged. */
  lemma CommentNodeRoundTrip(c: DiscussionComment, formatTs: Time -> string, parseTs: string -> Option<Time>)
    requires forall t :: parseTs(formatTs(t)) == Some(t)
    ensures ParseCommentNode(CommentNode(c, formatTs), parseTs) == Some(c)
  {
    var node := CommentNode(c, formatTs);
    var author := Get(node, "author").value;
    ParseU64RoundTrip(c.author.id);
    assert UserIdOf(author) == Some(c.author.id);
    assert TimeOf(node, "createdAt", parseTs) == Some(c.createdAt);
    assert TimeOf(node, "updatedAt", parseTs) == Some(c.updatedAt);
  }

  /** The nodes a list of comments is sent as. */
  function Nodes(cs: seq<DiscussionComment>, formatTs: Time -> string): (nodes: seq<Json>)
    ensures |nodes| == |cs|
  {
    if cs == [] then [] else [CommentNode(cs[0], formatTs)] + Nodes(cs[1..], formatTs)
  }

  /** A list of comments sent as nodes comes back unchanged. */
  lemma {:induction false} KeepNodesRoundTrip(cs: seq<DiscussionComment>, formatTs: Time -> string, parseTs: string -> Option<Time>)
    requires forall t :: parseTs(formatTs(t)) == Some(t)
    ensures KeepNodes(Nodes(cs, formatTs), parseTs) == cs
  {
    if cs != [] {
      var nodes := Nodes(cs, formatTs);
      CommentNodeRoundTrip(cs[0], formatTs, parseTs);
      KeepNodesRoundTrip(cs[1..], formatTs, parseTs);
      assert nodes[0] == CommentNode(cs[0], formatTs) && nodes[1..] == Nodes(cs[1..], formatTs);
    }
  }

  // ---------------------------------------------------------------------
  // The reply

  /** `data.repository.discussion`, looked up member by member. */
  function DiscussionMember(response: Json): Option<Json> {
    GetIn(GetIn(Get(response, "data"), "repository"), "discussion")
  }

  /** The discussion's author: absent is the sentinel user; present, each member has its own default. */
  function AuthorOf(d: Json): (u: GitHubUser)
    ensures Get(d, "author").None? ==> u == SentinelUser()
    ensures Get(d, "author").Some? ==> u.id == UserIdOf(Get(d, "author").value).UnwrapOr(0)
    ensures Get(d, "author").Some? ==> u.login == GetStr(Get(d, "author").value, "login").UnwrapOr("unknown")
    ensures Get(d, "author").Some? ==> u.avatarUrl == GetStr(Get(d, "author").value, "avatarUrl").UnwrapOr("")
  {
    match Get(d, "author")
    case None => GitHubUser(0, "unknown", "")
    case Some(a) => GitHubUser(UserIdOf(a).UnwrapOr(0), GetStr(a, "login").UnwrapOr("unknown"), GetStr(a, "avatarUrl").UnwrapOr(""))
  }

  /** The comments of a discussion: the complete nodes of `comments.nodes`, none when that is not an array. */
  function CommentsOf(d: Json, parseTs: string -> Option<Time>): seq<DiscussionComment> {
    var nodes := GetIn(Get(d, "comments"), "nodes");
    if nodes.Some? && AsArray(nodes.value).Some? then KeepNodes(AsArray(nodes.value).value, parseTs) else []
  }

  /**
   * `parse_discussion_response`: not found exactly when the member path
   * `data.repository.discussion` is missing; otherwise every field has its
   * own default, the number being the one asked for.
   */
  function ParseDiscussionResponse(response: Json, repo: Repository, number: u64, parseTs: string -> Option<Time>, now: Time)
    : (r: Result<Discussion, FetchError>)
    ensures r.Err? <==> DiscussionMember(response).None?
    ensures r.Err? ==> r.error == NotFound("Discussion #" + NatToString(number) + " not found in " + repo.owner + "/" + repo.name)
    ensures r.Ok? ==> var d := DiscussionMember(response).value;
      r.value.number == GetU64(d, "number").UnwrapOr(number)
      && r.value.title == GetStr(d, "title").UnwrapOr("Unknown Discussion")
      && r.value.author == AuthorOf(d)
      && r.value.createdAt == TimeOf(d, "createdAt", parseTs).UnwrapOr(now)
      && r.value.comments == CommentsOf(d, parseTs)
    ensures r.Ok? ==> r.value.body == GetStr(DiscussionMember(response).value, "body").UnwrapOr("")
    ensures r.Ok? ==> r.value.url == GetStr(DiscussionMember(response).value, "url").UnwrapOr("")
    ensures r.Ok? ==> r.value.updatedAt == TimeOf(DiscussionMember(response).value, "updatedAt", parseTs).UnwrapOr(now)
  {
    var member := DiscussionMember(response);
    if member.None? then
      Err(NotFound("Discussion #" + NatToString(number) + " not found in " + repo.owner + "/" + repo.name))
    else
      var d := member.value;
      Ok(Discussion(
        GetU64(d, "number").UnwrapOr(number),
        GetStr(d, "title").UnwrapOr("Unknown Discussion"),
        GetStr(d, "body").UnwrapOr(""),
        GetStr(d, "url").UnwrapOr(""),
        AuthorOf(d),
        TimeOf(d, "createdAt", parseTs).UnwrapOr(now),
        TimeOf(d, "updatedAt", parseTs).UnwrapOr(now),
        CommentsOf(d, parseTs)))
  }

  /**
   * A discussion that is present but `null` (how GraphQL answers for a
   * discussion that does not exist) is not an error: it yields the
   * all-defaults discussion carrying the requested number.
   */
  lemma NullDiscussionIsDefault(repo: Repository, number: u64, parseTs: string -> Option<Time>, now: Time)
    ensures var response := Obj(map["data" := Obj(map["repository" := Obj(map["discussion" := Null])])]);
      ParseDiscussionResponse(response, repo, number, parseTs, now)
        == Ok(Discussion(number, "Unknown Discussion", "", "", SentinelUser(), now, now, []))
  {
    var response := Obj(map["data" := Obj(map["repository" := Obj(map["discussion" := Null])])]);
    assert DiscussionMember(response) == Some(Null);
  }

  /** A missing repository (GraphQL's `null`) gives not found. */
  lemma NullRepositoryIsNotFound(repo: Repository, number: u64, parseTs: string -> Option<Time>, now: Time)
    ensures var response := Obj(map["data" := Obj(map["repository" := Null])]);
      ParseDiscussionResponse(response, repo, number, parseTs, now).Err?
  {
    var response := Obj(map["data" := Obj(map["repository" := Null])]);
    assert DiscussionMember(response) == None;
  }

  /** The `author` member of a discussion: a user with a decimal id. */
  function AuthorJson(u: GitHubUser): Json {
    Obj(map["id" := Str(NatToString(u.id)), "login" := Str(u.login), "avatarUrl" := Str(u.avatarUrl)])
  }

  /** The `discussion` member a discussion is sent as. */
  function DiscussionJson(d: Discussion, formatTs: Time -> string): Json {
    Obj(map[
      "number" := Num(d.number),
      "title" := Str(d.title),
      "body" := Str(d.body),
      "url" := Str(d.url),
      "author" := AuthorJson(d.author),
      "createdAt" := Str(formatTs(d.createdAt)),
      "updatedAt" := Str(formatTs(d.updatedAt)),
      "comments" := Obj(map["nodes" := Arr(Nodes(d.comments, formatTs))])])
  }

  /** The whole reply carrying a discussion. */
  function ReplyJson(d: Discussion, formatTs: Time -> string): Json {
    Obj(map["data" := Obj(map["repository" := Obj(map["discussion" := DiscussionJson(d, formatTs)])])])
  }

  lemma DiscussionScalarsRoundTrip(d: Discussion, formatTs: Time -> string, parseTs: string -> Option<Time>)
    requires forall t :: parseTs(formatTs(t)) == Some(t)
    ensures var j := DiscussionJson(d, formatTs);
      GetU64(j, "number") == Some(d.number) && GetStr(j, "title") == Some(d.title)
      && GetStr(j, "body") == Some(d.body) && GetStr(j, "url") == Some(d.url)
      && TimeOf(j, "createdAt", parseTs) == Some(d.createdAt) && TimeOf(j, "updatedAt", parseTs) == Some(d.updatedAt)
  {
  }

  lemma DiscussionAuthorRoundTrip(d: Discussion, formatTs: Time -> string)
    ensures AuthorOf(DiscussionJson(d, formatTs)) == d.author
  {
    var a := AuthorJson(d.author);
    assert Get(DiscussionJson(d, formatTs), "author") == Some(a);
    ParseU64RoundTrip(d.author.id);
    assert UserIdOf(a) == Some(d.author.id);
  }

  lemma DiscussionCommentsRoundTrip(d: Discussion, formatTs: Time -> string, parseTs: string -> Option<Time>)
    requires forall t :: parseTs(formatTs(t)) == Some(t)
    ensures CommentsOf(DiscussionJson(d, formatTs), parseTs) == d.comments
  {
    assert GetIn(Get(DiscussionJson(d, formatTs), "comments"), "nodes") == Some(Arr(Nodes(d.comments, formatTs)));
    KeepNodesRoundTrip(d.comments, formatTs, parseTs);
  }

  /** A discussion sent in a reply, with its author's id in decimal, is read back unchanged. */
  lemma DiscussionRoundTrip(d: Discussion, repo: Repository, number: u64, formatTs: Time -> string, parseTs: string -> Option<Time>, now: Time)
    requires forall t :: parseTs(formatTs(t)) == Some(t)
    ensures ParseDiscussionResponse(ReplyJson(d, formatTs), repo, number, parseTs, now) == Ok(d)
  {
    var j := DiscussionJson(d, formatTs);
    assert DiscussionMember(ReplyJson(d, formatTs)) == Some(j);
    DiscussionScalarsRoundTrip(d, formatTs, parseTs);
    DiscussionAuthorRoundTrip(d, formatTs);
    DiscussionCommentsRoundTrip(d, formatTs, parseTs);
  }

  // ---------------------------------------------------------------------
  // Discussion URLs

  const UrlPrefix: string := "https://github.com/"
  const DiscussionsInfix: string := "/discussions/"

  /** The end of the run of non-slash characters starting at `from`. */
  function SegmentEnd(s: string, from: nat): (k: nat)
    requires from <= |s|
    ensures from <= k <= |s|
    ensures forall i :: from <= i < k ==> s[i] != '/'
    ensures k < |s| ==> s[k] == '/'
    decreases |s| - from
  {
    if from == |s| || s[from] == '/' then from else SegmentEnd(s, from + 1)
  }

  /** The end of the run of ASCII digits starting at `from`. */
  function DigitsEnd(s: string, from: nat): (k: nat)
    requires from <= |s|
    ensures from <= k <= |s|
    ensures forall i :: from <= i < k ==> IsAsciiDigit(s[i])
    ensures k < |s| ==> !IsAsciiDigit(s[k])
    decreases |s| - from
  {
    if from == |s| || !IsAsciiDigit(s[from]) then from else DigitsEnd(s, from + 1)
  }

  /** What the pattern captures at a start position. */
  datatype UrlParts = UrlParts(owner: string, repo: string, digits: string)

  /** The captures once the number's digits start at `d`. */
  function MatchNumber(url: string, p: nat, q: nat, r: nat, d: nat): Option<UrlParts>
    requires p <= q < r <= d <= |url|
  {
    var e := DigitsEnd(url, d);
    if e == d then None else Some(UrlParts(url[p..q], url[q + 1..r], url[d..e]))
  }

  /** The captures once the owner spans `p` up to the slash at `q`. */
  function MatchRepo(url: string, p: nat, q: nat): Option<UrlParts>
    requires p <= q < |url|
  {
    var r := SegmentEnd(url, q + 1);
    if r == q + 1 || !OccursAt(url, DiscussionsInfix, r) then None
    else MatchNumber(url, p, q, r, r + |DiscussionsInfix|)
  }

  /** The captures once the site prefix ends at `p`. */
  function MatchSegments(url: string, p: nat): Option<UrlParts>
    requires p <= |url|
  {
    var q := SegmentEnd(url, p);
    if q == p || q == |url| then None else MatchRepo(url, p, q)
  }

  /**
   * A match of `https://github\.com/([^/]+)/([^/]+)/discussions/(\d+)`
   * starting at `i`, with each repetition taking as much as it can.
   */
  function MatchAt(url: string, i: nat): (m: Option<UrlParts>)
    ensures m.Some? ==> m.value.owner != [] && '/' !in m.value.owner
    ensures m.Some? ==> m.value.repo != [] && '/' !in m.value.repo
    ensures m.Some? ==> m.value.digits != [] && AllDigits(m.value.digits)
  {
    if !OccursAt(url, UrlPrefix, i) then None else MatchSegments(url, i + |UrlPrefix|)
  }

  /** The leftmost match at or after `i`. */
  function FirstMatch(url: string, i: nat): (m: Option<UrlParts>)
    ensures m.Some? ==> m.value.owner != [] && '/' !in m.value.owner
    ensures m.Some? ==> m.value.repo != [] && '/' !in m.value.repo
    ensures m.Some? ==> m.value.digits != [] && AllDigits(m.value.digits)
    decreases |url| - i
  {
    if i >= |url| then None
    else if MatchAt(url, i).Some? then MatchAt(url, i)
    else FirstMatch(url, i + 1)
  }

  /** A match found by the search is a match at some position. */
  lemma {:induction false} FirstMatchIsMatch(url: string, i: nat)
    ensures FirstMatch(url, i).Some? ==> exists k :: i <= k < |url| && MatchAt(url, k) == FirstMatch(url, i)
    decreases |url| - i
  {
    if i < |url| && MatchAt(url, i).None? {
      FirstMatchIsMatch(url, i + 1);
    }
  }

  /**
   * `parse_discussion_url`: the owner, the repository and the number of the
   * leftmost match; an invalid-repository error when nothing matches or
   * the number does not fit in 64 bits.
   */
  function ParseDiscussionUrl(url: string): (r: Result<(string, string, u64), FetchError>)
    ensures r.Ok? ==> r.value.0 != [] && '/' !in r.value.0 && r.value.1 != [] && '/' !in r.value.1
    ensures FirstMatch(url, 0).None? ==> r == Err(InvalidRepository("Invalid GitHub discussion URL format: " + url))
  {
    match FirstMatch(url, 0)
    case None => Err(InvalidRepository("Invalid GitHub discussion URL format: " + url))
    case Some(m) =>
      var n := DigitsValue(m.digits);
      if n < U64Limit then Ok((m.owner, m.repo, n as u64))
      else Err(InvalidRepository("Invalid discussion number: number too large to fit in target type"))
  }

  /** A discussion URL built from its parts, the number given as its digits. */
  function UrlOf(owner: string, repo: string, digits: string): string {
    UrlPrefix + owner + "/" + repo + DiscussionsInfix + digits
  }

  /** The canonical discussion URL. */
  function DiscussionUrl(owner: string, repo: string, n: nat): string {
    UrlOf(owner, repo, NatToString(n))
  }

  /** Where each of six pieces sits in their concatenation. */
  lemma SpliceShape(url: string, a: string, o: string, b: string, rp: string, c: string, dg: string, q: nat, r: nat, d: nat)
    requires url == a + o + b + rp + c + dg
    requires q == |a| + |o| && r == q + |b| + |rp| && d == r + |c|
    ensures |url| == d + |dg|
    ensures OccursAt(url, a, 0)
    ensures url[|a|..q] == o
    ensures OccursAt(url, b, q)
    ensures url[q + |b|..r] == rp
    ensures OccursAt(url, c, r)
    ensures url[d..] == dg
  {
  }

  /** A run of non-slash characters that ends at a slash, or at the end, is one segment. */
  lemma SegmentEndOf(s: string, from: nat, k: nat)
    requires from <= k <= |s|
    requires forall i :: from <= i < k ==> s[i] != '/'
    requires k == |s| || s[k] == '/'
    ensures SegmentEnd(s, from) == k
  {
  }

  lemma DigitsEndOf(s: string, from: nat)
    requires from <= |s|
    requires forall i :: from <= i < |s| ==> IsAsciiDigit(s[i])
    ensures DigitsEnd(s, from) == |s|
    decreases |s| - from
  {
    if from < |s| {
      DigitsEndOf(s, from + 1);
    }
  }

  lemma MatchNumberAt(url: string, p: nat, q: nat, r: nat, d: nat)
    requires p <= q < r <= d < |url|
    requires DigitsEnd(url, d) == |url|
    ensures MatchNumber(url, p, q, r, d) == Some(UrlParts(url[p..q], url[q + 1..r], url[d..]))
  {
    assert url[d..DigitsEnd(url, d)] == url[d..];
  }

  lemma MatchRepoAt(url: string, p: nat, q: nat, r: nat)
    requires p <= q < |url| && SegmentEnd(url, q + 1) == r && r != q + 1
    requires OccursAt(url, DiscussionsInfix, r)
    ensures MatchRepo(url, p, q) == MatchNumber(url, p, q, r, r + |DiscussionsInfix|)
  {
  }

  lemma MatchSegmentsAt(url: string, p: nat, q: nat)
    requires p < q < |url| && SegmentEnd(url, p) == q
    ensures MatchSegments(url, p) == MatchRepo(url, p, q)
  {
  }

  lemma MatchAtPrefix(url: string)
    requires OccursAt(url, UrlPrefix, 0)
    ensures MatchAt(url, 0) == MatchSegments(url, |UrlPrefix|)
  {
  }

  /** A slice without slashes is a run of non-slash characters. */
  lemma NoSlashIn(s: string, from: nat, to: nat)
    requires from <= to <= |s| && '/' !in s[from..to]
    ensures forall i :: from <= i < to ==> s[i] != '/'
  {
    assert forall i :: from <= i < to ==> s[i] == s[from..to][i - from];
  }

  /** In a URL laid out as prefix, owner, slash, repository, infix and digits, each segment ends where its part does. */
  lemma LaidOutEnds(url: string, owner: string, repo: string, digits: string, q: nat, r: nat, d: nat)
    requires owner != [] && '/' !in owner && repo != [] && '/' !in repo
    requires digits != [] && AllDigits(digits)
    requires q == |UrlPrefix| + |owner| && r == q + 1 + |repo| && d == r + |DiscussionsInfix| && |url| == d + |digits|
    requires OccursAt(url, UrlPrefix, 0)
    requires url[|UrlPrefix|..q] == owner
    requires OccursAt(url, "/", q)
    requires url[q + 1..r] == repo
    requires OccursAt(url, DiscussionsInfix, r)
    requires url[d..] == digits
    ensures SegmentEnd(url, |UrlPrefix|) == q && SegmentEnd(url, q + 1) == r && DigitsEnd(url, d) == |url|
  {
    var p := |UrlPrefix|;
    assert url[q] == url[q..q + 1][0];
    NoSlashIn(url, p, q);
    SegmentEndOf(url, p, q);
    assert url[r] == url[r..d][0] == DiscussionsInfix[0];
    NoSlashIn(url, q + 1, r);
    SegmentEndOf(url, q + 1, r);
    assert forall i :: d <= i < |url| ==> url[i] == digits[i - d];
    DigitsEndOf(url, d);
  }

  /** A URL laid out as prefix, owner, slash, repository, infix and digits matches at its start. */
  lemma LaidOutMatches(url: string, owner: string, repo: string, digits: string, q: nat, r: nat, d: nat)
    requires owner != [] && '/' !in owner && repo != [] && '/' !in repo
    requires digits != [] && AllDigits(digits)
    requires q == |UrlPrefix| + |owner| && r == q + 1 + |repo| && d == r + |DiscussionsInfix| && |url| == d + |digits|
    requires OccursAt(url, UrlPrefix, 0)
    requires url[|UrlPrefix|..q] == owner
    requires OccursAt(url, "/", q)
    requires url[q + 1..r] == repo
    requires OccursAt(url, DiscussionsInfix, r)
    requires url[d..] == digits
    ensures MatchAt(url, 0) == Some(UrlParts(owner, repo, digits))
  {
    var p := |UrlPrefix|;
    LaidOutEnds(url, owner, repo, digits, q, r, d);
    MatchNumberAt(url, p, q, r, d);
    MatchRepoAt(url, p, q, r);
    MatchSegmentsAt(url, p, q);
    MatchAtPrefix(url);
    assert MatchAt(url, 0) == MatchNumber(url, p, q, r, d);
  }

  /** A URL built from its parts matches at its start, capturing those parts. */
  lemma UrlOfMatches(owner: string, repo: string, digits: string)
    requires owner != [] && '/' !in owner && repo != [] && '/' !in repo
    requires digits != [] && AllDigits(digits)
    ensures MatchAt(UrlOf(owner, repo, digits), 0) == Some(UrlParts(owner, repo, digits))
  {
    var url := UrlOf(owner, repo, digits);
    var q := |UrlPrefix| + |owner|;
    var r := q + 1 + |repo|;
    var d := r + |DiscussionsInfix|;
    SpliceShape(url, UrlPrefix, owner, "/", repo, DiscussionsInfix, digits, q, r, d);
    LaidOutMatches(url, owner, repo, digits, q, r, d);
  }

  /**
   * The canonical URL of a discussion parses back into its owner,
   * repository and number.
   */
  lemma DiscussionUrlRoundTrip(owner: string, repo: string, n: u64)
    requires owner != [] && '/' !in owner && repo != [] && '/' !in repo
    ensures ParseDiscussionUrl(DiscussionUrl(owner, repo, n)) == Ok((owner, repo, n))
  {
    UrlOfMatches(owner, repo, NatToString(n));
    DecimalRoundTrip(n);
  }

  /** A well-formed URL whose number does not fit in 64 bits is rejected as an invalid number. */
  lemma TooLargeNumberRejected(owner: string, repo: string, digits: string)
    requires owner != [] && '/' !in owner && repo != [] && '/' !in repo
    requires digits != [] && AllDigits(digits) && DigitsValue(digits) >= U64Limit
    ensures ParseDiscussionUrl(UrlOf(owner, repo, digits))
      == Err(InvalidRepository("Invalid discussion number: number too large to fit in target type"))
  {
    UrlOfMatches(owner, repo, digits);
  }

  /** A URL that does not contain the site prefix is rejected as malformed. */
  lemma NoPrefixNoMatch(url: string)
    requires forall i :: !OccursAt(url, UrlPrefix, i)
    ensures ParseDiscussionUrl(url) == Err(InvalidRepository("Invalid GitHub discussion URL format: " + url))
  {
    NoMatchFrom(url, 0);
  }

  lemma {:induction false} NoMatchFrom(url: string, i: nat)
    requires forall k :: !OccursAt(url, UrlPrefix, k)
    ensures FirstMatch(url, i).None?
    decreases |url| - i
  {
    if i < |url| {
      NoMatchFrom(url, i + 1);
    }
  }

  // ---------------------------------------------------------------------
  // The query

  const QueryHead: string := "\n    {\n        repository(owner: \""
  const QueryNameSep: string := "\", name: \""
  const QueryNumberSep: string := "\") {\n            discussion(number: "
  // The fields asked of the discussion, one or a few lines at a time.
  const DiscussionScalars: string := ") {\n                number\n                title\n"
  const DiscussionBodyUrl: string := "                body\n                url\n"
  const DiscussionAuthor: string := "                author {\n                    login\n"
  const DiscussionUser: string := "                    ... on User {\n                        id\n"
  const DiscussionAvatar: string := "                        avatarUrl\n                    }\n                }\n"
  const DiscussionTimes: string := "                createdAt\n                updatedAt\n                "
  const QueryFields: string := DiscussionScalars + DiscussionBodyUrl + DiscussionAuthor + DiscussionUser + DiscussionAvatar + DiscussionTimes
  const QueryCommentsPage: string := "comments(first: 100)"
  // The fields asked of each of its first 100 comments, and the closing braces.
  const NodesOpen: string := " {\n                    nodes {\n                        id\n"
  const NodeBodyAuthor: string := "                        body\n                        author {\n"
  const NodeLogin: string := "                            login\n                            ... on User {\n"
  const NodeUser: string := "                                id\n                                avatarUrl\n"
  const NodeAuthorClose: string := "                            }\n                        }\n"
  const NodeTimes: string := "                        createdAt\n                        updatedAt\n"
  const QueryClose: string := "                    }\n                }\n            }\n        }\n    }"
  const QueryNodes: string := NodesOpen + NodeBodyAuthor + NodeLogin + NodeUser + NodeAuthorClose + NodeTimes + QueryClose

  /** The query text around the spliced owner, name and number (as its decimal digits). */
  function QueryText(owner: string, repo: string, digits: string): string {
    QueryHead + owner + QueryNameSep + repo + QueryNumberSep + digits + QueryFields + QueryCommentsPage + QueryNodes
  }

  /** `build_discussion_query`: the fixed query text with the owner, the name and the number spliced in, unescaped. */
  function BuildDiscussionQuery(owner: string, repo: string, number: u64): string {
    QueryText(owner, repo, NatToString(number))
  }

  /** The owner as a reader of the query finds it: the text up to the first quote after the head. */
  function QueryOwner(q: string): string
    requires |q| >= |QueryHead|
  {
    var rest := q[|QueryHead|..];
    rest[..IndexOf(rest, '"')]
  }

  lemma OccursBetween(a: string, t: string, b: string)
    ensures OccursAt(a + t + b, t, |a|)
  {
    assert (a + t + b)[|a|..|a| + |t|] == t;
  }

  /** Regrouping nine concatenated pieces around the second, the fourth and the sixth. */
  lemma Regroup(a: string, b: string, c: string, d: string, e: string, f: string, g: string, h: string, k: string)
    ensures a + b + c + d + e + f + g + h + k == a + b + (c + d + e + f + g + h + k)
    ensures a + b + c + d + e + f + g + h + k == (a + b + c) + d + (e + f + g + h + k)
    ensures a + b + c + d + e + f + g + h + k == (a + b + c + d + e) + f + (g + h + k)
  {
  }

  lemma TextEmbedsOwner(owner: string, repo: string, digits: string)
    ensures OccursAt(QueryText(owner, repo, digits), owner, |QueryHead|)
  {
    Regroup(QueryHead, owner, QueryNameSep, repo, QueryNumberSep, digits, QueryFields, QueryCommentsPage, QueryNodes);
    OccursBetween(QueryHead, owner, QueryNameSep + repo + QueryNumberSep + digits + QueryFields + QueryCommentsPage + QueryNodes);
  }

  lemma TextEmbedsName(owner: string, repo: string, digits: string)
    ensures OccursAt(QueryText(owner, repo, digits), repo, |QueryHead| + |owner| + |QueryNameSep|)
  {
    Regroup(QueryHead, owner, QueryNameSep, repo, QueryNumberSep, digits, QueryFields, QueryCommentsPage, QueryNodes);
    OccursBetween(QueryHead + owner + QueryNameSep, repo, QueryNumberSep + digits + QueryFields + QueryCommentsPage + QueryNodes);
  }

  lemma TextEmbedsDigits(owner: string, repo: string, digits: string)
    ensures OccursAt(QueryText(owner, repo, digits), digits, |QueryHead| + |owner| + |QueryNameSep| + |repo| + |QueryNumberSep|)
  {
    Regroup(QueryHead, owner, QueryNameSep, repo, QueryNumberSep, digits, QueryFields, QueryCommentsPage, QueryNodes);
    OccursBetween(QueryHead + owner + QueryNameSep + repo + QueryNumberSep, digits, QueryFields + QueryCommentsPage + QueryNodes);
  }

  lemma TextAsksHundredComments(owner: string, repo: string, digits: string)
    ensures OccursAt(QueryText(owner, repo, digits), QueryCommentsPage,
      |QueryHead| + |owner| + |QueryNameSep| + |repo| + |QueryNumberSep| + |digits| + |QueryFields|)
  {
    var before := QueryHead + owner + QueryNameSep + repo + QueryNumberSep + digits + QueryFields;
    OccursBetween(before, QueryCommentsPage, QueryNodes);
  }

  /** The first `c` of `a + b` is where `b` starts, when `a` has none and `b` starts with one. */
  lemma IndexOfAfter(a: string, b: string, c: char)
    requires c !in a && b != [] && b[0] == c
    ensures IndexOf(a + b, c) == |a|
  {
    assert forall i :: 0 <= i < |a| ==> (a + b)[i] == a[i];
    assert (a + b)[|a|] == c;
  }

  /** Reading up to the first quote after a head gives back the text spliced there. */
  lemma ReadUpToQuote(q: string, head: string, owner: string, after: string)
    requires q == head + owner + after && '"' !in owner && after != [] && after[0] == '"'
    ensures q[|head|..][..IndexOf(q[|head|..], '"')] == owner
  {
    assert q[|head|..] == owner + after;
    IndexOfAfter(owner, after, '"');
    assert (owner + after)[..|owner|] == owner;
  }

  lemma TextOwnerRoundTrip(owner: string, repo: string, digits: string)
    requires '"' !in owner
    ensures QueryOwner(QueryText(owner, repo, digits)) == owner
  {
    var after := QueryNameSep + repo + QueryNumberSep + digits + QueryFields + QueryCommentsPage + QueryNodes;
    Regroup(QueryHead, owner, QueryNameSep, repo, QueryNumberSep, digits, QueryFields, QueryCommentsPage, QueryNodes);
    assert after[0] == QueryNameSep[0] == '"';
    ReadUpToQuote(QueryText(owner, repo, digits), QueryHead, owner, after);
  }

  /** An owner without a quote is read back from the query unchanged. */
  lemma QueryOwnerRoundTrip(owner: string, repo: string, number: u64)
    requires '"' !in owner
    ensures QueryOwner(BuildDiscussionQuery(owner, repo, number)) == owner
  {
    TextOwnerRoundTrip(owner, repo, NatToString(number));
  }
}

=== FILE: errors.dfy ===
/**
 * The fetcher's error kinds. Variants that carry a message keep it; the
 * ones that wrap an error of a foreign library (HTTP client, forge client,
 * JSON decoder, I/O) are opaque tags.
 */
module Errors {

  datatype FetchError =
    | ApiError(message: string)
    | AuthError(message: string)
    | RateLimitExceeded
    | InvalidRepository(message: string)
    | NotFound(message: string)
    | NetworkError
    | OctocrabError
    | JsonError
    | ConfigError(message: string)
    | IoError
    | Other(message: string)
}

=== FILE: fetcher.dfy ===
/**
 * The library's front door: the fetcher, which builds the REST client and
 * the discussion client from one configuration and delegates to them, and
 * the builder that assembles that configuration setter by setter.
 */
module Fetcher {
  import opened Common
  import opened Errors
  import opened Types
  import opened Config
  import opened Filters
  import opened Pages
  import opened Client
  import opened Collection
  import opened Discussions
  import opened DiscussionFetch

  // ---------------------------------------------------------------------
  // Pacing

  /** The pause between requests for a rate of `rpm` requests a minute, a rate of 0 counting as 1. */
  function RateLimitDelay(rpm: u32): (d: u64)
    ensures d * Max(rpm as int, 1) <= 60000 < (d + 1) * Max(rpm as int, 1)
  {
    60000 / Max(rpm as int, 1)
  }

  /** The delays for a few rates; the default rate of 60 gives the default delay. */
  lemma RateLimitDelayExamples()
    ensures RateLimitDelay(30) == 2000
    ensures RateLimitDelay(0) == 60000 && RateLimitDelay(1) == 60000
    ensures RateLimitDelay(60) == DefaultRateLimitConfig().delayBetweenRequestsMs
    ensures RateLimitDelay(U32Limit - 1) == 0
  {
  }

  /** A faster rate never gives a longer pause. */
  lemma RateLimitDelayAntitone(slow: u32, fast: u32)
    requires slow <= fast
    ensures RateLimitDelay(fast) <= RateLimitDelay(slow)
  {
    var a, b := Max(slow as int, 1), Max(fast as int, 1);
    var ds, df := RateLimitDelay(slow) as int, RateLimitDelay(fast) as int;
    MulMonotone(a, b, df);
    assert df * a <= 60000 < (ds + 1) * a;
    MulCancel(df, ds + 1, a);
  }

  lemma MulCancel(x: int, y: int, z: nat)
    requires x * z < y * z
    ensures x < y
  {
  }

  lemma MulMonotone(x: int, y: int, z: nat)
    requires x <= y
    ensures x * z <= y * z
  {
  }

  // ---------------------------------------------------------------------
  // The fetcher

  /** The fetcher: its configuration, and the configuration of its discussion client when it has one. */
  datatype GitHubFetcher = GitHubFetcher(config: FetchConfig, discussionClient: Option<GitHubConfig>)

  /**
   * `GitHubFetcher::with_config`: building the REST client needs the token
   * variable to be set; the discussion client is always built.
   */
  function WithConfig(config: FetchConfig, env: Env): (r: Result<GitHubFetcher, FetchError>)
    ensures r.Ok? <==> config.github.tokenEnvVar in env
    ensures r.Ok? ==> r.value.config == config && r.value.discussionClient == Some(config.github)
    ensures r.Err? ==> r.error == TokenUnset(config.github.tokenEnvVar)
  {
    if config.github.tokenEnvVar !in env then Err(TokenUnset(config.github.tokenEnvVar))
    else Ok(GitHubFetcher(config, Some(config.github)))
  }

  /**
   * `GitHubFetcher::new`: a given token is first stored in `GITHUB_TOKEN`,
   * then the fetcher is built with the default configuration. Returns the
   * fetcher and the environment afterwards.
   */
  function NewFetcher(token: Option<string>, env: Env): (r: (Result<GitHubFetcher, FetchError>, Env))
    ensures token.Some? ==> r.1 == env["GITHUB_TOKEN" := token.value] && r.0.Ok?
    ensures token.None? ==> r.1 == env && (r.0.Ok? <==> "GITHUB_TOKEN" in env)
    ensures r.0.Ok? ==> r.0.value.config == DefaultFetchConfig()
  {
    var env' := if token.Some? then env["GITHUB_TOKEN" := token.value] else env;
    (WithConfig(DefaultFetchConfig(), env'), env')
  }

  /** The result of `fetch_issues` without its report: the issues alone. */
  function IssuesOnly(r: Result<CollectionResult, FetchError>): Result<seq<GitHubIssue>, FetchError> {
    match r
    case Ok(c) => Ok(c.issues)
    case Err(e) => Err(e)
  }

  /** `GitHubFetcher::fetch_issues`: the uncapped collection, keeping only the issues. */
  method FetchIssues(fetcher: GitHubFetcher, repo: Repository, filters: IssueFilters, pages: seq<PageFetch<RawIssue>>, now: Time)
    returns (r: Result<seq<GitHubIssue>, FetchError>)
    ensures r == IssuesOnly(Collected(repo, filters, None, pages, now))
    ensures r.Ok? ==> forall k :: 0 <= k < |r.value| ==> MatchesAsWritten(filters, r.value[k])
  {
    var c, _ := Collection.FetchIssues(repo, filters, None, pages, now);
    CollectedIssuesMatch(repo, filters, None, pages, now);
    r := IssuesOnly(c);
  }

  /** `GitHubFetcher::fetch_issues_with_limit`: the collection capped at `maxIssues`, with its report. */
  method FetchIssuesWithLimit(fetcher: GitHubFetcher, repo: Repository, filters: IssueFilters, maxIssues: nat,
                              pages: seq<PageFetch<RawIssue>>, now: Time)
    returns (r: Result<CollectionResult, FetchError>)
    ensures r == Collected(repo, filters, Some(maxIssues), pages, now)
    ensures r.Ok? ==> |r.value.issues| <= Max(maxIssues, 1) && r.value.totalCollected == |r.value.issues|
    ensures r.Ok? ==> forall k :: 0 <= k < |r.value.issues| ==> MatchesAsWritten(filters, r.value.issues[k])
  {
    var requests;
    r, requests := Collection.FetchIssues(repo, filters, Some(maxIssues), pages, now);
    CapBound(repo, filters, maxIssues, pages, now);
    CollectedIssuesMatch(repo, filters, Some(maxIssues), pages, now);
  }

  /**
   * With a limit of at least one, the limited fetch returns the first
   * `maxIssues` of the issues the unlimited fetch returns over the same
   * pages.
   */
  lemma LimitIsPrefix(repo: Repository, filters: IssueFilters, maxIssues: nat, pages: seq<PageFetch<RawIssue>>, now: Time)
    requires 1 <= maxIssues
    ensures var u := IssuesOnly(Collected(repo, filters, None, pages, now));
      var l := Collected(repo, filters, Some(maxIssues), pages, now);
      u.Ok? ==> l.Ok? && l.value.issues == u.value[..if |u.value| < maxIssues then |u.value| else maxIssues]
  {
    CappedIsPrefix(filters, maxIssues, pages, 1, []);
  }

  /** The error when the fetcher has no discussion client. */
  const NoDiscussionClient: FetchError := ConfigError("Discussion client not initialized")

  /** `GitHubFetcher::fetch_discussion`: delegates to the discussion client, which must be there. */
  function FetchDiscussionOf(fetcher: GitHubFetcher, env: Env, endpoint: string -> Reply, repo: Repository, number: u64,
                             parseTs: string -> Option<Time>, now: Time): (r: Result<Discussion, FetchError>)
    ensures fetcher.discussionClient.None? <==> r == Err(NoDiscussionClient)
    ensures fetcher.discussionClient.Some? ==>
      r == FetchDiscussion(fetcher.discussionClient.value, env, endpoint, repo, number, parseTs, now)
  {
    if fetcher.discussionClient.None? then Err(NoDiscussionClient)
    else FetchDiscussion(fetcher.discussionClient.value, env, endpoint, repo, number, parseTs, now)
  }

  /** `GitHubFetcher::fetch_discussion_by_url`: delegates to the discussion client, which must be there. */
  function FetchDiscussionByUrlOf(fetcher: GitHubFetcher, env: Env, endpoint: string -> Reply, url: string,
                                  parseTs: string -> Option<Time>, now: Time): (r: Result<Discussion, FetchError>)
    ensures fetcher.discussionClient.None? <==> r == Err(NoDiscussionClient)
    ensures fetcher.discussionClient.Some? ==>
      r == FetchDiscussionByUrl(fetcher.discussionClient.value, env, endpoint, url, parseTs, now)
  {
    if fetcher.discussionClient.None? then Err(NoDiscussionClient)
    else FetchDiscussionByUrl(fetcher.discussionClient.value, env, endpoint, url, parseTs, now)
  }

  /**
   * A fetcher that was built has its discussion client, so the
   * "not initialized" error never occurs, and discussions are fetched
   * with the fetcher's own endpoint settings.
   */
  lemma BuiltFetcherHasDiscussions(config: FetchConfig, env: Env, env': Env, endpoint: string -> Reply, repo: Repository,
                                   number: u64, parseTs: string -> Option<Time>, now: Time)
    requires WithConfig(config, env).Ok?
    ensures var f := WithConfig(config, env).value;
      FetchDiscussionOf(f, env', endpoint, repo, number, parseTs, now)
        == FetchDiscussion(config.github, env', endpoint, repo, number, parseTs, now)
      && FetchDiscussionOf(f, env', endpoint, repo, number, parseTs, now) != Err(NoDiscussionClient)
  {
  }

  // ---------------------------------------------------------------------
  // The builder

  /** `GitHubFetcherBuilder`: a configuration that each setter changes in one place. */
  class FetcherBuilder {
    var config: FetchConfig

    /** `GitHubFetcherBuilder::new`: the default configuration. */
    constructor()
      ensures config == DefaultFetchConfig()
    {
      config := DefaultFetchConfig();
    }

    /**
     * `token`: stores the token in the variable the configuration names at
     * this moment; the configuration itself does not change.
     */
    method Token(token: string, env: Env) returns (env': Env)
      ensures env' == env[config.github.tokenEnvVar := token]
      ensures config.github.tokenEnvVar in env' && env'[config.github.tokenEnvVar] == token
    {
      env' := env[config.github.tokenEnvVar := token];
    }

    method TokenEnvVar(name: string)
      modifies this
      ensures config == old(config).(github := old(config).github.(tokenEnvVar := name))
    {
      config := config.(github := config.github.(tokenEnvVar := name));
    }

    method ApiBaseUrl(url: string)
      modifies this
      ensures config == old(config).(github := old(config).github.(apiBaseUrl := url))
    {
      config := config.(github := config.github.(apiBaseUrl := url));
    }

    method UserAgent(agent: string)
      modifies this
      ensures config == old(config).(github := old(config).github.(userAgent := agent))
    {
      config := config.(github := config.github.(userAgent := agent));
    }

    method Timeout(seconds: u64)
      modifies this
      ensures config == old(config).(github := old(config).github.(timeoutSeconds := seconds))
    {
      config := config.(github := config.github.(timeoutSeconds := seconds));
    }

    /** `rate_limit`: stores the rate as given (0 included) and the pause it implies. */
    method RateLimit(requestsPerMinute: u32)
      modifies this
      ensures config == old(config).(rateLimiting := old(config).rateLimiting.(
        requestsPerMinute := requestsPerMinute, delayBetweenRequestsMs := RateLimitDelay(requestsPerMinute)))
    {
      var delay: u64 := 60000 / Max(requestsPerMinute as int, 1);
      config := config.(rateLimiting := config.rateLimiting.(
        requestsPerMinute := requestsPerMinute, delayBetweenRequestsMs := delay));
    }

    method MaxRetries(retries: u32)
      modifies this
      ensures config == old(config).(rateLimiting := old(config).rateLimiting.(maxRetries := retries))
    {
      config := config.(rateLimiting := config.rateLimiting.(maxRetries := retries));
    }

    /** `build`: the fetcher for the configuration assembled so far. */
    method Build(env: Env) returns (r: Result<GitHubFetcher, FetchError>)
      ensures r == WithConfig(config, env)
      ensures r.Ok? ==> r.value.config == config
    {
      r := WithConfig(config, env);
    }
  }

  /**
   * The token lands in the variable named when `token` is called: renaming
   * the variable afterwards to one that is unset makes `build` fail.
   */
  lemma TokenBeforeRenameIsLost(config: FetchConfig, env: Env, token: string, name: string)
    requires name != config.github.tokenEnvVar && name !in env
    ensures var env' := env[config.github.tokenEnvVar := token];
      WithConfig(config.(github := config.github.(tokenEnvVar := name)), env') == Err(TokenUnset(name))
  {
  }

  /** Renaming the variable first and then setting the token lets `build` succeed. */
  lemma RenameBeforeTokenBuilds(config: FetchConfig, env: Env, token: string, name: string)
    ensures var c := config.(github := config.github.(tokenEnvVar := name));
      WithConfig(c, env[name := token]) == Ok(GitHubFetcher(c, Some(c.github)))
  {
  }
}

=== FILE: filters.dfy ===
/**
 * The issue filter: the filter configuration, its two presets, the
 * ordered chain of checks an issue must pass, and the text heuristics the
 * chain uses (error-code detection, code-block detection).
 */
module Filters {
  import opened Common
  import opened Text
  import opened Types

  datatype IssueState = Open | Closed | All

  datatype DateRange = DateRange(start: Option<Time>, end: Option<Time>)

  datatype IssueFilters = IssueFilters(
    state: IssueState,
    includeLabels: seq<string>,
    excludeLabels: seq<string>,
    rustErrorsOnly: bool,
    codeBlocksOnly: bool,
    minBodyLength: Option<nat>,
    dateRange: Option<DateRange>,
    includePullRequests: bool,
    minComments: Option<u32>,
    requiredKeywords: seq<string>,
    excludedKeywords: seq<string>)

  /** `IssueFilters::default`. */
  function DefaultFilters(): IssueFilters {
    IssueFilters(
      All, [], ["duplicate", "invalid", "wontfix", "question"], false, false,
      Some(50), None, false, None, [], ["discussion", "RFC", "tracking"])
  }

  /** `IssueFilters::rust_error_focused`: the default with five labels, both text checks and a longer body. */
  function RustErrorFocused(): IssueFilters {
    DefaultFilters().(
      state := All,
      includeLabels := ["E-help-wanted", "A-diagnostics", "A-borrowck", "E-easy", "E-medium"],
      rustErrorsOnly := true,
      codeBlocksOnly := true,
      minBodyLength := Some(100))
  }

  // ---------------------------------------------------------------------
  // Error codes: the pattern `E0` followed by three or four ASCII digits

  /** The pattern matches at `i` (at least its three-digit form). */
  predicate CodeAt(s: string, i: int) {
    0 <= i && i + 5 <= |s| && s[i] == 'E' && s[i + 1] == '0'
    && IsAsciiDigit(s[i + 2]) && IsAsciiDigit(s[i + 3]) && IsAsciiDigit(s[i + 4])
  }

  /** The repetition is greedy: a fourth digit is taken when one follows. */
  function CodeLength(s: string, i: int): nat
    requires CodeAt(s, i)
  {
    if i + 5 < |s| && IsAsciiDigit(s[i + 5]) then 6 else 5
  }

  /** The text of the match at `i`. */
  function CodeFrom(s: string, i: int): string
    requires CodeAt(s, i)
  {
    s[i..i + CodeLength(s, i)]
  }

  /** The match at `j` reads `c`. */
  predicate CodeOf(s: string, j: int, c: string) {
    CodeAt(s, j) && CodeFrom(s, j) == c
  }

  /** `Regex::is_match` from position `i`: a left-to-right search. */
  predicate SearchCode(s: string, i: nat)
    decreases |s| - i
  {
    if i + 5 > |s| then false else CodeAt(s, i) || SearchCode(s, i + 1)
  }

  /** `has_rust_error_codes`. */
  predicate HasRustErrorCodes(text: string) {
    SearchCode(text, 0)
  }

  lemma {:induction false} SearchCodeIff(s: string, i: nat)
    ensures SearchCode(s, i) <==> exists j :: i <= j && CodeAt(s, j)
    decreases |s| - i
  {
    if i + 5 <= |s| {
      SearchCodeIff(s, i + 1);
      forall j | i <= j && CodeAt(s, j) && j != i
        ensures i + 1 <= j
      {
      }
    }
  }

  /** The search succeeds exactly when the pattern matches somewhere. */
  lemma HasRustErrorCodesIff(text: string)
    ensures HasRustErrorCodes(text) <==> exists j :: CodeAt(text, j)
  {
    SearchCodeIff(text, 0);
  }

  /** `find_iter` from `i`, collected into a set: matches never overlap, the search resumes after each one. */
  function CodesFrom(s: string, i: nat): set<string>
    decreases |s| - i
  {
    if i + 5 > |s| then {}
    else if CodeAt(s, i) then {CodeFrom(s, i)} + CodesFrom(s, i + CodeLength(s, i))
    else CodesFrom(s, i + 1)
  }

  /** `extract_error_codes`: the distinct matched codes (the vector's order is the hash set's, so a set). */
  function ExtractErrorCodes(text: string): set<string> {
    CodesFrom(text, 0)
  }

  lemma {:induction false} CodesFromSpec(s: string, i: nat)
    ensures forall c :: c in CodesFrom(s, i) <==> exists j :: i <= j && CodeOf(s, j, c)
    decreases |s| - i
  {
    if i + 5 > |s| {
      forall c, j | i <= j
        ensures !CodeOf(s, j, c)
      {
      }
    } else if CodeAt(s, i) {
      var n := i + CodeLength(s, i);
      CodesFromSpec(s, n);
      forall j | i < j < n
        ensures !CodeAt(s, j)
      {
        assert s[j] == '0' || IsAsciiDigit(s[j]);
      }
      forall c
        ensures c in CodesFrom(s, i) <==> exists j :: i <= j && CodeOf(s, j, c)
      {
        if c == CodeFrom(s, i) {
          assert CodeOf(s, i, c);
        }
        if j :| i <= j && CodeOf(s, j, c) {
          if j != i {
            assert n <= j;
          }
        }
      }
    } else {
      CodesFromSpec(s, i + 1);
      forall c
        ensures c in CodesFrom(s, i) <==> exists j :: i <= j && CodeOf(s, j, c)
      {
        if j :| i <= j && CodeOf(s, j, c) {
          assert i + 1 <= j;
        }
      }
    }
  }

  /** The extracted codes are exactly the texts the pattern matches at some position. */
  lemma ExtractErrorCodesSpec(text: string)
    ensures forall c :: c in ExtractErrorCodes(text) <==> exists j :: CodeOf(text, j, c)
    ensures HasRustErrorCodes(text) <==> ExtractErrorCodes(text) != {}
  {
    CodesFromSpec(text, 0);
    HasRustErrorCodesIff(text);
    if HasRustErrorCodes(text) {
      var j :| CodeAt(text, j);
      assert CodeOf(text, j, CodeFrom(text, j));
      assert CodeFrom(text, j) in ExtractErrorCodes(text);
    }
    if ExtractErrorCodes(text) != {} {
      var c :| c in ExtractErrorCodes(text);
      assert exists j :: 0 <= j && CodeOf(text, j, c);
      var j :| 0 <= j && CodeOf(text, j, c);
      assert CodeAt(text, j);
    }
  }

  /** Text without an upper-case `E` holds no error code; lowercased text is such a text. */
  lemma NoCodeInLowercase(s: string)
    ensures !HasRustErrorCodes(Lower(s))
  {
    HasRustErrorCodesIff(Lower(s));
    forall j | 0 <= j < |s|
      ensures !CodeAt(Lower(s), j)
    {
      assert Lower(s)[j] == LowerChar(s[j]);
    }
  }

  lemma {:induction false} SkipCodeless(s: string, i: nat, j: nat)
    requires i <= j <= |s|
    requires forall k :: i <= k < j ==> s[k] != 'E'
    ensures CodesFrom(s, i) == CodesFrom(s, j)
    decreases j - i
  {
    if i < j && i + 5 <= |s| {
      SkipCodeless(s, i + 1, j);
    } else if i < j {
      assert j + 5 > |s|;
    }
  }

  /** A text the pattern matches somewhere is detected. */
  lemma CodeDetected(s: string, j: int)
    requires CodeAt(s, j)
    ensures HasRustErrorCodes(s)
  {
    HasRustErrorCodesIff(s);
  }

  /** A text without an upper-case `E` is not detected. */
  lemma NoCodeWithoutE(s: string)
    requires 'E' !in s
    ensures !HasRustErrorCodes(s)
  {
    HasRustErrorCodesIff(s);
    forall j | 0 <= j < |s|
      ensures !CodeAt(s, j)
    {
      assert s[j] in s;
    }
  }

  /** The detection examples of the filter's own tests. */
  lemma RustErrorDetectionExamples()
    ensures HasRustErrorCodes("Error E0382: use of moved value")
    ensures HasRustErrorCodes("Getting E0502 and E0499 errors")
    ensures !HasRustErrorCodes("No errors here")
  {
    CodeDetected("Error E0382: use of moved value", 6);
    CodeDetected("Getting E0502 and E0499 errors", 8);
    NoCodeWithoutE("No errors here");
  }

  /** A code at `i` followed by a stretch without an `E` up to `j`: the search from `i` finds that code and resumes at `j`. */
  lemma CodeThenCodeless(s: string, i: nat, n: nat, j: nat)
    requires CodeAt(s, i) && CodeLength(s, i) == n && i + n <= j <= |s|
    requires 'E' !in s[i + n..j]
    ensures CodesFrom(s, i) == {s[i..i + n]} + CodesFrom(s, j)
  {
    forall k | i + n <= k < j
      ensures s[k] != 'E'
    {
      assert s[k] == s[i + n..j][k - (i + n)];
    }
    SkipCodeless(s, i + n, j);
  }

  /** Two five-character codes, each followed by text without an `E` that does not start with a digit, are the codes extracted. */
  lemma TwoCodesExtracted(x: string, m: string, y: string, t: string)
    requires |x| == 5 && CodeAt(x, 0) && |y| == 5 && CodeAt(y, 0)
    requires m != [] && !IsAsciiDigit(m[0]) && 'E' !in m
    requires (t == [] || !IsAsciiDigit(t[0])) && 'E' !in t
    ensures ExtractErrorCodes(x + m + y + t) == {x, y}
  {
    var s := x + m + y + t;
    var i := 5 + |m|;
    assert s[..5] == x && s[5..i] == m && s[i..i + 5] == y && s[i + 5..] == t;
    assert s[0] == x[0] && s[1] == x[1] && s[2] == x[2] && s[3] == x[3] && s[4] == x[4] && s[5] == m[0];
    CodeThenCodeless(s, 0, 5, i);
    assert s[i] == y[0] && s[i + 1] == y[1] && s[i + 2] == y[2] && s[i + 3] == y[3] && s[i + 4] == y[4];
    assert i + 5 < |s| ==> s[i + 5] == t[0];
    CodeThenCodeless(s, i, 5, |s|);
  }

  /** The extraction example of the filter's own tests: two distinct codes. */
  lemma ExtractionExample(s: string)
    requires s == "E0382 and E0502 errors occurred"
    ensures ExtractErrorCodes(s) == {"E0382", "E0502"}
  {
    var x, m, y, t := "E0382", " and ", "E0502", " errors occurred";
    assert s == x + m + y + t;
    assert 'E' !in m && 'E' !in t;
    TwoCodesExtracted(x, m, y, t);
  }

  // ---------------------------------------------------------------------
  // Code blocks

  /** A line of indented code: four leading spaces and something other than whitespace. */
  predicate IsIndentedCodeLine(line: string) {
    HasPrefix(line, "    ") && !IsBlank(line)
  }

  /** `has_code_blocks`: a fence anywhere, or some indented non-blank line. */
  predicate HasCodeBlocks(text: string) {
    Contains(text, "```") || exists k :: 0 <= k < |Lines(text)| && IsIndentedCodeLine(Lines(text)[k])
  }

  /** A fenced example of the filter's own tests is a code block. */
  lemma FencedExample(s: string)
    requires s == "```rust\nfn main() {}\n```"
    ensures HasCodeBlocks(s)
  {
    assert HasPrefix(s, "```");
  }

  /** The first line of the indented example is a line of indented code. */
  lemma IndentedLineExample(line: string)
    requires line == "    let x = 5;"
    ensures IsIndentedCodeLine(line)
  {
    assert line[..4] == "    ";
    assert !IsWhitespace(line[4]);
  }

  /** An indented example of the filter's own tests is a code block. */
  lemma IndentedExample(s: string)
    requires s == "    let x = 5;\n    println!(\"{}\", x);"
    ensures HasCodeBlocks(s)
  {
    var first := "    let x = 5;";
    assert s == first + "\n" + "    println!(\"{}\", x);";
    FirstLineOf(first, "    println!(\"{}\", x);");
    assert first[|first| - 1] == ';';
    IndentedLineExample(Lines(s)[0]);
  }

  /** The first line of a text whose first line break follows `a` is `a`, less a carriage return. */
  lemma FirstLineOf(a: string, b: string)
    requires '\n' !in a
    ensures Lines(a + "\n" + b) != [] && Lines(a + "\n" + b)[0] == StripCr(a)
  {
    var s := a + "\n" + b;
    assert s[|a|] == '\n';
    assert forall i :: 0 <= i < |a| ==> s[i] == a[i];
    FirstLine(s, |a|);
    assert s[..|a|] == a;
  }

  /** One line of text without a backquote that does not start with a space is no code block. */
  lemma PlainLineHasNoCode(s: string)
    requires s != [] && s[0] != ' ' && '`' !in s && '\n' !in s
    ensures !HasCodeBlocks(s)
  {
    assert forall i :: 0 <= i < |s| ==> s[i] != "```"[0];
    NotContainedWithoutFirstChar(s, "```");
    SingleLine(s);
    assert !IsIndentedCodeLine(s);
  }

  /** Plain prose, the negative example of the filter's own tests, is no code block. */
  lemma ProseExample(s: string)
    requires s == "Just regular text without code"
    ensures !HasCodeBlocks(s)
  {
    assert '`' !in s && '\n' !in s;
    PlainLineHasNoCode(s);
  }

  // ---------------------------------------------------------------------
  // The check chain

  /** The checks of `matches`, in the order it applies them. */
  datatype Check =
    | StateCheck
    | PullRequestCheck
    | IncludeLabelsCheck
    | ExcludeLabelsCheck
    | BodyLengthCheck
    | CommentsCheck
    | DateRangeCheck
    | RequiredKeywordsCheck
    | ExcludedKeywordsCheck
    | ErrorCodesCheck
    | CodeBlocksCheck

  function Rank(c: Check): nat {
    match c
    case StateCheck => 0
    case PullRequestCheck => 1
    case IncludeLabelsCheck => 2
    case ExcludeLabelsCheck => 3
    case BodyLengthCheck => 4
    case CommentsCheck => 5
    case DateRangeCheck => 6
    case RequiredKeywordsCheck => 7
    case ExcludedKeywordsCheck => 8
    case ErrorCodesCheck => 9
    case CodeBlocksCheck => 10
  }

  function BodyText(issue: GitHubIssue): string {
    issue.body.UnwrapOr("")
  }

  /** Title, a space and the body (empty when absent). */
  function RawContent(issue: GitHubIssue): string {
    issue.title + " " + BodyText(issue)
  }

  /** The lowercased content the keyword checks search. */
  function Content(issue: GitHubIssue): string {
    Lower(RawContent(issue))
  }

  /** Label `i` of the issue equals entry `j` of `list`, ignoring case. */
  predicate SameLabel(labels: seq<GitHubLabel>, i: int, list: seq<string>, j: int) {
    0 <= i < |labels| && 0 <= j < |list| && Lower(list[j]) == Lower(labels[i].name)
  }

  /** Keyword `k` of `keywords`, lowercased, occurs in `content`. */
  predicate KeywordHit(content: string, keywords: seq<string>, k: int) {
    0 <= k < |keywords| && Contains(content, Lower(keywords[k]))
  }

  /** `list.iter().any(|x| x.to_lowercase() == name.to_lowercase())`. */
  predicate ListedIgnoringCase(name: string, list: seq<string>) {
    list != [] && (Lower(list[0]) == Lower(name) || ListedIgnoringCase(name, list[1..]))
  }

  /** Some label of the issue is listed in `list`, ignoring case. */
  predicate AnyLabelListed(labels: seq<GitHubLabel>, list: seq<string>) {
    labels != [] && (ListedIgnoringCase(labels[0].name, list) || AnyLabelListed(labels[1..], list))
  }

  /** Some keyword, lowercased, occurs in `content`. */
  predicate AnyKeywordIn(content: string, keywords: seq<string>) {
    keywords != [] && (Contains(content, Lower(keywords[0])) || AnyKeywordIn(content, keywords[1..]))
  }

  lemma {:induction false} ListedIgnoringCaseIff(name: string, list: seq<string>)
    ensures ListedIgnoringCase(name, list) <==> exists j :: 0 <= j < |list| && Lower(list[j]) == Lower(name)
  {
    if list != [] {
      ListedIgnoringCaseIff(name, list[1..]);
      if j :| 0 <= j < |list| && Lower(list[j]) == Lower(name) {
        if j > 0 {
          assert list[1..][j - 1] == list[j];
        }
      }
    }
  }

  /** The double `any` over labels and list entries finds a pair exactly when one exists. */
  lemma {:induction false} AnyLabelListedIff(labels: seq<GitHubLabel>, list: seq<string>)
    ensures AnyLabelListed(labels, list) <==> exists i, j :: SameLabel(labels, i, list, j)
  {
    if labels != [] {
      ListedIgnoringCaseIff(labels[0].name, list);
      AnyLabelListedIff(labels[1..], list);
      if ListedIgnoringCase(labels[0].name, list) {
        var j :| 0 <= j < |list| && Lower(list[j]) == Lower(labels[0].name);
        assert SameLabel(labels, 0, list, j);
      }
      if AnyLabelListed(labels[1..], list) {
        var i, j :| SameLabel(labels[1..], i, list, j);
        assert SameLabel(labels, i + 1, list, j);
      }
      if i, j :| SameLabel(labels, i, list, j) {
        if i > 0 {
          assert SameLabel(labels[1..], i - 1, list, j);
        }
      }
    }
  }

  /** The `any` over keywords finds a hit exactly when one exists. */
  lemma {:induction false} AnyKeywordInIff(content: string, keywords: seq<string>)
    ensures AnyKeywordIn(content, keywords) <==> exists k :: KeywordHit(content, keywords, k)
  {
    if keywords != [] {
      AnyKeywordInIff(content, keywords[1..]);
      if AnyKeywordIn(content, keywords[1..]) {
        var k :| KeywordHit(content, keywords[1..], k);
        assert KeywordHit(content, keywords, k + 1);
      }
      if Contains(content, Lower(keywords[0])) {
        assert KeywordHit(content, keywords, 0);
      }
      if k :| KeywordHit(content, keywords, k) {
        if k > 0 {
          assert KeywordHit(content, keywords[1..], k - 1);
        }
      }
    }
  }

  /**
   * Whether `issue` passes check `c` taken alone. `errorText` is the text
   * the error-code check scans.
   */
  ghost predicate Passes(f: IssueFilters, issue: GitHubIssue, errorText: string, c: Check) {
    match c
    case StateCheck =>
      (f.state == Open ==> issue.state == "Open") && (f.state == Closed ==> issue.state == "Closed")
    case PullRequestCheck => f.includePullRequests || !issue.isPullRequest
    case IncludeLabelsCheck => f.includeLabels == [] || exists i, j :: SameLabel(issue.labels, i, f.includeLabels, j)
    case ExcludeLabelsCheck => !exists i, j :: SameLabel(issue.labels, i, f.excludeLabels, j)
    case BodyLengthCheck => f.minBodyLength.None? || ByteLen(BodyText(issue)) >= f.minBodyLength.value
    case CommentsCheck => f.minComments.None? || issue.comments >= f.minComments.value
    case DateRangeCheck =>
      f.dateRange.None?
      || ((f.dateRange.value.start.None? || f.dateRange.value.start.value <= issue.createdAt)
          && (f.dateRange.value.end.None? || issue.createdAt <= f.dateRange.value.end.value))
    case RequiredKeywordsCheck =>
      f.requiredKeywords == [] || exists k :: KeywordHit(Content(issue), f.requiredKeywords, k)
    case ExcludedKeywordsCheck => !exists k :: KeywordHit(Content(issue), f.excludedKeywords, k)
    case ErrorCodesCheck => !f.rustErrorsOnly || exists j :: CodeAt(errorText, j)
    case CodeBlocksCheck => !f.codeBlocksOnly || HasCodeBlocks(BodyText(issue))
  }

  /** The chain of early returns of `matches`: the first check that rejects, if any. */
  function FirstRejection(f: IssueFilters, issue: GitHubIssue, errorText: string): Option<Check> {
    var content := Content(issue);
    if f.state == Open && issue.state != "Open" then Some(StateCheck)
    else if f.state == Closed && issue.state != "Closed" then Some(StateCheck)
    else if !f.includePullRequests && issue.isPullRequest then Some(PullRequestCheck)
    else if f.includeLabels != [] && !AnyLabelListed(issue.labels, f.includeLabels) then Some(IncludeLabelsCheck)
    else if AnyLabelListed(issue.labels, f.excludeLabels) then Some(ExcludeLabelsCheck)
    else if f.minBodyLength.Some? && ByteLen(BodyText(issue)) < f.minBodyLength.value then Some(BodyLengthCheck)
    else if f.minComments.Some? && issue.comments < f.minComments.value then Some(CommentsCheck)
    else if f.dateRange.Some? && f.dateRange.value.start.Some? && issue.createdAt < f.dateRange.value.start.value then
      Some(DateRangeCheck)
    else if f.dateRange.Some? && f.dateRange.value.end.Some? && issue.createdAt > f.dateRange.value.end.value then
      Some(DateRangeCheck)
    else if f.requiredKeywords != [] && !AnyKeywordIn(content, f.requiredKeywords) then Some(RequiredKeywordsCheck)
    else if AnyKeywordIn(content, f.excludedKeywords) then Some(ExcludedKeywordsCheck)
    else if f.rustErrorsOnly && !HasRustErrorCodes(errorText) then Some(ErrorCodesCheck)
    else if f.codeBlocksOnly && !HasCodeBlocks(BodyText(issue)) then Some(CodeBlocksCheck)
    else None
  }

  /** The predicates of `matches` state the existential each check asks for. */
  lemma ChecksAsExistentials(f: IssueFilters, issue: GitHubIssue, errorText: string)
    ensures HasRustErrorCodes(errorText) <==> exists j :: CodeAt(errorText, j)
    ensures AnyLabelListed(issue.labels, f.includeLabels) <==> exists i, j :: SameLabel(issue.labels, i, f.includeLabels, j)
    ensures AnyLabelListed(issue.labels, f.excludeLabels) <==> exists i, j :: SameLabel(issue.labels, i, f.excludeLabels, j)
    ensures AnyKeywordIn(Content(issue), f.requiredKeywords) <==> exists k :: KeywordHit(Content(issue), f.requiredKeywords, k)
    ensures AnyKeywordIn(Content(issue), f.excludedKeywords) <==> exists k :: KeywordHit(Content(issue), f.excludedKeywords, k)
  {
    HasRustErrorCodesIff(errorText);
    AnyLabelListedIff(issue.labels, f.includeLabels);
    AnyLabelListedIff(issue.labels, f.excludeLabels);
    AnyKeywordInIff(Content(issue), f.requiredKeywords);
    AnyKeywordInIff(Content(issue), f.excludedKeywords);
  }

  /** The chain accepts exactly when every check passes. */
  lemma NoRejectionIffAllPass(f: IssueFilters, issue: GitHubIssue, errorText: string)
    ensures FirstRejection(f, issue, errorText).None? <==> forall c :: Passes(f, issue, errorText, c)
  {
    ChecksAsExistentials(f, issue, errorText);
    if FirstRejection(f, issue, errorText).None? {
      forall c
        ensures Passes(f, issue, errorText, c)
      {
        match c
        case StateCheck =>
        case PullRequestCheck =>
        case IncludeLabelsCheck =>
        case ExcludeLabelsCheck =>
        case BodyLengthCheck =>
        case CommentsCheck =>
        case DateRangeCheck =>
        case RequiredKeywordsCheck =>
        case ExcludedKeywordsCheck =>
        case ErrorCodesCheck =>
        case CodeBlocksCheck =>
      }
    } else {
      assert !Passes(f, issue, errorText, FirstRejection(f, issue, errorText).value);
    }
  }

  /** A rejection names a check that fails, and every earlier check passes. */
  lemma RejectionIsFirstFailure(f: IssueFilters, issue: GitHubIssue, errorText: string)
    requires FirstRejection(f, issue, errorText).Some?
    ensures var failed := FirstRejection(f, issue, errorText).value;
      !Passes(f, issue, errorText, failed) && forall c :: Rank(c) < Rank(failed) ==> Passes(f, issue, errorText, c)
  {
    ChecksAsExistentials(f, issue, errorText);
  }

  /**
   * The chain accepts exactly when every check passes; when it rejects, the
   * check it names fails and every earlier check passes.
   */
  lemma FirstRejectionIsFirstFailure(f: IssueFilters, issue: GitHubIssue, errorText: string)
    ensures FirstRejection(f, issue, errorText).None? <==> forall c :: Passes(f, issue, errorText, c)
    ensures FirstRejection(f, issue, errorText).Some? ==>
      var failed := FirstRejection(f, issue, errorText).value;
      !Passes(f, issue, errorText, failed) && forall c :: Rank(c) < Rank(failed) ==> Passes(f, issue, errorText, c)
  {
    NoRejectionIffAllPass(f, issue, errorText);
    if FirstRejection(f, issue, errorText).Some? {
      RejectionIsFirstFailure(f, issue, errorText);
    }
  }

  /** `IssueFilters::matches` as written: the error-code check scans the lowercased content. */
  predicate MatchesAsWritten(f: IssueFilters, issue: GitHubIssue) {
    FirstRejection(f, issue, Content(issue)).None?
  }

  /** `IssueFilters::matches` with the error-code check on the content as written. */
  predicate Matches(f: IssueFilters, issue: GitHubIssue) {
    FirstRejection(f, issue, RawContent(issue)).None?
  }

  /** An issue matches exactly when it passes every check, the error codes being sought in its own text. */
  lemma MatchesIffAllPass(f: IssueFilters, issue: GitHubIssue)
    ensures Matches(f, issue) <==> forall c :: Passes(f, issue, RawContent(issue), c)
  {
    FirstRejectionIsFirstFailure(f, issue, RawContent(issue));
  }

  /** As written, an issue matches exactly when it passes every check, the error codes being sought in the lowercased content. */
  lemma MatchesAsWrittenIffAllPass(f: IssueFilters, issue: GitHubIssue)
    ensures MatchesAsWritten(f, issue) <==> forall c :: Passes(f, issue, Content(issue), c)
  {
    FirstRejectionIsFirstFailure(f, issue, Content(issue));
  }

  /**
   * The default filters accept exactly the issues that are not pull
   * requests, carry none of the four refused labels in any case, have a
   * body of at least 50 bytes and mention none of the refused keywords.
   */
  lemma DefaultFiltersAccept(issue: GitHubIssue)
    ensures MatchesAsWritten(DefaultFilters(), issue) <==>
      (!issue.isPullRequest
       && !(exists i, j :: SameLabel(issue.labels, i, DefaultFilters().excludeLabels, j))
       && ByteLen(BodyText(issue)) >= 50
       && !(exists k :: KeywordHit(Content(issue), DefaultFilters().excludedKeywords, k)))
    ensures MatchesAsWritten(DefaultFilters(), issue) <==> Matches(DefaultFilters(), issue)
  {
    ChecksAsExistentials(DefaultFilters(), issue, Content(issue));
  }

  /** As written, the error-code check can never pass, so no issue matches a filter that enables it. */
  lemma RustErrorsOnlyRejectsAll(f: IssueFilters, issue: GitHubIssue)
    requires f.rustErrorsOnly
    ensures !MatchesAsWritten(f, issue)
    ensures !MatchesAsWritten(RustErrorFocused(), issue)
  {
    NoCodeInLowercase(RawContent(issue));
  }

  /** Without the error-code check the two versions agree. */
  lemma AsWrittenAgreesWithoutErrorCheck(f: IssueFilters, issue: GitHubIssue)
    requires !f.rustErrorsOnly
    ensures MatchesAsWritten(f, issue) <==> Matches(f, issue)
  {
  }

  /** The label `A-borrowck` is one the preset asks for and none it refuses. */
  lemma BorrowckLabelAccepted(labels: seq<GitHubLabel>)
    requires labels == [GitHubLabel(1, "A-borrowck", "", None)]
    ensures AnyLabelListed(labels, RustErrorFocused().includeLabels)
    ensures !AnyLabelListed(labels, RustErrorFocused().excludeLabels)
  {
    var f := RustErrorFocused();
    AnyLabelListedIff(labels, f.includeLabels);
    AnyLabelListedIff(labels, f.excludeLabels);
    assert SameLabel(labels, 0, f.includeLabels, 2);
    forall i, j | 0 <= i < |labels| && 0 <= j < |f.excludeLabels|
      ensures !SameLabel(labels, i, f.excludeLabels, j)
    {
      assert |Lower(f.excludeLabels[j])| != |Lower(labels[i].name)|;
    }
  }

  /** Content without the letters d, r and t holds none of the preset's excluded keywords. */
  lemma ExcludedKeywordsAbsent(content: string)
    requires forall k :: 0 <= k < |content| ==> content[k] != 'd' && content[k] != 'r' && content[k] != 't'
    ensures !AnyKeywordIn(content, RustErrorFocused().excludedKeywords)
  {
    var kws := RustErrorFocused().excludedKeywords;
    AnyKeywordInIff(content, kws);
    assert Lower(kws[0])[0] == 'd' && Lower(kws[1])[0] == 'r' && Lower(kws[2])[0] == 't';
    NotContainedWithoutFirstChar(content, Lower(kws[0]));
    NotContainedWithoutFirstChar(content, Lower(kws[1]));
    NotContainedWithoutFirstChar(content, Lower(kws[2]));
    forall k | 0 <= k < |kws|
      ensures !KeywordHit(content, kws, k)
    {
      assert k == 0 || k == 1 || k == 2;
    }
  }

  /** A borrow-checker report with a code in its title, a fence and a long enough body passes the preset. */
  lemma ErrorReportMatches(issue: GitHubIssue)
    requires issue.title == "E0382"
    requires issue.body == Some("```" + seq(97, _ => 'x'))
    requires issue.labels == [GitHubLabel(1, "A-borrowck", "", None)]
    requires !issue.isPullRequest
    ensures Matches(RustErrorFocused(), issue)
  {
    var raw := RawContent(issue);
    BorrowckLabelAccepted(issue.labels);
    forall k | 0 <= k < |raw|
      ensures Content(issue)[k] != 'd' && Content(issue)[k] != 'r' && Content(issue)[k] != 't'
    {
      assert raw[k] in {'E', '0', '3', '8', '2', ' ', '`', 'x'};
    }
    ExcludedKeywordsAbsent(Content(issue));
    assert CodeAt(raw, 0);
    CodeDetected(raw, 0);
    assert HasPrefix(BodyText(issue), "```");
  }

  /**
   * A borrow-checker report with a code in its title, a fence and a long
   * enough body passes the preset, but not the filter as written.
   */
  lemma RustErrorFocusedAcceptsErrorReport(issue: GitHubIssue)
    requires issue.title == "E0382"
    requires issue.body == Some("```" + seq(97, _ => 'x'))
    requires issue.labels == [GitHubLabel(1, "A-borrowck", "", None)]
    requires !issue.isPullRequest
    ensures Matches(RustErrorFocused(), issue)
    ensures !MatchesAsWritten(RustErrorFocused(), issue)
  {
    ErrorReportMatches(issue);
    RustErrorsOnlyRejectsAll(RustErrorFocused(), issue);
  }
}

=== FILE: json.dfy ===
/**
 * A generic JSON tree with the duck-typed accessors of `serde_json::Value`
 * that the normalizers use: `get` on an object key, `as_u64`, `as_str`
 * and `as_array`.
 */
module JsonTree {
  import opened Common

  /** A JSON value; numbers are the integral ones (`Num`). */
  datatype Json =
    | Null
    | Bool(b: bool)
    | Num(n: int)
    | Str(s: string)
    | Arr(items: seq<Json>)
    | Obj(fields: map<string, Json>)

  /** `Value::get(key)`: the member `key` of an object; absent on every non-object. */
  function Get(j: Json, key: string): (r: Option<Json>)
    ensures r.Some? <==> j.Obj? && key in j.fields
  {
    if j.Obj? && key in j.fields then Some(j.fields[key]) else None
  }

  /** `Value::as_u64`: only non-negative integers that fit in 64 bits. */
  function AsU64(j: Json): Option<u64> {
    if j.Num? && 0 <= j.n < U64Limit then Some(j.n) else None
  }

  /** `Value::as_str`: only strings. */
  function AsStr(j: Json): Option<string> {
    if j.Str? then Some(j.s) else None
  }

  /** `Value::as_array`: only arrays. */
  function AsArray(j: Json): Option<seq<Json>> {
    if j.Arr? then Some(j.items) else None
  }

  /** `j.get(key)` on an optional value (the `?`/`and_then` chain). */
  function GetIn(j: Option<Json>, key: string): Option<Json> {
    if j.Some? then Get(j.value, key) else None
  }

  /** `j.get(key).and_then(as_str)`. */
  function GetStr(j: Json, key: string): Option<string> {
    var v := Get(j, key);
    if v.Some? then AsStr(v.value) else None
  }

  /** `j.get(key).and_then(as_u64)`. */
  function GetU64(j: Json, key: string): Option<u64> {
    var v := Get(j, key);
    if v.Some? then AsU64(v.value) else None
  }
}

=== FILE: pages.dfy ===
/**
 * A paginated listing as the fetch loops see it: the response to each page
 * request, numbered from 1. Every page past the end of the input is empty,
 * which is how the server answers a request past the last page.
 */
module Pages {
  import opened Common

  /** The response to one page request: its items, or the failure's message. */
  datatype PageFetch<T> = Page(items: seq<T>) | Failed(reason: string)

  /** Page `n` (numbered from 1) of the listing. */
  function PageAt<T>(pages: seq<PageFetch<T>>, n: nat): (p: PageFetch<T>)
    ensures n == 0 || n > |pages| ==> p == Page([])
    ensures 1 <= n <= |pages| ==> p == pages[n - 1]
  {
    if 1 <= n <= |pages| then pages[n - 1] else Page([])
  }

  /** A page that ends a walk over the listing: a failed or an empty one. */
  predicate Stops<T>(p: PageFetch<T>) {
    p.Failed? || p.items == []
  }

  /** The items a page contributes (none for a failed one). */
  function PageItems<T>(p: PageFetch<T>): seq<T> {
    if p.Page? then p.items else []
  }

  /** The first page at or after `n` that ends a walk. */
  function RunEnd<T>(pages: seq<PageFetch<T>>, n: nat): (m: nat)
    requires 1 <= n
    ensures n <= m <= Max(n, |pages| + 1)
    ensures Stops(PageAt(pages, m))
    ensures forall k :: n <= k < m ==> !Stops(PageAt(pages, k))
    decreases |pages| + 1 - n
  {
    if Stops(PageAt(pages, n)) then n else RunEnd(pages, n + 1)
  }

  /** Every page before `m` was neither failed nor empty, stated page by page. */
  predicate RunsThrough<T>(pages: seq<PageFetch<T>>, m: nat) {
    m <= 1 || (!Stops(PageAt(pages, m - 1)) && RunsThrough(pages, m - 1))
  }

  /** `RunsThrough` says that no page from 1 up to, not including, `m` ends a walk. */
  lemma {:induction false} RunsThroughIff<T>(pages: seq<PageFetch<T>>, m: nat)
    ensures RunsThrough(pages, m) <==> forall n :: 1 <= n < m ==> !Stops(PageAt(pages, n))
  {
    if m > 1 {
      RunsThroughIff(pages, m - 1);
    }
  }

  /** A page of a run that does not end it is followed by another page of the run. */
  lemma RunContinues<T>(pages: seq<PageFetch<T>>, n: nat, page: nat)
    requires 1 <= n <= page <= RunEnd(pages, n) && !Stops(PageAt(pages, page))
    ensures page + 1 <= RunEnd(pages, n)
  {
  }

  /** The items of pages `lo` up to, not including, `hi`, in page order. */
  function ItemsBetween<T>(pages: seq<PageFetch<T>>, lo: nat, hi: nat): seq<T>
    decreases hi
  {
    if hi <= lo then [] else ItemsBetween(pages, lo, hi - 1) + PageItems(PageAt(pages, hi - 1))
  }

  /** Peeling the first page off a run of pages. */
  lemma {:induction false} ItemsBetweenFirst<T>(pages: seq<PageFetch<T>>, lo: nat, hi: nat)
    requires lo < hi
    ensures ItemsBetween(pages, lo, hi) == PageItems(PageAt(pages, lo)) + ItemsBetween(pages, lo + 1, hi)
    decreases hi
  {
    if lo + 1 < hi {
      ItemsBetweenFirst(pages, lo, hi - 1);
    }
  }

  /**
   * A walk over the listing from page `page` on: the items of each page
   * are turned into results by `keep` and appended to `acc`, until an empty
   * page (the results so far) or a failed one (its reason).
   */
  function WalkFrom<T, U>(pages: seq<PageFetch<T>>, keep: seq<T> -> seq<U>, page: nat, acc: seq<U>): Result<seq<U>, string>
    requires 1 <= page
    decreases |pages| + 1 - page
  {
    match PageAt(pages, page)
    case Failed(reason) => Err(reason)
    case Page(items) => if items == [] then Ok(acc) else WalkFrom(pages, keep, page + 1, acc + keep(items))
  }

  /**
   * A walk yields the results of the items of every page before the first
   * empty or failed one, in page order, or the failure's reason.
   */
  lemma {:induction false} WalkItems<T, U>(pages: seq<PageFetch<T>>, keep: seq<T> -> seq<U>, page: nat, acc: seq<U>)
    requires 1 <= page
    requires forall a: seq<T>, b: seq<T> :: keep(a + b) == keep(a) + keep(b)
    ensures var e := RunEnd(pages, page);
      WalkFrom(pages, keep, page, acc) ==
        if PageAt(pages, e).Failed? then Err(PageAt(pages, e).reason)
        else Ok(acc + keep(ItemsBetween(pages, page, e)))
    decreases |pages| + 1 - page
  {
    var p := PageAt(pages, page);
    var e := RunEnd(pages, page);
    if Stops(p) {
      assert e == page && ItemsBetween(pages, page, e) == [];
      var none: seq<T> := [];
      assert none + none == none;
      assert keep(none) == keep(none) + keep(none);
      assert acc + keep(none) == acc;
    } else {
      assert RunEnd(pages, page + 1) == e;
      var first, rest := p.items, ItemsBetween(pages, page + 1, e);
      WalkItems(pages, keep, page + 1, acc + keep(first));
      ItemsBetweenFirst(pages, page, e);
      assert keep(ItemsBetween(pages, page, e)) == keep(first) + keep(rest);
      assert acc + (keep(first) + keep(rest)) == (acc + keep(first)) + keep(rest);
    }
  }
}

=== FILE: text.dfy ===
/**
 * The pieces of Rust's string library that the fetcher relies on:
 * lowercasing, substring search, `split('/')`, `trim_end_matches`,
 * `lines()`, `char::is_whitespace`, UTF-8 byte length and decimal
 * rendering and parsing of `u64`.
 */
module Text {
  import opened Common

  predicate IsAsciiUpper(c: char) {
    'A' <= c <= 'Z'
  }

  predicate IsAsciiDigit(c: char) {
    '0' <= c <= '9'
  }

  predicate AllDigits(s: string) {
    forall i :: 0 <= i < |s| ==> IsAsciiDigit(s[i])
  }

  // ---------------------------------------------------------------------
  // Lowercasing

  /** Lowercase one character (ASCII letters only). */
  function LowerChar(c: char): char {
    if IsAsciiUpper(c) then (c as int + 32) as char else c
  }

  /** `str::to_lowercase`, restricted to ASCII letters: every other character is kept. */
  function Lower(s: string): string {
    seq(|s|, i requires 0 <= i < |s| => LowerChar(s[i]))
  }

  /** A lowercased string holds no upper-case ASCII letter. */
  lemma LowerHasNoUpper(s: string)
    ensures forall i :: 0 <= i < |Lower(s)| ==> !IsAsciiUpper(Lower(s)[i])
  {
  }

  // ---------------------------------------------------------------------
  // Substring search

  /** `t` occurs in `s` starting at index `i`. */
  predicate OccursAt(s: string, t: string, i: int) {
    0 <= i && i + |t| <= |s| && s[i..i + |t|] == t
  }

  predicate HasPrefix(s: string, t: string) {
    |t| <= |s| && s[..|t|] == t
  }

  /** `str::contains` with a string pattern, as a left-to-right search. */
  predicate Contains(s: string, t: string)
    decreases |s|
  {
    if HasPrefix(s, t) then true
    else if s == [] then false
    else Contains(s[1..], t)
  }

  /** The search finds `t` exactly when `t` occurs somewhere in `s`. */
  lemma {:induction false} ContainsIff(s: string, t: string)
    ensures Contains(s, t) <==> exists i :: OccursAt(s, t, i)
    decreases |s|
  {
    if HasPrefix(s, t) {
      assert OccursAt(s, t, 0);
    } else if s == [] {
      assert forall i :: !OccursAt(s, t, i);
    } else {
      ContainsIff(s[1..], t);
      assert !OccursAt(s, t, 0);
      forall i | OccursAt(s, t, i)
        ensures OccursAt(s[1..], t, i - 1)
      {
        assert s[1..][i - 1..i - 1 + |t|] == s[i..i + |t|];
      }
      forall i | OccursAt(s[1..], t, i)
        ensures OccursAt(s, t, i + 1)
      {
        assert s[1..][i..i + |t|] == s[i + 1..i + 1 + |t|];
      }
    }
  }

  /** A non-empty pattern whose first character never appears cannot be found. */
  lemma {:induction false} NotContainedWithoutFirstChar(s: string, t: string)
    requires t != []
    requires forall i :: 0 <= i < |s| ==> s[i] != t[0]
    ensures !Contains(s, t)
    decreases |s|
  {
    if s != [] {
      if |t| <= |s| {
        assert s[..|t|][0] == s[0];
      }
      NotContainedWithoutFirstChar(s[1..], t);
    }
  }

  // ---------------------------------------------------------------------
  // split, join, trim_end_matches

  function CountChar(s: string, c: char): nat {
    if s == [] then 0 else (if s[0] == c then 1 else 0) + CountChar(s[1..], c)
  }

  /** `str::split(sep)` with a character separator, collected into a vector. */
  function Split(s: string, sep: char): (parts: seq<string>)
    ensures |parts| == CountChar(s, sep) + 1
    ensures forall k :: 0 <= k < |parts| ==> sep !in parts[k]
    decreases |s|
  {
    if s == [] then [""]
    else
      var rest := Split(s[1..], sep);
      if s[0] == sep then [""] + rest
      else [[s[0]] + rest[0]] + rest[1..]
  }

  /** Concatenate `parts` with `sep` between neighbours. */
  function Join(parts: seq<string>, sep: char): string
    requires |parts| >= 1
    decreases |parts|
  {
    if |parts| == 1 then parts[0] else parts[0] + [sep] + Join(parts[1..], sep)
  }

  /** Splitting loses nothing: joining the pieces gives the string back. */
  lemma {:induction false} SplitJoin(s: string, sep: char)
    ensures Join(Split(s, sep), sep) == s
    decreases |s|
  {
    if s != [] {
      var rest := Split(s[1..], sep);
      SplitJoin(s[1..], sep);
      if s[0] == sep {
        assert ([""] + rest)[1..] == rest;
        assert s == [sep] + s[1..];
      } else {
        var parts := [[s[0]] + rest[0]] + rest[1..];
        if |rest| > 1 {
          assert parts[1..] == rest[1..];
          assert Join(parts, sep) == [s[0]] + (rest[0] + [sep] + Join(rest[1..], sep));
        }
        assert s == [s[0]] + s[1..];
      }
    }
  }

  /** The pieces of `[c] + t`, given the pieces of `t`. */
  function SplitOnto(c: char, parts: seq<string>, sep: char): seq<string>
    requires |parts| >= 1
  {
    if c == sep then [""] + parts else [[c] + parts[0]] + parts[1..]
  }

  lemma SplitCons(c: char, t: string, sep: char)
    ensures Split([c] + t, sep) == SplitOnto(c, Split(t, sep), sep)
  {
    assert ([c] + t)[0] == c && ([c] + t)[1..] == t;
  }

  lemma SplitOntoAppend(c: char, xs: seq<string>, ys: seq<string>, sep: char)
    requires |xs| >= 1
    ensures SplitOnto(c, xs + ys, sep) == SplitOnto(c, xs, sep) + ys
  {
    if c != sep {
      assert (xs + ys)[0] == xs[0];
      assert (xs + ys)[1..] == xs[1..] + ys;
    }
  }

  /** Splitting around one separator splits each side independently. */
  lemma {:induction false} SplitAround(a: string, b: string, sep: char)
    ensures Split(a + [sep] + b, sep) == Split(a, sep) + Split(b, sep)
    decreases |a|
  {
    if a == [] {
      assert a + [sep] + b == [sep] + b;
      SplitCons(sep, b, sep);
    } else {
      var t := a[1..] + [sep] + b;
      assert a + [sep] + b == [a[0]] + t;
      assert a == [a[0]] + a[1..];
      SplitAround(a[1..], b, sep);
      SplitCons(a[0], t, sep);
      SplitCons(a[0], a[1..], sep);
      SplitOntoAppend(a[0], Split(a[1..], sep), Split(b, sep), sep);
    }
  }

  lemma {:induction false} CountCharZero(s: string, c: char)
    ensures CountChar(s, c) == 0 <==> c !in s
    decreases |s|
  {
    if s != [] {
      CountCharZero(s[1..], c);
      assert s == [s[0]] + s[1..];
    }
  }

  /** Joining two non-empty lists of pieces joins their joins. */
  lemma {:induction false} JoinAppend(a: seq<string>, b: seq<string>, sep: char)
    requires |a| >= 1 && |b| >= 1
    ensures Join(a + b, sep) == Join(a, sep) + [sep] + Join(b, sep)
    decreases |a|
  {
    if |a| > 1 {
      JoinAppend(a[1..], b, sep);
      assert (a + b)[1..] == a[1..] + b;
    } else {
      assert (a + b)[1..] == b;
    }
  }

  lemma JoinTwo(a: string, b: string, sep: char)
    ensures Join([a, b], sep) == a + [sep] + b
  {
    assert [a, b][1..] == [b];
  }

  /** The pieces of a split string end the string, right after a separator. */
  lemma SplitSuffix(t: string, sep: char)
    requires |Split(t, sep)| >= 2
    ensures var parts := Split(t, sep); var n := |parts|;
      exists p :: t == p + (parts[n - 2] + [sep] + parts[n - 1]) && (p == [] || p[|p| - 1] == sep)
  {
    var parts := Split(t, sep);
    var n := |parts|;
    SplitJoin(t, sep);
    var last := parts[n - 2..];
    assert last == [parts[n - 2], parts[n - 1]];
    JoinTwo(parts[n - 2], parts[n - 1], sep);
    if n == 2 {
      assert parts == last;
      assert t == [] + Join(last, sep);
    } else {
      var init := parts[..n - 2];
      assert parts == init + last;
      JoinAppend(init, last, sep);
      var p := Join(init, sep) + [sep];
      assert t == p + Join(last, sep);
    }
  }

  /** A string without the separator is a single piece. */
  lemma {:induction false} SplitWithoutSep(a: string, sep: char)
    requires sep !in a
    ensures Split(a, sep) == [a]
    decreases |a|
  {
    if a != [] {
      assert sep !in a[1..];
      SplitWithoutSep(a[1..], sep);
      assert [a[0]] + a[1..] == a;
    }
  }

  /** `str::trim_end_matches(c)`: drop every trailing `c`. */
  function TrimEnd(s: string, c: char): (r: string)
    ensures |r| <= |s| && s[..|r|] == r
    ensures r == [] || r[|r| - 1] != c
    ensures forall i :: |r| <= i < |s| ==> s[i] == c
    decreases |s|
  {
    if s != [] && s[|s| - 1] == c then TrimEnd(s[..|s| - 1], c) else s
  }

  // ---------------------------------------------------------------------
  // lines, whitespace

  /** Index of the first `c` in `s`, or `|s|` when there is none. */
  function IndexOf(s: string, c: char): (k: nat)
    ensures k <= |s|
    ensures forall i :: 0 <= i < k ==> s[i] != c
    ensures k < |s| ==> s[k] == c
    decreases |s|
  {
    if s == [] then 0 else if s[0] == c then 0 else 1 + IndexOf(s[1..], c)
  }

  /** Drop one trailing carriage return. */
  function StripCr(line: string): string {
    if line != [] && line[|line| - 1] == '\r' then line[..|line| - 1] else line
  }

  /**
   * `str::lines`: split after each line feed, drop the line feed and a
   * carriage return just before it; a final line feed does not start an
   * empty last line.
   */
  function Lines(s: string): (lines: seq<string>)
    ensures forall k :: 0 <= k < |lines| ==> '\n' !in lines[k]
    decreases |s|
  {
    if s == [] then []
    else
      var k := IndexOf(s, '\n');
      if k == |s| then [s] else [StripCr(s[..k])] + Lines(s[k + 1..])
  }

  /** A non-empty text without line feeds is a single line. */
  lemma SingleLine(s: string)
    requires s != [] && '\n' !in s
    ensures Lines(s) == [s]
  {
    assert IndexOf(s, '\n') == |s|;
  }

  /** The first line ends at the first line feed. */
  lemma FirstLine(s: string, k: nat)
    requires k < |s| && s[k] == '\n'
    requires forall i :: 0 <= i < k ==> s[i] != '\n'
    ensures Lines(s) != [] && Lines(s)[0] == StripCr(s[..k])
  {
    assert IndexOf(s, '\n') == k;
  }

  /** A line without carriage returns is kept as it is. */
  lemma StripCrNoCr(line: string)
    requires '\r' !in line
    ensures StripCr(line) == line
  {
    if line != [] {
      assert line[|line| - 1] in line;
    }
  }

  /** Past its first line feed, a text splits into its first line and the lines of the rest. */
  lemma LinesStep(s: string, k: nat)
    requires k < |s| && k == IndexOf(s, '\n')
    ensures Lines(s) == [StripCr(s[..k])] + Lines(s[k + 1..])
  {
  }

  /**
   * Lines lose nothing but their line feeds: a text without carriage
   * returns and without a final line feed is its lines joined by line feeds.
   */
  lemma {:induction false} LinesJoin(s: string)
    requires s != [] && s[|s| - 1] != '\n'
    requires '\r' !in s
    ensures Lines(s) != [] && Join(Lines(s), '\n') == s
    decreases |s|
  {
    var k := IndexOf(s, '\n');
    if k < |s| {
      var head, rest := s[..k], s[k + 1..];
      assert s == head + ['\n'] + rest;
      assert rest != [] && rest[|rest| - 1] != '\n';
      StripCrNoCr(head);
      LinesJoin(rest);
      LinesStep(s, k);
      var ls := Lines(s);
      assert ls[0] == head && ls[1..] == Lines(rest);
    }
  }

  /** `char::is_whitespace`: the Unicode White_Space property. */
  predicate IsWhitespace(c: char) {
    c == ' ' || '\t' <= c <= '\r' || c == '\U{0085}' || c == '\U{00A0}' || c == '\U{1680}'
    || '\U{2000}' <= c <= '\U{200A}' || c == '\U{2028}' || c == '\U{2029}' || c == '\U{202F}'
    || c == '\U{205F}' || c == '\U{3000}'
  }

  /** `s.trim().is_empty()`: nothing but whitespace. */
  predicate IsBlank(s: string) {
    forall i :: 0 <= i < |s| ==> IsWhitespace(s[i])
  }

  // ---------------------------------------------------------------------
  // UTF-8 length

  function Utf8Width(c: char): nat {
    if c as int < 0x80 then 1 else if c as int < 0x800 then 2 else if c as int < 0x1_0000 then 3 else 4
  }

  /** `str::len`: the length of the UTF-8 encoding in bytes. */
  function ByteLen(s: string): (n: nat)
    ensures |s| <= n <= 4 * |s|
  {
    if s == [] then 0 else Utf8Width(s[0]) + ByteLen(s[1..])
  }

  // ---------------------------------------------------------------------
  // Decimal numbers

  function DigitChar(d: nat): char
    requires d < 10
  {
    ('0' as int + d) as char
  }

  function DigitValue(c: char): nat
    requires IsAsciiDigit(c)
  {
    c as int - '0' as int
  }

  /** Display of an unsigned integer in decimal. */
  function NatToString(n: nat): (s: string)
    ensures s != [] && AllDigits(s)
  {
    if n < 10 then [DigitChar(n)] else NatToString(n / 10) + [DigitChar(n % 10)]
  }

  /** The value of a string of decimal digits. */
  function DigitsValue(s: string): nat
    requires AllDigits(s)
    decreases |s|
  {
    if s == [] then 0 else DigitsValue(s[..|s| - 1]) * 10 + DigitValue(s[|s| - 1])
  }

  /**
   * `<u64 as FromStr>::from_str`: an optional `+`, then one or more ASCII
   * digits whose value fits in 64 bits.
   */
  function ParseU64(s: string): Option<u64> {
    var digits := if s != [] && s[0] == '+' then s[1..] else s;
    if digits != [] && AllDigits(digits) && DigitsValue(digits) < U64Limit
    then Some(DigitsValue(digits))
    else None
  }

  /** Rendering a number in decimal and reading the digits back gives the number. */
  lemma {:induction false} DecimalRoundTrip(n: nat)
    ensures DigitsValue(NatToString(n)) == n
  {
    if n >= 10 {
      var s := NatToString(n);
      DecimalRoundTrip(n / 10);
      assert s[..|s| - 1] == NatToString(n / 10);
    }
  }

  /** Every `u64` survives a trip through its decimal rendering. */
  lemma ParseU64RoundTrip(n: u64)
    ensures ParseU64(NatToString(n)) == Some(n)
  {
    DecimalRoundTrip(n);
  }

  /** A leading `+` is accepted: every `u64` also reads back from its signed rendering. */
  lemma ParseU64SignedRoundTrip(n: u64)
    ensures ParseU64("+" + NatToString(n)) == Some(n)
  {
    DecimalRoundTrip(n);
    assert ("+" + NatToString(n))[1..] == NatToString(n);
  }
}

=== FILE: trace.dfy ===
/**
 * The human-readable trace of the filter settings a collection ran with:
 * one "name: value" line per enabled setting, in a fixed order, with label
 * lists rendered the way Rust's `{:?}` renders a vector of strings.
 */
module Trace {
  import opened Common
  import opened Text
  import opened Filters

  function HexDigit(d: nat): char
    requires d < 16
  {
    if d < 10 then ('0' as int + d) as char else ('a' as int + d - 10) as char
  }

  /** Lower-case hexadecimal without leading zeros. */
  function Hex(n: nat): (s: string)
    ensures s != []
  {
    if n < 16 then [HexDigit(n)] else Hex(n / 16) + [HexDigit(n % 16)]
  }

  /** A character `{:?}` writes as itself inside a string literal. */
  predicate Verbatim(c: char) {
    c != '\t' && c != '\r' && c != '\n' && c != '\\' && c != '"' && c as int >= 0x20 && c as int != 0x7f
  }

  /** `{:?}` of one character inside a string literal. */
  function EscapeChar(c: char): (r: string)
    ensures Verbatim(c) <==> r == [c]
  {
    if c == '\t' then "\\t"
    else if c == '\r' then "\\r"
    else if c == '\n' then "\\n"
    else if c == '\\' then "\\\\"
    else if c == '"' then "\\\""
    else if c == '\0' then "\\0"
    else if c as int < 0x20 || c as int == 0x7f then "\\u{" + Hex(c as int) + "}"
    else [c]
  }

  function Escape(s: string): string {
    if s == [] then [] else EscapeChar(s[0]) + Escape(s[1..])
  }

  /** A string whose every character is written as itself is its own escape. */
  lemma {:induction false} EscapeVerbatim(s: string)
    requires forall i :: 0 <= i < |s| ==> Verbatim(s[i])
    ensures Escape(s) == s
  {
    if s != [] {
      EscapeVerbatim(s[1..]);
    }
  }

  /** `{:?}` of a string: quoted and escaped. */
  function DebugStr(s: string): string {
    "\"" + Escape(s) + "\""
  }

  function DebugItems(items: seq<string>): string {
    if items == [] then ""
    else if |items| == 1 then DebugStr(items[0])
    else DebugStr(items[0]) + ", " + DebugItems(items[1..])
  }

  /** `{:?}` of a vector of strings. */
  function DebugList(items: seq<string>): string {
    "[" + DebugItems(items) + "]"
  }

  /** One trace line: a setting's name, a colon and its value. */
  function Line(key: string, value: string): string {
    key + ": " + value
  }

  /** The name a trace line starts with: everything before its first colon. */
  function KeyOf(line: string): string {
    line[..IndexOf(line, ':')]
  }

  /** The name of a line is recovered from it, as long as the name has no colon. */
  lemma KeyOfLine(key: string, value: string)
    requires ':' !in key
    ensures KeyOf(Line(key, value)) == key
  {
    var line := Line(key, value);
    assert line[|key|] == ':';
    assert forall i :: 0 <= i < |key| ==> line[i] == key[i];
    assert IndexOf(line, ':') == |key|;
  }

  /** The names of the seven lines the trace can hold, in the order they are emitted. */
  const TraceKeys: seq<string> := [
    "include_labels", "exclude_labels", "rust_errors_only", "code_blocks_only",
    "min_body_length", "exclude_pull_requests", "min_comments"]

  /** No two of the names are the same: each is told apart by its length and first letter. */
  lemma TraceKeysDistinct()
    ensures forall i, j :: 0 <= i < j < |TraceKeys| ==> TraceKeys[i] != TraceKeys[j]
  {
    assert |TraceKeys[0]| == 14 && TraceKeys[0][0] == 'i';
    assert |TraceKeys[1]| == 14 && TraceKeys[1][0] == 'e';
    assert |TraceKeys[2]| == 16 && TraceKeys[2][0] == 'r';
    assert |TraceKeys[3]| == 16 && TraceKeys[3][0] == 'c';
    assert |TraceKeys[4]| == 15 && TraceKeys[4][0] == 'm';
    assert |TraceKeys[5]| == 21 && TraceKeys[5][0] == 'e';
    assert |TraceKeys[6]| == 12 && TraceKeys[6][0] == 'm';
  }

  /** The seven candidate lines, whether or not their guard holds. */
  function TraceLines(f: IssueFilters): (lines: seq<string>)
    ensures |lines| == |TraceKeys|
  {
    [
      Line(TraceKeys[0], DebugList(f.includeLabels)),
      Line(TraceKeys[1], DebugList(f.excludeLabels)),
      Line(TraceKeys[2], "true"),
      Line(TraceKeys[3], "true"),
      Line(TraceKeys[4], NatToString(f.minBodyLength.UnwrapOr(0))),
      Line(TraceKeys[5], "true"),
      Line(TraceKeys[6], NatToString(f.minComments.UnwrapOr(0)))]
  }

  /** The guard of each candidate line. */
  function TraceGuards(f: IssueFilters): (guards: seq<bool>)
    ensures |guards| == |TraceKeys|
  {
    [
      f.includeLabels != [], f.excludeLabels != [], f.rustErrorsOnly, f.codeBlocksOnly,
      f.minBodyLength.Some?, !f.includePullRequests, f.minComments.Some?]
  }

  /** The elements among the first `n` of `xs` whose flag is set, in order. */
  function SelectUpTo<T>(keep: seq<bool>, xs: seq<T>, n: nat): (r: seq<T>)
    requires |keep| == |xs| && n <= |xs|
    ensures |r| <= n
  {
    if n == 0 then []
    else SelectUpTo(keep, xs, n - 1) + (if keep[n - 1] then [xs[n - 1]] else [])
  }

  /**
   * A selection keeps exactly the flagged elements, in their original
   * order: `idx` gives, strictly increasing, the position each kept
   * element came from.
   */
  lemma {:induction false} SelectPicks<T>(keep: seq<bool>, xs: seq<T>, n: nat) returns (idx: seq<nat>)
    requires |keep| == |xs| && n <= |xs|
    ensures |idx| == |SelectUpTo(keep, xs, n)|
    ensures forall a :: 0 <= a < |idx| ==>
      idx[a] < n && keep[idx[a]] && SelectUpTo(keep, xs, n)[a] == xs[idx[a]]
    ensures forall a, b :: 0 <= a < b < |idx| ==> idx[a] < idx[b]
    ensures forall i :: 0 <= i < n && keep[i] ==> exists a :: 0 <= a < |idx| && idx[a] == i
  {
    if n == 0 {
      idx := [];
    } else {
      var rest := SelectPicks(keep, xs, n - 1);
      var init := SelectUpTo(keep, xs, n - 1);
      if keep[n - 1] {
        idx := rest + [n - 1];
        assert SelectUpTo(keep, xs, n) == init + [xs[n - 1]];
        forall a | 0 <= a < |idx|
          ensures idx[a] < n && keep[idx[a]] && SelectUpTo(keep, xs, n)[a] == xs[idx[a]]
        {
          if a < |rest| {
            assert idx[a] == rest[a];
          }
        }
        forall i | 0 <= i < n && keep[i]
          ensures exists a :: 0 <= a < |idx| && idx[a] == i
        {
          if i == n - 1 {
            assert idx[|rest|] == i;
          } else {
            var a :| 0 <= a < |rest| && rest[a] == i;
            assert idx[a] == i;
          }
        }
      } else {
        idx := rest;
        assert SelectUpTo(keep, xs, n) == init;
      }
    }
  }

  /** The trace `describe_filters` builds: the lines whose guard holds, in the fixed order. */
  function FilterTrace(f: IssueFilters): seq<string> {
    SelectUpTo(TraceGuards(f), TraceLines(f), |TraceKeys|)
  }

  /** A trace line with this name occurs. */
  ghost predicate Mentions(trace: seq<string>, key: string) {
    exists i :: 0 <= i < |trace| && KeyOf(trace[i]) == key
  }

  lemma TraceLineKeys(f: IssueFilters)
    ensures forall i :: 0 <= i < |TraceKeys| ==> KeyOf(TraceLines(f)[i]) == TraceKeys[i]
  {
    var t := TraceKeys;
    assert ':' !in t[0] && ':' !in t[1] && ':' !in t[2] && ':' !in t[3];
    assert ':' !in t[4] && ':' !in t[5] && ':' !in t[6];
    KeyOfLine(t[0], DebugList(f.includeLabels));
    KeyOfLine(t[1], DebugList(f.excludeLabels));
    KeyOfLine(t[2], "true");
    KeyOfLine(t[3], "true");
    KeyOfLine(t[4], NatToString(f.minBodyLength.UnwrapOr(0)));
    KeyOfLine(t[5], "true");
    KeyOfLine(t[6], NatToString(f.minComments.UnwrapOr(0)));
  }

  /** Each trace line is the candidate line of a setting whose guard holds, in increasing order. */
  lemma TraceOrigins(f: IssueFilters) returns (idx: seq<nat>)
    ensures |idx| == |FilterTrace(f)|
    ensures forall a :: 0 <= a < |idx| ==>
      idx[a] < |TraceKeys| && TraceGuards(f)[idx[a]] && KeyOf(FilterTrace(f)[a]) == TraceKeys[idx[a]]
    ensures forall a, b :: 0 <= a < b < |idx| ==> idx[a] < idx[b]
    ensures forall i :: 0 <= i < |TraceKeys| && TraceGuards(f)[i] ==> exists a :: 0 <= a < |idx| && idx[a] == i
  {
    idx := SelectPicks(TraceGuards(f), TraceLines(f), |TraceKeys|);
    TraceLineKeys(f);
  }

  /** The trace names each setting exactly when its guard holds. */
  lemma FilterTraceMentions(f: IssueFilters)
    ensures forall i :: 0 <= i < |TraceKeys| ==> (Mentions(FilterTrace(f), TraceKeys[i]) <==> TraceGuards(f)[i])
  {
    var t := FilterTrace(f);
    var idx := TraceOrigins(f);
    TraceKeysDistinct();
    forall i | 0 <= i < |TraceKeys|
      ensures Mentions(t, TraceKeys[i]) <==> TraceGuards(f)[i]
    {
      if TraceGuards(f)[i] {
        var a :| 0 <= a < |idx| && idx[a] == i;
        assert KeyOf(t[a]) == TraceKeys[i];
      }
      if Mentions(t, TraceKeys[i]) {
        var a :| 0 <= a < |t| && KeyOf(t[a]) == TraceKeys[i];
        assert TraceKeys[idx[a]] == TraceKeys[i];
      }
    }
  }

  /** The trace names nothing else: never the state, the date range or the keyword lists. */
  lemma FilterTraceOnlyKnown(f: IssueFilters)
    ensures forall k :: Mentions(FilterTrace(f), k) ==> k in TraceKeys
    ensures !Mentions(FilterTrace(f), "state") && !Mentions(FilterTrace(f), "date_range")
    ensures !Mentions(FilterTrace(f), "required_keywords") && !Mentions(FilterTrace(f), "excluded_keywords")
  {
    var t := FilterTrace(f);
    var idx := TraceOrigins(f);
    forall k | Mentions(t, k)
      ensures k in TraceKeys
    {
      var a :| 0 <= a < |t| && KeyOf(t[a]) == k;
      assert k == TraceKeys[idx[a]];
    }
    TraceKeysOther();
  }

  /** The trace keeps the fixed order: an earlier line names an earlier setting. */
  lemma FilterTraceOrdered(f: IssueFilters)
    ensures forall a, b :: 0 <= a < b < |FilterTrace(f)| ==>
      exists i, j :: 0 <= i < j < |TraceKeys| && KeyOf(FilterTrace(f)[a]) == TraceKeys[i] && KeyOf(FilterTrace(f)[b]) == TraceKeys[j]
  {
    var t := FilterTrace(f);
    var idx := TraceOrigins(f);
    forall a, b | 0 <= a < b < |t|
      ensures exists i, j :: 0 <= i < j < |TraceKeys| && KeyOf(t[a]) == TraceKeys[i] && KeyOf(t[b]) == TraceKeys[j]
    {
      assert KeyOf(t[a]) == TraceKeys[idx[a]] && KeyOf(t[b]) == TraceKeys[idx[b]];
    }
  }

  /** The settings the trace never reports are not among its names. */
  lemma TraceKeysOther()
    ensures "state" !in TraceKeys && "date_range" !in TraceKeys
    ensures "required_keywords" !in TraceKeys && "excluded_keywords" !in TraceKeys
  {
    forall i | 0 <= i < |TraceKeys|
      ensures |TraceKeys[i]| != 5 && |TraceKeys[i]| != 10 && |TraceKeys[i]| != 17
    {
    }
  }

  /** `describe_filters`: one line per enabled setting, pushed in the fixed order. */
  method DescribeFilters(filters: IssueFilters) returns (descriptions: seq<string>)
    ensures descriptions == FilterTrace(filters)
  {
    ghost var guards, lines := TraceGuards(filters), TraceLines(filters);
    descriptions := [];
    if filters.includeLabels != [] {
      descriptions := descriptions + [Line("include_labels", DebugList(filters.includeLabels))];
    }
    assert descriptions == SelectUpTo(guards, lines, 1);
    if filters.excludeLabels != [] {
      descriptions := descriptions + [Line("exclude_labels", DebugList(filters.excludeLabels))];
    }
    assert descriptions == SelectUpTo(guards, lines, 2);
    if filters.rustErrorsOnly {
      descriptions := descriptions + [Line("rust_errors_only", "true")];
    }
    assert descriptions == SelectUpTo(guards, lines, 3);
    if filters.codeBlocksOnly {
      descriptions := descriptions + [Line("code_blocks_only", "true")];
    }
    assert descriptions == SelectUpTo(guards, lines, 4);
    if filters.minBodyLength.Some? {
      descriptions := descriptions + [Line("min_body_length", NatToString(filters.minBodyLength.value))];
    }
    assert descriptions == SelectUpTo(guards, lines, 5);
    if !filters.includePullRequests {
      descriptions := descriptions + [Line("exclude_pull_requests", "true")];
    }
    assert descriptions == SelectUpTo(guards, lines, 6);
    if filters.minComments.Some? {
      descriptions := descriptions + [Line("min_comments", NatToString(filters.minComments.value))];
    }
  }
}

=== FILE: types.dfy ===
/**
 * The normalized records shared by every part of the fetcher, and the
 * repository reference with its three constructors.
 */
module Types {
  import opened Common
  import opened Text

  /** An instant in UTC; only its order matters to the model. */
  type Time = int

  datatype GitHubLabel = GitHubLabel(id: u64, name: string, color: string, description: Option<string>)

  datatype GitHubUser = GitHubUser(id: u64, login: string, avatarUrl: string)

  /** The canonical issue or pull request. */
  datatype GitHubIssue = GitHubIssue(
    id: u64,
    number: u64,
    title: string,
    body: Option<string>,
    state: string,
    labels: seq<GitHubLabel>,
    user: GitHubUser,
    assignees: seq<GitHubUser>,
    createdAt: Time,
    updatedAt: Time,
    closedAt: Option<Time>,
    mergedAt: Option<Time>,
    htmlUrl: string,
    isPullRequest: bool,
    comments: u32)

  datatype GitHubComment = GitHubComment(
    id: u64,
    user: GitHubUser,
    body: string,
    createdAt: Time,
    updatedAt: Time,
    htmlUrl: string)

  datatype Repository = Repository(owner: string, name: string, fullName: string)

  datatype DiscussionComment = DiscussionComment(
    id: string,
    body: string,
    author: GitHubUser,
    createdAt: Time,
    updatedAt: Time)

  datatype Discussion = Discussion(
    number: u64,
    title: string,
    body: string,
    url: string,
    author: GitHubUser,
    createdAt: Time,
    updatedAt: Time,
    comments: seq<DiscussionComment>)

  datatype CollectionResult = CollectionResult(
    repository: Repository,
    issues: seq<GitHubIssue>,
    totalCollected: nat,
    collectionTime: Time,
    filtersApplied: seq<string>)

  datatype PrReview = PrReview(
    id: u64,
    user: GitHubUser,
    body: Option<string>,
    state: string,
    submittedAt: Option<Time>,
    htmlUrl: string,
    commitId: Option<string>)

  /** An inline comment on a pull request's diff. */
  datatype PrReviewComment = PrReviewComment(
    id: u64,
    reviewId: Option<u64>,
    user: GitHubUser,
    body: string,
    path: string,
    line: Option<u32>,
    originalLine: Option<u32>,
    diffHunk: string,
    side: Option<string>,
    commitId: Option<string>,
    createdAt: Time,
    updatedAt: Time,
    htmlUrl: string,
    position: Option<u32>,
    inReplyToId: Option<u64>)

  /** The placeholder author used when the wire data names none. */
  function SentinelUser(): GitHubUser {
    GitHubUser(0, "unknown", "")
  }

  // ---------------------------------------------------------------------
  // Repository references

  /** The invariant every repository reference keeps. */
  predicate WellFormed(r: Repository) {
    r.fullName == r.owner + "/" + r.name
  }

  /** `Repository::new`: always succeeds and keeps both parts as given. */
  function NewRepository(owner: string, name: string): (r: Repository)
    ensures WellFormed(r)
    ensures r.owner == owner && r.name == name
  {
    Repository(owner, name, owner + "/" + name)
  }

  /** `Repository::from_url`: the last two `/`-separated segments once trailing slashes are gone. */
  function FromUrl(url: string): Result<Repository, string> {
    var parts := Split(TrimEnd(url, '/'), '/');
    if |parts| < 2 then Err("Invalid repository URL: " + url)
    else Ok(NewRepository(parts[|parts| - 2], parts[|parts| - 1]))
  }

  /** `Repository::from_full_name`: exactly two `/`-separated segments. */
  function FromFullName(fullName: string): Result<Repository, string> {
    var parts := Split(fullName, '/');
    if |parts| != 2 then Err("Invalid repository full name format. Expected 'owner/name', got: " + fullName)
    else Ok(NewRepository(parts[0], parts[1]))
  }

  /** `from_full_name` accepts exactly the strings with one slash; empty segments pass. */
  lemma FromFullNameAcceptsOneSlash(s: string)
    ensures FromFullName(s).Ok? <==> CountChar(s, '/') == 1
    ensures FromFullName("/").Ok?
  {
    assert CountChar("/", '/') == 1;
  }

  /** A parsed full name renders back to the string it came from. */
  lemma FromFullNameRoundTrip(s: string)
    requires FromFullName(s).Ok?
    ensures WellFormed(FromFullName(s).value) && FromFullName(s).value.fullName == s
  {
    var parts := Split(s, '/');
    SplitJoin(s, '/');
    assert Join(parts, '/') == parts[0] + ['/'] + parts[1];
  }

  /** Splitting `o/n` recovers the owner and the name when neither holds a slash. */
  lemma FromFullNameOfParts(owner: string, name: string)
    requires '/' !in owner && '/' !in name
    ensures FromFullName(owner + "/" + name) == Ok(NewRepository(owner, name))
  {
    SplitAround(owner, name, '/');
    SplitWithoutSep(owner, '/');
    SplitWithoutSep(name, '/');
    assert owner + "/" + name == owner + ['/'] + name;
  }

  /** `from_url` fails exactly when no slash is left once trailing slashes are trimmed. */
  lemma FromUrlFailsIff(url: string)
    ensures FromUrl(url).Err? <==> '/' !in TrimEnd(url, '/')
  {
    CountCharZero(TrimEnd(url, '/'), '/');
  }

  /** A trailing slash changes neither the verdict nor the reference. */
  lemma FromUrlIgnoresTrailingSlash(url: string)
    ensures FromUrl(url + "/").Ok? <==> FromUrl(url).Ok?
    ensures FromUrl(url).Ok? ==> FromUrl(url + "/").value == FromUrl(url).value
  {
    assert (url + "/")[..|url|] == url;
    assert TrimEnd(url + "/", '/') == TrimEnd(url, '/');
  }

  /**
   * The reference `from_url` builds is the tail of the trimmed URL: its
   * owner and name hold no slash and its full name ends the trimmed URL
   * right after a slash (or is all of it).
   */
  lemma FromUrlTakesLastSegments(url: string)
    requires FromUrl(url).Ok?
    ensures '/' !in FromUrl(url).value.owner && '/' !in FromUrl(url).value.name
    ensures exists p :: TrimEnd(url, '/') == p + FromUrl(url).value.fullName && (p == [] || p[|p| - 1] == '/')
  {
    SplitSuffix(TrimEnd(url, '/'), '/');
  }

  /** A forge URL `prefix/owner/name` yields exactly that owner and name. */
  lemma FromUrlOfRepositoryUrl(prefix: string, owner: string, name: string)
    requires '/' !in owner && '/' !in name && name != []
    ensures FromUrl(prefix + "/" + owner + "/" + name) == Ok(NewRepository(owner, name))
  {
    var url := prefix + "/" + owner + "/" + name;
    assert url[|url| - 1] == name[|name| - 1];
    assert TrimEnd(url, '/') == url;
    assert url == prefix + ['/'] + (owner + ['/'] + name);
    SplitAround(prefix, owner + ['/'] + name, '/');
    SplitAround(owner, name, '/');
    SplitWithoutSep(owner, '/');
    SplitWithoutSep(name, '/');
  }
}
